=== FILE: README.md ===
# Checklist web app: a Dafny model of its views and data

The modelled application is a Django site for sharing checklists:
- Users write checklists. Each has a title, rich-text content, an optional category and a draft flag, and holds items that can be ticked.
- Other users can upvote, bookmark, follow, comment on and "save and edit" (copy) those checklists.
- Users can follow each other.
- Upvotes, user follows and checklist follows leave a notification for the person concerned.

This project models the `checklist` app's data (`checklist/models.py`) and the views that read and write it, as pure functions over an immutable database value.

- **Database.** `Models.Db` holds one map per table from primary key to row, plus the user set.
  - The four link tables (`Upvote`, `Bookmark`, `Follow`, `FollowChecklist`) are `Relation.Table`s.
  - One counter, `nextId`, hands out fresh primary keys.
  - An abstract clock, `clock`, stands in for `timezone.now`.
- **Views.** Every view that writes is a function from the database and the request to a `Outcomes.Step`: the database afterwards plus an `Outcome`. The outcome is one of:
  - a success or error flash message, with the message's exact text in `Outcomes.Text`;
  - success without a message;
  - silence (an invalid form shown again);
  - a 404, a 403, or an uncaught exception (`Crash`).
- **List views.** Each list view is a function from the database and the request to the rows it shows, or to the outcome that replaced them. Paging happens twice (`Pager`):
  - Django's `ListView` first checks the raw `page` parameter against the view's whole model table (`ListViewPage`). It answers 404 for text that is neither an integer nor `"last"`, and for a number outside that table's pages.
  - `paginate_content` then pages the view's own rows. It falls back to page 1 when `int()` fails and to the last page for a number out of range.
  - Each checklist is annotated with its upvote count and the viewer's flags (`Annotate`).
- **Integrity.** Two database invariants are proved for every write a logged-in user can send (`Invariants.Handle`):
  - `Models.Wf`: primary keys lie below the counter, timestamps lie in the past of the clock, and no foreign key dangles.
  - `Models.UniquePairs`: no link table holds two rows for one pair.

Modules, following the program's structure:

| module | file | models |
|---|---|---|
| `Wrappers` | wrappers.dfy | `Option`; `IntParam`, which is how Python's `int()` sees a request parameter |
| `Relation` | relation.dfy | link tables and the create-if-absent / delete-if-present toggle |
| `Ordering` | ordering.dfy | key filtering in primary-key order; `order_by` as a stable insertion sort |
| `Text` | text.dfy | `str.strip()`, `icontains`, title collation, `int()` and `str()` on base-10 numbers |
| `Forms` | forms.dfy | cleaning of the title and rich-text fields of the model forms |
| `Models` | models.dfy | the schema, defaults, `__str__`, integrity predicates |
| `Cascade` | cascade.dfy | `on_delete=CASCADE` / `SET_NULL` for checklists, categories and comment threads |
| `Pager` | pager.dfy | `paginate_content` over Django's `Paginator`, and the page check of Django's `ListView` |
| `Annotate` | annotate.dfy | `get_upvote_bookmark_list` |
| `Outcomes` | outcomes.dfy | flash messages and request outcomes |
| `ViewFunc` | viewfunc.dfy | the function views of `views_viewfunc.py` |
| `ItemComm` | itemcomm.dfy | item and comment create/update/delete views |
| `Feeds` | feeds.dfy | the home, user, draft, category and search listings |
| `ChecklistViews` | checklistviews.dfy | detail page, user page, checklist create/update/delete |
| `Listings` | listings.dfy | bookmark, upvote, search and category pages |
| `Invariants` | invariants.dfy | request dispatch and the two database invariants |

## Model

All source paths are relative to the repository root.

| member | source | states |
|---|---|---|
| Models.KindOfCode | checklist/models.py:77-85 | a stored `notif_type` names a kind exactly when it is 1, 2 or 3, and it names the kind whose code it is |
| Models.KindCodeRoundTrip | checklist/models.py:77-85 | every notification kind survives being stored as its integer and read back |
| Models.NewChecklist | checklist/models.py:8-16 | a new checklist is published (not a draft) with visibility 0 and carries the given fields |
| Models.NewItem | checklist/models.py:25-28 | a new item is not completed and belongs to the given checklist |
| Models.NewNotification | checklist/models.py:87-97 | a notification created without a kind is an upvote notification (code 1); recipient and checklist are optional |
| Models.LinkStr | checklist/models.py:34-47 | an upvote or bookmark prints as the username, " - ", then the checklist's title |
| Models.ItemsOf | checklist/models.py:28 | `item_set` is exactly the items whose foreign key names the checklist, each once, in key order |
| Models.Notify | checklist/models.py:87-97 | saving a notification inserts exactly that row, stamped with the current time, under a fresh key and changes nothing else |
| Relation.Toggle | checklist/views/views_viewfunc.py:53-67 | the toggle adds a row exactly when the pair had none and removes every such row otherwise; the relation is flipped at that pair, other rows are kept, and at most one row per pair is preserved |
| Relation.ToggleTwice | checklist/views/views_viewfunc.py:53-67 | toggling the same pair twice restores the relation, and restores the table itself when the pair started absent |
| Relation.ToggleCount | checklist/views/views_viewfunc.py:53-67 | a toggle moves the target's row count down by one when it removes and up by one when it adds, and leaves every other target's count alone |
| Relation.RemoveAll | checklist/views/views_viewfunc.py:57-58 | `filter(...).delete()` removes exactly the rows equal to the pair and keeps the rest unchanged |
| Text.Strip | checklist/views/views_bookupsearcateg.py:100 | `strip()` returns the input with only a whitespace prefix and a whitespace suffix dropped, and leaves no whitespace at either end |
| Text.StripUnique | checklist/views/views_bookupsearcateg.py:100 | any slice bordered only by whitespace and with none at its own ends (or empty) is exactly what `strip()` returns |
| Text.StripCore | checklist/views/views_bookupsearcateg.py:100 | the non-empty case of `StripUnique`: such a slice is the stripped string |
| Text.StripEmptyIffBlank | checklist/views/views_bookupsearcateg.py:100 | a stripped query is empty exactly when the query is all whitespace |
| Text.StripIdempotent | checklist/views/views_bookupsearcateg.py:100 | stripping twice is stripping once |
| Text.MarginsKeep | checklist/views/views_bookupsearcateg.py:100 | a slice bordered only by whitespace contains a non-whitespace character exactly when the whole string does |
| Text.StripKeeps | checklist/views/views_bookupsearcateg.py:100 | `strip()` removes only whitespace: a non-whitespace character is in the stripped string exactly when it is in the input |
| Text.IContainsIgnoresCase | checklist/views/views_bookupsearcateg.py:102-105 | lower-casing either the text or the query does not change an `icontains` match |
| Text.StrLeTrans | checklist/views/views_checklist.py:176 | title collation is transitive |
| Text.StrLeTotal | checklist/views/views_checklist.py:176 | any two titles are comparable |
| Text.ParseInt | checklist/views/helper_methods.py:9 | `int()` of a string accepts exactly surrounding whitespace, an optional sign and digit groups joined by single underscores; a negative value needs a `-` |
| Text.ParseShowInt | checklist/views/helper_methods.py:9 | `int(str(n)) == n` for every integer `n` |
| Text.NotIntegers | checklist/views/helper_methods.py:9 | `int()` fails on `""` and on `"last"` |
| Forms.TitleField | checklist/models.py:9 | a title is accepted exactly when its stripped form is non-empty and at most 100 characters and it holds no NUL character (the `ProhibitNullCharactersValidator` every Django 3.0 `CharField` carries), and the stripped form is what is stored |
| Forms.TitleFieldIdempotent | checklist/models.py:9 | a cleaned title is accepted unchanged when submitted again |
| Forms.TitleFieldPadded | checklist/models.py:9 | a title that is a core with no whitespace at its ends, padded with whitespace, stores the core when it has at most 100 characters and no NUL character, and is rejected otherwise |
| Forms.ContentField | checklist/models.py:11 | rich-text content is accepted exactly when it is not blank and holds no NUL character (the rich-text form field is a Django `CharField`), and it is stored stripped |
| Ordering.SortBySorted | checklist/views/views_checklist.py:176 | `order_by` under a total order puts its input in order |
| Ordering.SortDesc | checklist/views/views_bookupsearcateg.py:132 | `order_by("-date_posted")` yields a permutation of its input, newest first |
| Pager.NumPages | checklist/views/helper_methods.py:6 | the page count is at least 1, and is the least count whose pages hold every entry |
| Pager.PageAt | checklist/views/helper_methods.py:9 | page `n` is the contiguous slice starting at `(n-1)*size`: full except possibly on the last page, and never empty for a non-empty list |
| Pager.Paginate | checklist/views/helper_methods.py:4-15 | a missing or non-integer page gives page 1; an in-range number gives that page; any other number, including 0 and negatives, gives the last page |
| Pager.PageNeverEmpty | checklist/views/helper_methods.py:8-13 | whatever page is asked for, a non-empty list shows a non-empty page |
| Pager.HasOtherPagesIffSeveral | checklist/views/views_bookupsearcateg.py:50 | `is_paginated` holds exactly when the list is longer than one page |
| Pager.PagesCoverAll | checklist/views/helper_methods.py:6-9 | the pages, concatenated in order, are the whole list |
| Pager.PageIntParam | checklist/views/helper_methods.py:9-11 | `paginate_content` sees a missing `page` as missing, and a present one as an integer exactly when `int()` accepts it |
| Pager.ListViewPage | checklist/views/views_bookupsearcateg.py:13-22 | the `ListView` check (`paginate_by = 5`, run by the `super()` call): no page or an empty one is page 1, `"last"` is the last page of the model table, an integer passes exactly when it lies in `1..num_pages` of that table, and any other text is a 404 |
| Pager.AcceptedPageNumber | checklist/views/helper_methods.py:8-13 | after the `ListView` check passes, `paginate_content` shows page 1 for a missing, empty or `"last"` page, and otherwise the requested number capped at the list's last page |
| Pager.ListViewAcceptsShown | checklist/views/views_bookupsearcateg.py:13-22 | a page number written as `str(v)` passes the `ListView` check exactly when `1 <= v <= num_pages` |
| Annotate.UpvoteBookmarkLists | checklist/views/helper_methods.py:18-46 | the three lists align with the checklists: each count is the checklist's upvotes; a logged-in viewer's flags say whether they upvoted and bookmarked it; a guest's flags are all true |
| Annotate.AnnotateCommutesWithPaging | checklist/views/helper_methods.py:4-15 | annotating the whole list and then paging gives the same page as paging first and annotating that page |
| Cascade.Subtree | checklist/models.py:107 | the comments a delete removes include the roots, are closed under replies, and each is a root or a reply to one of them |
| Cascade.SubtreeLeast | checklist/models.py:107 | that set is the least reply-closed set containing the roots |
| Cascade.DeleteChecklist | checklist/models.py:28-103 | deleting a checklist removes exactly its items, upvotes, bookmarks, checklist follows and notifications, and its comments together with every reply below them; everything else stays |
| Cascade.DeleteChecklistKeepsRows | checklist/models.py:28-103 | rows that survive the delete are unchanged |
| Cascade.DeleteChecklistWf | checklist/models.py:28-103 | after the cascade no foreign key dangles |
| Cascade.DeleteCategory | checklist/models.py:15 | deleting a category removes only it and sets the category of its checklists to null |
| Cascade.DeleteCategoryWf | checklist/models.py:15 | after `SET_NULL` the database is well formed and no checklist names the category |
| Cascade.DeleteCommentTree | checklist/models.py:107 | deleting a comment removes exactly it and the comments below it through `parent`, to any depth, and keeps every other comment unchanged |
| Cascade.DeleteCommentTreeRemovesThread | checklist/models.py:107 | the removed comments are the least set holding the comment and every reply to a member: each reply below a removed comment is removed, and any set closed under replies that holds the comment covers all of them |
| Cascade.DeleteCommentTreeWf | checklist/models.py:107 | after the comment cascade no reply names a deleted parent |
| ViewFunc.UpvoteChecklist | checklist/views/views_viewfunc.py:48-79 | an unknown checklist raises; the author is refused; anyone else toggles their upvote, and only an added upvote notifies the author (kind 1) |
| ViewFunc.UpvoteTwice | checklist/views/views_viewfunc.py:53-67 | two upvote requests in a row leave the upvote relation as it was |
| ViewFunc.BookmarkChecklist | checklist/views/views_viewfunc.py:96-117 | an unknown checklist raises; the author is refused; anyone else toggles their bookmark, without notification |
| ViewFunc.BookmarkTwice | checklist/views/views_viewfunc.py:101-115 | two bookmark requests in a row leave the bookmark relation as it was |
| ViewFunc.ItemAction | checklist/views/views_viewfunc.py:132-149 | a missing item raises; a non-author is refused; "complete" flips only that item's flag, "delete" removes only that item, and any other action raises |
| ViewFunc.TickTwice | checklist/views/views_viewfunc.py:139-141 | ticking an item twice restores the database |
| ViewFunc.PublishChecklist | checklist/views/views_viewfunc.py:162-171 | only the author may publish; publishing clears only the draft flag of that checklist |
| ViewFunc.PublishIdempotent | checklist/views/views_viewfunc.py:162-171 | publishing twice is publishing once |
| ViewFunc.FollowUser | checklist/views/views_viewfunc.py:187-205 | following oneself is refused; an unknown username raises; otherwise the follow toggles and only a new follow notifies the followed user (kind 2) |
| ViewFunc.FollowUserTwice | checklist/views/views_viewfunc.py:191-200 | two follow requests in a row leave the follow relation as it was |
| ViewFunc.CopyItems | checklist/views/views_viewfunc.py:240-243 | copied items go under fresh consecutive keys, each a copy of its source item re-parented to the new checklist; existing items are untouched |
| ViewFunc.SaveCopy | checklist/views/views_viewfunc.py:219-243 | the copy is a new published checklist titled "<title> by <user>", owned by the saver, with the original's content and category, posted now, plus a copy of every item |
| ViewFunc.CopiedItemsKeys | checklist/views/views_viewfunc.py:240-243 | the item table after copying holds the old items plus exactly one new key per copied item |
| ViewFunc.CopiedItemsContents | checklist/views/views_viewfunc.py:240-243 | the j-th new item keeps the title and completed flag of the j-th original item and belongs to the copy |
| ViewFunc.SaveAndEdit | checklist/views/views_viewfunc.py:219-257 | an unknown checklist raises; the author is refused; a user who already holds a copy is refused and nothing changes; otherwise the copy is saved |
| ViewFunc.SaveAndEditRepeat | checklist/views/views_viewfunc.py:224-252 | saving the same checklist a second time is refused with "already saved" and changes nothing |
| ViewFunc.DismissNotif | checklist/views/views_viewfunc.py:270-271 | exactly the notification with that id is deleted, whoever asks; an unknown id changes nothing |
| ViewFunc.FollowChecklist | checklist/views/views_viewfunc.py:285-310 | an unknown checklist raises; the author is refused; anyone else toggles the follow, and only a new follow notifies the author (kind 3) |
| ViewFunc.FollowChecklistTwice | checklist/views/views_viewfunc.py:291-300 | two follow requests in a row leave the checklist-follow relation as it was |
| ViewFunc.ParentOf | checklist/views/views_viewfunc.py:336-343 | a missing or zero `parent_id` starts a new thread; an id of an existing comment makes a reply to it; a non-number or a negative or unknown id raises |
| ViewFunc.SubmitComment | checklist/views/views_viewfunc.py:325-360 | a comment is saved exactly when the form is valid, the parent reads correctly, and the commenter is not the author starting a new thread; nothing else changes otherwise |
| ItemComm.CreateItem | checklist/views/views_itemcomm_crud.py:21-41 | an unknown checklist raises; a non-author is refused; a valid title adds one uncompleted item to the checklist |
| ItemComm.ItemGuard | checklist/views/views_itemcomm_crud.py:60-62 | an unknown item is a 404; an item is editable exactly when it and its checklist exist and the user wrote the checklist |
| ItemComm.UpdateItem | checklist/views/views_itemcomm_crud.py:50-62 | only the checklist's author may rename an item; a valid title replaces only that item's title |
| ItemComm.UpdateItemIdempotent | checklist/views/views_itemcomm_crud.py:50-62 | repeating the same rename changes nothing more |
| ItemComm.CommentGuard | checklist/views/views_itemcomm_crud.py:75-90 | a comment may be edited or deleted exactly by its writer; an unknown id is a 404, anyone else gets a 403 |
| ItemComm.UpdateComment | checklist/views/views_itemcomm_crud.py:66-77 | a valid body replaces only that comment's body |
| ItemComm.DeleteComment | checklist/views/views_itemcomm_crud.py:98-120 | a top-level comment with replies is kept and the writer is told; any other comment is deleted with all replies below it |
| ItemComm.DeleteCommentTwice | checklist/views/views_itemcomm_crud.py:98-120 | deleting a deleted comment again is a 404 |
| ItemComm.DeleteCommentRemovesThread | checklist/views/views_itemcomm_crud.py:105-120 | a deletion that goes through removes the least reply-closed set holding the comment, so the whole thread below it goes and nothing else |
| ItemComm.DeleteLoneComment | checklist/views/views_itemcomm_crud.py:105-120 | a top-level comment without replies is removed alone |
| Feeds.HomeFeed | checklist/views/views_checklist.py:34 | the home feed lists exactly the published checklists, each once, newest first |
| Feeds.UserFeed | checklist/views/views_checklist.py:96 | a user's page lists exactly that user's published checklists, each once, newest first |
| Feeds.DraftFeed | checklist/views/views_checklist.py:117-119 | the drafts page lists exactly the user's drafts, each once, newest first |
| Feeds.CategoryFeed | checklist/views/views_bookupsearcateg.py:130-132 | a category page lists exactly the published checklists in that category, each once, newest first |
| Feeds.SearchHits | checklist/views/views_bookupsearcateg.py:102-105 | search finds exactly the published checklists whose title or content contains the query, ignoring case |
| Feeds.UserFeedsPartition | checklist/views/views_checklist.py:96-119 | each of a user's checklists is on exactly one of the user's page and the drafts page, and the user's page is part of the home feed |
| Feeds.SearchIgnoresCase | checklist/views/views_bookupsearcateg.py:102-105 | a lower-cased query finds the same checklists |
| ChecklistViews.ByTitleOrders | checklist/views/views_checklist.py:176 | ordering items by title is total and transitive |
| ChecklistViews.ItemsByTitle | checklist/views/views_checklist.py:176 | the detail page lists exactly the checklist's items, each once, in title order |
| ChecklistViews.TopComments | checklist/views/views_checklist.py:182 | the detail page lists exactly the checklist's top-level comments, each once, newest first |
| ChecklistViews.DetailPage | checklist/views/views_checklist.py:146-182 | an unknown checklist is a 404; a guest's flags are all true; a logged-in viewer's flags say whether they upvoted, bookmarked and follow it; the count is its upvotes |
| ChecklistViews.UpvoteShowsOnDetail | checklist/views/views_checklist.py:149-175 | after an upvote request the detail page shows the opposite flag and a count one higher or one lower |
| ChecklistViews.UserPageData | checklist/views/views_checklist.py:85-96 | an unknown username is a 404; a guest's follow flag is true; a logged-in viewer's flag says whether they follow the user; the listing is the user's published checklists |
| ChecklistViews.UserPageFor | checklist/views/views_checklist.py:70-96 | a `page` the `ListView` check refuses over the whole checklist table, or an unknown username, is a 404; otherwise the page shows `UserPageData` |
| ChecklistViews.FollowShowsOnUserPage | checklist/views/views_checklist.py:87-93 | a follow request does not change whether the user page is shown, and the page then shows the opposite follow flag |
| ChecklistViews.CleanChecklist | checklist/views/views_checklist.py:202-204 | the form is valid exactly when the title and content clean and the category exists; the cleaned values are what is saved |
| ChecklistViews.CreateChecklist | checklist/views/views_checklist.py:202-210 | a valid form adds one checklist by the requesting user, posted now, with visibility 0; an invalid one changes nothing |
| ChecklistViews.CreatedChecklistComesFirst | checklist/views/views_checklist.py:202-210 | when the form is valid, the new published checklist heads its author's page and the home feed, and a new draft heads the author's drafts |
| ChecklistViews.AddedChecklistHeads | checklist/views/views_checklist.py:205-208 | a checklist saved with the current time is newer than every stored row, so it comes first in every newest-first feed it belongs to |
| ChecklistViews.UpdateChecklist | checklist/views/views_checklist.py:215-229 | unknown is a 404 and a non-author a 403; a valid form replaces title, content, category and draft flag of that checklist only, keeping author, date and visibility |
| ChecklistViews.DeleteChecklistView | checklist/views/views_checklist.py:234-242 | only the author may delete; afterwards no item, comment or upvote refers to the checklist |
| ChecklistViews.PublishMovesToUserPage | checklist/views/views_viewfunc.py:162-171 | a published checklist is on its author's page and no longer among the drafts |
| Listings.BookmarksOf | checklist/views/views_bookupsearcateg.py:27 | exactly the user's bookmarks, each once |
| Listings.BookmarkRows | checklist/views/views_bookupsearcateg.py:27-40 | each bookmark row carries the checklist's upvote count and whether the user upvoted it |
| Listings.BookmarkPage | checklist/views/views_bookupsearcateg.py:13-50 | a 404 exactly when the `ListView` check of `page` over the whole `Bookmark` table fails; otherwise the page `paginate_content` picks of the user's rows, paginated exactly when there are more than five and never empty while there are any |
| Listings.BookmarkPageNumber | checklist/views/views_bookupsearcateg.py:13-50 | page `v` is shown exactly when the `Bookmark` table has that page, and it is page `v` of the user's rows or their last page |
| Listings.BookmarkPageLast | checklist/views/views_bookupsearcateg.py:13-50 | `page=last` is shown, as page 1 |
| Listings.UpvotesOf | checklist/views/views_bookupsearcateg.py:65 | exactly the user's upvotes, each once |
| Listings.UpvoteRows | checklist/views/views_bookupsearcateg.py:64-72 | each upvote row carries the checklist's upvote count |
| Listings.UpvotePage | checklist/views/views_bookupsearcateg.py:56-82 | a 404 exactly when the `ListView` check of `page` over the whole `Upvote` table fails; otherwise the page `paginate_content` picks of the user's rows, paginated exactly when there are more than five |
| Listings.UpvotePageNumber | checklist/views/views_bookupsearcateg.py:56-82 | page `v` is shown exactly when the `Upvote` table has that page, and it is page `v` of the user's rows or their last page |
| Listings.UpvotePageLast | checklist/views/views_bookupsearcateg.py:56-82 | `page=last` is shown, as page 1 |
| Listings.Search | checklist/views/views_bookupsearcateg.py:88-111 | a 404 exactly when the `ListView` check of `page` over the whole checklist table fails; then no GET parameters at all raises; a missing or blank `q` hands on no query set (`hits == None`) and echoes ""; otherwise the hits are the search hits of the unstripped `q`, echoed back |
| Listings.SearchCaseInsensitive | checklist/views/views_bookupsearcateg.py:100-105 | searching for the lower-cased query is answered the same way and gives the same hits |
| Listings.CategoriesNamed | checklist/views/views_bookupsearcateg.py:127 | exactly the categories with that name |
| Listings.CategoryListing | checklist/views/views_bookupsearcateg.py:117-132 | a `page` the `ListView` check refuses over the whole checklist table is a 404; then no category with the name is a 404, several raise, and exactly one lists its published checklists, newest first |
| Invariants.UpvoteWf | checklist/views/views_viewfunc.py:48-79 | an upvote request by an existing user keeps the database well formed |
| Invariants.BookmarkWf | checklist/views/views_viewfunc.py:96-117 | a bookmark request keeps the database well formed |
| Invariants.FollowUserWf | checklist/views/views_viewfunc.py:187-205 | a follow request keeps the database well formed |
| Invariants.FollowChecklistWf | checklist/views/views_viewfunc.py:285-310 | a checklist-follow request keeps the database well formed |
| Invariants.ItemActionWf | checklist/views/views_viewfunc.py:132-149 | ticking or deleting an item keeps the database well formed |
| Invariants.PublishWf | checklist/views/views_viewfunc.py:162-171 | publishing keeps the database well formed |
| Invariants.SaveAndEditWf | checklist/views/views_viewfunc.py:219-257 | saving a copy keeps the database well formed |
| Invariants.DismissNotifWf | checklist/views/views_viewfunc.py:270-271 | dismissing a notification keeps the database well formed |
| Invariants.SubmitCommentWf | checklist/views/views_viewfunc.py:325-360 | submitting a comment keeps the database well formed, including the reply's parent reference |
| Invariants.CreateItemWf | checklist/views/views_itemcomm_crud.py:21-41 | adding an item keeps the database well formed |
| Invariants.UpdateItemWf | checklist/views/views_itemcomm_crud.py:50-62 | renaming an item keeps the database well formed |
| Invariants.UpdateCommentWf | checklist/views/views_itemcomm_crud.py:66-77 | editing a comment keeps the database well formed |
| Invariants.DeleteCommentWf | checklist/views/views_itemcomm_crud.py:98-120 | deleting a comment keeps the database well formed |
| Invariants.CreateChecklistWf | checklist/views/views_checklist.py:202-210 | creating a checklist keeps the database well formed |
| Invariants.UpdateChecklistWf | checklist/views/views_checklist.py:215-229 | updating a checklist keeps the database well formed |
| Invariants.DeleteChecklistViewWf | checklist/views/views_checklist.py:234-242 | deleting a checklist keeps the database well formed |
| Invariants.HandleWf | checklist/views/views_viewfunc.py:35-360 | whatever write request an existing user sends, the database stays well formed |
| Invariants.UpvoteKeepsUniquePairs | checklist/views/views_viewfunc.py:53-67 | upvoting never creates a second upvote for one (user, checklist) pair |
| Invariants.BookmarkKeepsUniquePairs | checklist/views/views_viewfunc.py:101-115 | bookmarking never creates a second bookmark for one pair |
| Invariants.FollowUserKeepsUniquePairs | checklist/views/views_viewfunc.py:191-200 | following never creates a second follow for one pair |
| Invariants.FollowChecklistKeepsUniquePairs | checklist/views/views_viewfunc.py:291-300 | following a checklist never creates a second row for one pair |
| Invariants.HandleKeepsUniquePairs | checklist/views/views_viewfunc.py:53-67 | whatever write request is sent, no link table ever holds two rows for one pair |

## Left out

- HTTP is not modelled: redirects and their targets, templates, `login_required` and the login mixins' redirect, `HTTP_REFERER`, and the URL configuration. Each view takes the logged-in username as a parameter.
- The comment-form redirect in `submit_comment` after saving is not modelled, because it only chooses a URL.
- `get_data_and_context` is not part of this model. The list views are modelled by the query they pass to it, followed by annotation (`Annotate`) and paging (`Pager`), which is the order its callers imply.
- What `get_data_and_context` does when the search view hands it no query set (`None`, for a missing or blank `q`) is not modelled. `Listings.Search` stops at `hits == None`.
- The home and draft listings (`ChecklistListView`, `UserDraftChecklistListView`) are modelled by their queries only (`Feeds.HomeFeed`, `Feeds.DraftFeed`). The `ListView` page check they also run is `Pager.ListViewPage` over the whole checklist table, as in the other listing views.
- `Pager.ListViewPage` follows `MultipleObjectMixin.paginate_queryset` of Django 3.0, which is not part of this model. A `page` taken from the URL pattern's keyword arguments is not modelled; only the GET parameter is.
- `Checklist.get_checklists` is not part of this model. The home, user and draft feeds are the filters given in its call arguments, ordered newest first.
- `ItemDetailView` and `about` are left out: they only render.
- The `users` app (profiles, avatars, registration), the image-resizing function, template tags, context processors, migrations and the category loader are left out, because they are outside the checklist views.
- Deleting a user is left out, because no view does it. The user cascades in `models.py` are therefore not modelled.
- Rich-text rendering and `CommentForm` validation are abstract: a comment view receives the validated body, or `None` for an invalid form.
- Python's `int()` on a request parameter is abstracted as `IntParam` (missing / not an integer / an integer) where the view parses an id (`parent_id`). For `page`, `Text.ParseInt` models `int()` on text, over ASCII digits and ASCII whitespace; other Unicode digits are not modelled.
- Primary keys come from one shared counter rather than one sequence per table. Only freshness matters to the views.
- Timestamps come from an abstract clock that moves forward on every timestamped insert.
- Whitespace and case folding cover ASCII only. Title order is code-point order; the database's collation is not modelled.
- Unordered query sets are read in primary-key order: bookmarks, upvotes, `item_set` in save-and-edit, search hits, and categories by name.
- In `paginate_content`, a page number below 1 or above the last page makes Django's `Paginator` raise `EmptyPage`; `checklist/views/helper_methods.py:12-13` catches it and shows the last page, and `Pager.Paginate` does the same. In the listing views that call it, the `ListView` check has already answered 404 for a number below 1 or past the model table's pages. Only a number between the user's page count and the table's page count reaches that fallback.
- Feeds.HomeFeed: the listing holds no key outside the filter, and contains every key in it once all primary keys lie below the counter (`FreshIds`). The same holds for Models.ItemsOf, Feeds.UserFeed, Feeds.DraftFeed, Feeds.CategoryFeed, Feeds.SearchHits, Listings.BookmarksOf, Listings.UpvotesOf, Listings.CategoriesNamed, ChecklistViews.ItemsByTitle and ChecklistViews.TopComments. Every database reachable through `Invariants.Handle` satisfies `FreshIds`.
- ChecklistViews.DeleteChecklistView: its own contract states only that no item, comment or upvote refers to the checklist any more. The full cascade is stated by `Cascade.DeleteChecklist`, which it calls.

=== FILE: annotate.dfy ===
/**
 * `get_upvote_bookmark_list`: for each checklist of a feed, its upvote count
 * and whether the viewer has upvoted and bookmarked it. A guest is reported
 * as having done both everywhere, so the templates show no action buttons.
 */
module Annotate {
  import opened Relation
  import opened Models
  import Pager
  import opened Wrappers

  /** Who is looking: a guest, or a logged-in user. */
  datatype Viewer = Anonymous | LoggedIn(user: UserId)

  /** The viewer has a row in `t` for checklist `c`; a guest counts as having one. */
  predicate Flag(t: Table<UserId, Id>, viewer: Viewer, c: Id)
  {
    match viewer
    case Anonymous => true
    case LoggedIn(u) => Holds(t, u, c)
  }

  /**
   * The three aligned lists the helper returns: upvote counts, upvoted flags
   * and bookmarked flags, position `i` describing `checklists[i]`.
   */
  method UpvoteBookmarkLists(db: Db, checklists: seq<Id>, viewer: Viewer)
    returns (counts: seq<nat>, upvoted: seq<bool>, bookmarked: seq<bool>)
    ensures |counts| == |checklists| && |upvoted| == |checklists| && |bookmarked| == |checklists|
    ensures forall i :: 0 <= i < |checklists| ==> counts[i] == UpvoteCount(db, checklists[i])
    ensures viewer.Anonymous? ==> forall i :: 0 <= i < |checklists| ==> upvoted[i] && bookmarked[i]
    ensures viewer.LoggedIn? ==> forall i :: 0 <= i < |checklists| ==>
      (upvoted[i] <==> Holds(db.upvotes, viewer.user, checklists[i]))
      && (bookmarked[i] <==> Holds(db.bookmarks, viewer.user, checklists[i]))
  {
    counts, upvoted, bookmarked := [], [], [];
    var i := 0;
    while i < |checklists|
      invariant 0 <= i <= |checklists|
      invariant |counts| == i && |upvoted| == i && |bookmarked| == i
      invariant forall j :: 0 <= j < i ==> counts[j] == UpvoteCount(db, checklists[j])
      invariant forall j :: 0 <= j < i ==> upvoted[j] == Flag(db.upvotes, viewer, checklists[j])
      invariant forall j :: 0 <= j < i ==> bookmarked[j] == Flag(db.bookmarks, viewer, checklists[j])
    {
      var c := checklists[i];
      counts := counts + [UpvoteCount(db, c)];
      if viewer.LoggedIn? {
        upvoted := upvoted + [Holds(db.upvotes, viewer.user, c)];
        bookmarked := bookmarked + [Holds(db.bookmarks, viewer.user, c)];
      } else {
        upvoted := upvoted + [true];
        bookmarked := bookmarked + [true];
      }
      i := i + 1;
    }
  }

  /** One zipped entry of a feed: `(checklist, count, upvoted, bookmarked)`. */
  datatype Row = Row(checklist: Id, votes: nat, upvoted: bool, bookmarked: bool)

  function RowFor(db: Db, viewer: Viewer, c: Id): Row
  {
    Row(c, UpvoteCount(db, c), Flag(db.upvotes, viewer, c), Flag(db.bookmarks, viewer, c))
  }

  /** The helper's three lists zipped with the checklists. */
  function Rows(db: Db, checklists: seq<Id>, viewer: Viewer): (r: seq<Row>)
    ensures |r| == |checklists|
    ensures forall i :: 0 <= i < |r| ==> r[i].checklist == checklists[i]
  {
    seq(|checklists|, i requires 0 <= i < |checklists| => RowFor(db, viewer, checklists[i]))
  }

  /** Annotating the whole list and then cutting a page equals cutting the page and annotating it. */
  lemma AnnotateCommutesWithPaging(db: Db, checklists: seq<Id>, viewer: Viewer, page: IntParam, size: nat)
    requires size > 0
    ensures Pager.Paginate(Rows(db, checklists, viewer), page, size).items
         == Rows(db, Pager.Paginate(checklists, page, size).items, viewer)
    ensures Pager.Paginate(Rows(db, checklists, viewer), page, size).number
         == Pager.Paginate(checklists, page, size).number
  {
    var rows := Rows(db, checklists, viewer);
    var p := Pager.Paginate(checklists, page, size);
    var q := Pager.Paginate(rows, page, size);
    assert q.number == p.number;
    var lo := Pager.Start(p.number, size);
    assert |q.items| == |p.items|;
    forall i | 0 <= i < |q.items| ensures q.items[i] == RowFor(db, viewer, p.items[i]) {
      assert q.items[i] == rows[lo + i];
      assert p.items[i] == checklists[lo + i];
    }
  }
}

=== FILE: cascade.dfy ===
/**
 * The `on_delete` rules of the schema: deleting a checklist cascades to
 * every row that references it, deleting a comment cascades to its replies
 * (and theirs), and deleting a category only clears the checklists'
 * category (`SET_NULL`).
 */
module Cascade {
  import opened Wrappers
  import opened Relation
  import opened Models

  /** No comment outside `s` has its parent inside `s`. */
  ghost predicate Closed(cs: map<Id, Comment>, s: set<Id>)
  {
    forall k :: k in cs && cs[k].parent.Some? && cs[k].parent.value in s ==> k in s
  }

  lemma {:induction false} SubsetCard<T>(a: set<T>, b: set<T>)
    requires a <= b
    ensures |a| <= |b|
    decreases a
  {
    if a != {} {
      var y :| y in a;
      SubsetCard(a - {y}, b - {y});
    }
  }

  /** Growing `roots` by a reply it lacked shrinks the comments still outside it. */
  lemma Shrinks(keys: set<Id>, roots: set<Id>, next: set<Id>)
    requires next <= keys && next - roots != {}
    ensures |keys - (roots + next)| < |keys - roots|
  {
    var w :| w in next - roots;
    SubsetCard(keys - (roots + next), keys - roots - {w});
  }

  /** Comments whose parent lies in `s`. */
  function RepliesTo(cs: map<Id, Comment>, s: set<Id>): set<Id>
  {
    set k | k in cs && cs[k].parent.Some? && cs[k].parent.value in s
  }

  /**
   * The comments a cascade through `parent` removes together with `roots`:
   * `roots` and every reply below them, to any depth.
   */
  function Subtree(cs: map<Id, Comment>, roots: set<Id>): (r: set<Id>)
    requires roots <= cs.Keys
    ensures roots <= r <= cs.Keys
    ensures Closed(cs, r)
    ensures forall k :: k in r ==> k in roots || (cs[k].parent.Some? && cs[k].parent.value in r)
    decreases |cs.Keys - roots|
  {
    var next := RepliesTo(cs, roots);
    if next - roots == {} then
      assert forall k :: k in next ==> k in roots by {
        forall k | k in next ensures k in roots {
          assert k !in next - roots;
        }
      }
      roots
    else
      Shrinks(cs.Keys, roots, next);
      Subtree(cs, roots + next)
  }

  /** The cascade removes nothing more than it must: `Subtree` is the least closed superset of `roots`. */
  lemma {:induction false} SubtreeLeast(cs: map<Id, Comment>, roots: set<Id>, s: set<Id>)
    requires roots <= cs.Keys
    requires roots <= s && Closed(cs, s)
    ensures Subtree(cs, roots) <= s
    decreases |cs.Keys - roots|
  {
    var next := RepliesTo(cs, roots);
    if next - roots != {} {
      Shrinks(cs.Keys, roots, next);
      SubtreeLeast(cs, roots + next, s);
    }
  }

  /** The comment table once the subtrees below `roots` are gone. */
  function RemoveSubtrees(cs: map<Id, Comment>, roots: set<Id>): (r: map<Id, Comment>)
    requires roots <= cs.Keys
    ensures forall k :: k in r <==> k in cs && k !in Subtree(cs, roots)
    ensures forall k :: k in r ==> r[k] == cs[k]
    ensures forall k :: k in r && cs[k].parent.Some? && cs[k].parent.value in cs ==> cs[k].parent.value in r
  {
    map k | k in cs && k !in Subtree(cs, roots) :: cs[k]
  }

  /** The comments of checklist `cid`, where its cascade starts. */
  function CommentsOf(cs: map<Id, Comment>, cid: Id): (r: set<Id>)
    ensures r <= cs.Keys
  {
    set k | k in cs && cs[k].checklist == cid
  }

  /** Deletes checklist `cid` and, by cascade, every row that references it. */
  function DeleteChecklist(db: Db, cid: Id): (r: Db)
    ensures forall k :: k in r.checklists <==> k in db.checklists && k != cid
    ensures forall k :: k in r.items <==> k in db.items && db.items[k].checklist != cid
    ensures forall k :: k in r.upvotes <==> k in db.upvotes && db.upvotes[k].to != cid
    ensures forall k :: k in r.bookmarks <==> k in db.bookmarks && db.bookmarks[k].to != cid
    ensures forall k :: k in r.checklistFollows <==> k in db.checklistFollows && db.checklistFollows[k].to != cid
    ensures forall k :: k in r.notifications <==> k in db.notifications && db.notifications[k].checklist != Some(cid)
    ensures forall k :: k in r.comments ==> r.comments[k].checklist != cid
    ensures forall k :: k in r.comments <==> k in db.comments && k !in Subtree(db.comments, CommentsOf(db.comments, cid))
    ensures r.users == db.users && r.categories == db.categories && r.follows == db.follows
    ensures r.nextId == db.nextId && r.clock == db.clock
  {
    db.(
      checklists := db.checklists - {cid},
      items := Keep(db.items, (i: Item) => i.checklist != cid),
      upvotes := Keep(db.upvotes, (l: Link<UserId, Id>) => l.to != cid),
      bookmarks := Keep(db.bookmarks, (l: Link<UserId, Id>) => l.to != cid),
      checklistFollows := Keep(db.checklistFollows, (l: Link<UserId, Id>) => l.to != cid),
      notifications := Keep(db.notifications, (n: Notification) => n.checklist != Some(cid)),
      comments := RemoveSubtrees(db.comments, CommentsOf(db.comments, cid)))
  }

  /** Rows that survive keep their contents. */
  lemma DeleteChecklistKeepsRows(db: Db, cid: Id)
    ensures var r := DeleteChecklist(db, cid);
      && (forall k :: k in r.checklists ==> r.checklists[k] == db.checklists[k])
      && (forall k :: k in r.items ==> r.items[k] == db.items[k])
      && (forall k :: k in r.notifications ==> r.notifications[k] == db.notifications[k])
      && (forall k :: k in r.comments ==> r.comments[k] == db.comments[k])
  {
  }

  /** The cascade leaves no dangling reference behind. */
  lemma DeleteChecklistWf(db: Db, cid: Id)
    requires Wf(db)
    ensures Wf(DeleteChecklist(db, cid))
  {
    var r := DeleteChecklist(db, cid);
    DeleteChecklistKeepsRows(db, cid);
    assert FreshIds(r);
    assert TimesBelow(r);
    forall k | k in r.comments ensures CommentRefsOk(r, r.comments[k]) {
      assert CommentRefsOk(db, db.comments[k]);
    }
    forall k | k in r.notifications ensures NotificationRefsOk(r, r.notifications[k]) {
      assert NotificationRefsOk(db, db.notifications[k]);
    }
    forall k | k in r.checklists ensures ChecklistRefsOk(r, r.checklists[k]) {
      assert ChecklistRefsOk(db, db.checklists[k]);
    }
  }

  /** Deletes category `cat`; its checklists stay, with no category (`SET_NULL`). */
  function DeleteCategory(db: Db, cat: Id): (r: Db)
    ensures forall k :: k in r.categories <==> k in db.categories && k != cat
    ensures r.checklists.Keys == db.checklists.Keys
    ensures forall k :: k in r.checklists ==>
      r.checklists[k] == if db.checklists[k].category == Some(cat) then db.checklists[k].(category := None)
                         else db.checklists[k]
    ensures r == db.(categories := r.categories, checklists := r.checklists)
  {
    var cs := map k | k in db.checklists ::
      if db.checklists[k].category == Some(cat) then db.checklists[k].(category := None) else db.checklists[k];
    db.(categories := db.categories - {cat}, checklists := cs)
  }

  lemma DeleteCategoryWf(db: Db, cat: Id)
    requires Wf(db)
    ensures Wf(DeleteCategory(db, cat))
    ensures forall k :: k in DeleteCategory(db, cat).checklists ==> DeleteCategory(db, cat).checklists[k].category != Some(cat)
  {
    var r := DeleteCategory(db, cat);
    assert FreshIds(r);
    assert TimesBelow(r);
    forall k | k in r.checklists ensures ChecklistRefsOk(r, r.checklists[k]) {
      assert ChecklistRefsOk(db, db.checklists[k]);
    }
    forall k | k in r.notifications ensures NotificationRefsOk(r, r.notifications[k]) {
      assert NotificationRefsOk(db, db.notifications[k]);
    }
    forall k | k in r.comments ensures CommentRefsOk(r, r.comments[k]) {
      assert CommentRefsOk(db, db.comments[k]);
    }
  }

  /** Deletes comment `id` and, through the `parent` cascade, every reply below it. */
  function DeleteCommentTree(db: Db, id: Id): (r: Db)
    requires id in db.comments
    ensures id !in r.comments
    ensures forall k :: k in db.comments && db.comments[k].parent == Some(id) ==> k !in r.comments
    ensures forall k :: k in r.comments <==> k in db.comments && k !in Subtree(db.comments, {id})
    ensures forall k :: k in r.comments ==> k in db.comments && r.comments[k] == db.comments[k]
    ensures r == db.(comments := r.comments)
  {
    db.(comments := RemoveSubtrees(db.comments, {id}))
  }

  /**
   * The comments the cascade removes are exactly the least set that holds
   * `id` and every reply to a member, to any depth: a reply below a removed
   * comment is removed, and any set closed under replies that holds `id`
   * covers everything removed, so every other comment stays.
   */
  lemma {:induction false} DeleteCommentTreeRemovesThread(db: Db, id: Id, s: set<Id>)
    requires id in db.comments
    ensures var gone := db.comments.Keys - DeleteCommentTree(db, id).comments.Keys;
      && id in gone
      && Closed(db.comments, gone)
      && (forall k :: k in gone && k != id ==> db.comments[k].parent.Some? && db.comments[k].parent.value in gone)
      && (id in s && Closed(db.comments, s) ==> gone <= s)
  {
    var r := DeleteCommentTree(db, id);
    var gone := db.comments.Keys - r.comments.Keys;
    assert gone == Subtree(db.comments, {id});
    if id in s && Closed(db.comments, s) {
      SubtreeLeast(db.comments, {id}, s);
    }
  }

  lemma DeleteCommentTreeWf(db: Db, id: Id)
    requires Wf(db) && id in db.comments
    ensures Wf(DeleteCommentTree(db, id))
  {
    var r := DeleteCommentTree(db, id);
    assert FreshIds(r);
    assert TimesBelow(r);
    forall k | k in r.comments ensures CommentRefsOk(r, r.comments[k]) {
      assert CommentRefsOk(db, db.comments[k]);
    }
    forall k | k in r.notifications ensures NotificationRefsOk(r, r.notifications[k]) {
      assert NotificationRefsOk(db, db.notifications[k]);
    }
    forall k | k in r.checklists ensures ChecklistRefsOk(r, r.checklists[k]) {
      assert ChecklistRefsOk(db, db.checklists[k]);
    }
  }
}

=== FILE: checklistviews.dfy ===
/**
 * The checklist views: the detail page, a user's page, and creating,
 * editing and deleting a checklist.
 */
module ChecklistViews {
  import opened Wrappers
  import opened Relation
  import opened Ordering
  import opened Text
  import opened Models
  import opened Outcomes
  import opened Forms
  import opened Annotate
  import Feeds
  import Cascade
  import Pager
  import ViewFunc

  // ---------------------------------------------------------------------
  // ChecklistDetailView

  /** The title of item `id` ("" for an id that names no item). */
  function TitleOf(db: Db, id: Id): string
  {
    if id in db.items then db.items[id].title else ""
  }

  /** `order_by("title")`: `a` may come before `b`. */
  function ByTitle(db: Db): (Id, Id) -> bool
  {
    (a: Id, b: Id) => StrLe(TitleOf(db, a), TitleOf(db, b))
  }

  lemma ByTitleOrders(db: Db)
    ensures Total(ByTitle(db)) && Transitive(ByTitle(db))
  {
    forall x: Id, y: Id ensures ByTitle(db)(x, y) || ByTitle(db)(y, x) {
      StrLeTotal(TitleOf(db, x), TitleOf(db, y));
    }
    forall x: Id, y: Id, z: Id | ByTitle(db)(x, y) && ByTitle(db)(y, z) ensures ByTitle(db)(x, z) {
      StrLeTrans(TitleOf(db, x), TitleOf(db, y), TitleOf(db, z));
    }
  }

  /** `chk.item_set.order_by("title")`: the checklist's items, each once, by title. */
  function ItemsByTitle(db: Db, cid: Id): (r: seq<Id>)
    ensures forall k :: k in r ==> k in db.items && db.items[k].checklist == cid
    ensures FreshIds(db) ==> forall k :: k in db.items && db.items[k].checklist == cid ==> k in r
    ensures Distinct(r)
    ensures forall i, j :: 0 <= i < j < |r| ==> StrLe(db.items[r[i]].title, db.items[r[j]].title)
  {
    var s := ItemsOf(db, cid);
    IncreasingIsDistinct(s);
    ByTitleOrders(db);
    var r := SortBy(s, ByTitle(db));
    SortBySorted(s, ByTitle(db));
    SortedPairwise(r, ByTitle(db));
    SameMultisetDistinct(s, r);
    r
  }

  /** When comment `id` was written (0 for an id that names no comment). */
  function CreatedAt(db: Db, id: Id): nat
  {
    if id in db.comments then db.comments[id].createdOn else 0
  }

  /** `chk.comments.all().filter(parent=None)` under `ordering = ["-created_on"]`. */
  function TopComments(db: Db, cid: Id): (r: seq<Id>)
    ensures forall k :: k in r ==> k in db.comments && db.comments[k].checklist == cid && db.comments[k].parent.None?
    ensures FreshIds(db) ==> forall k :: k in db.comments && db.comments[k].checklist == cid && db.comments[k].parent.None? ==> k in r
    ensures Distinct(r)
    ensures forall i, j :: 0 <= i < j < |r| ==> db.comments[r[i]].createdOn >= db.comments[r[j]].createdOn
  {
    var s := KeysWhere(db.comments, (c: Comment) => c.checklist == cid && c.parent.None?, db.nextId);
    IncreasingIsDistinct(s);
    var r := SortDesc(s, (k: Id) => CreatedAt(db, k));
    SameMultisetDistinct(s, r);
    r
  }

  /** A logged-in viewer's flag is whether the table links the viewer to `c`. */
  lemma FlagIsValue(t: Table<UserId, Id>, viewer: Viewer, c: Id)
    ensures viewer.LoggedIn? ==> (Flag(t, viewer, c) <==> Link(viewer.user, c) in t.Values)
  {
    if viewer.LoggedIn? {
      HoldsIffValue(t, viewer.user, c);
    }
  }

  /** What the detail template receives. */
  datatype Detail = Detail(
    ifUpvoted: bool,
    ifBookmarked: bool,
    ifFollowed: bool,
    votes: nat,
    items: seq<Id>,
    comments: seq<Id>)

  /**
   * `ChecklistDetailView`: a 404 for an unknown checklist; otherwise the
   * viewer's three flags (all true for a guest), the upvote count, the
   * items by title and the top-level comments newest first.
   */
  function DetailPage(db: Db, viewer: Viewer, cid: Id): (r: Option<Detail>)
    ensures r.None? <==> cid !in db.checklists
    ensures r.Some? && viewer.Anonymous? ==> r.value.ifUpvoted && r.value.ifBookmarked && r.value.ifFollowed
    ensures r.Some? && viewer.LoggedIn? ==>
      && (r.value.ifUpvoted <==> Link(viewer.user, cid) in db.upvotes.Values)
      && (r.value.ifBookmarked <==> Link(viewer.user, cid) in db.bookmarks.Values)
      && (r.value.ifFollowed <==> Link(viewer.user, cid) in db.checklistFollows.Values)
    ensures r.Some? ==> r.value.votes == |RowsTo(db.upvotes, cid)|
    ensures r.Some? ==> r.value.items == ItemsByTitle(db, cid) && r.value.comments == TopComments(db, cid)
  {
    if cid !in db.checklists then None
    else
      FlagIsValue(db.upvotes, viewer, cid);
      FlagIsValue(db.bookmarks, viewer, cid);
      FlagIsValue(db.checklistFollows, viewer, cid);
      Some(Detail(
        Flag(db.upvotes, viewer, cid),
        Flag(db.bookmarks, viewer, cid),
        Flag(db.checklistFollows, viewer, cid),
        UpvoteCount(db, cid),
        ItemsByTitle(db, cid),
        TopComments(db, cid)))
  }

  /**
   * After an upvote request by someone other than the author, the detail
   * page shows the opposite flag and a count one higher (upvote added) or
   * one lower (upvote retracted).
   */
  lemma UpvoteShowsOnDetail(db: Db, user: UserId, cid: Id)
    requires FreshIds(db) && AtMostOnePerPair(db.upvotes)
    requires cid in db.checklists && db.checklists[cid].author != user
    ensures var before := DetailPage(db, LoggedIn(user), cid).value;
      var after := DetailPage(ViewFunc.UpvoteChecklist(db, user, cid).db, LoggedIn(user), cid).value;
      && after.ifUpvoted == !before.ifUpvoted
      && after.votes == if before.ifUpvoted then before.votes - 1 else before.votes + 1
  {
    ToggleCount(db.upvotes, user, cid, db.nextId, cid);
    HoldsIffValue(db.upvotes, user, cid);
  }

  // ---------------------------------------------------------------------
  // UserChecklistListView

  /** What a user's page receives: the follow flag and the user's published checklists. */
  datatype UserPage = UserPage(ifFollowed: bool, checklists: seq<Id>)

  /**
   * The user page's own data: a 404 (`None`) for an unknown username; a
   * guest sees the follow flag set, a logged-in viewer sees whether they
   * follow the user.
   */
  function UserPageData(db: Db, viewer: Viewer, username: UserId): (r: Option<UserPage>)
    ensures r.None? <==> username !in db.users
    ensures r.Some? && viewer.Anonymous? ==> r.value.ifFollowed
    ensures r.Some? && viewer.LoggedIn? ==> (r.value.ifFollowed <==> Link(viewer.user, username) in db.follows.Values)
    ensures r.Some? ==> r.value.checklists == Feeds.UserFeed(db, username)
  {
    if username !in db.users then None
    else
      var followed := match viewer
        case Anonymous => true
        case LoggedIn(u) => Holds(db.follows, u, username);
      if viewer.LoggedIn? then
        HoldsIffValue(db.follows, viewer.user, username);
        Some(UserPage(followed, Feeds.UserFeed(db, username)))
      else Some(UserPage(followed, Feeds.UserFeed(db, username)))
  }

  /**
   * `UserChecklistListView`: the `ListView` check of `page` against the
   * whole `Checklist` table comes first and answers 404; then the page
   * shows `UserPageData`.
   */
  function UserPageFor(db: Db, viewer: Viewer, username: UserId, page: Option<string>): (r: Option<UserPage>)
    ensures r.None? <==> Pager.ListViewPage(page, |db.checklists|, Pager.PageSize).None? || username !in db.users
    ensures r.Some? ==> r == UserPageData(db, viewer, username)
  {
    if Pager.ListViewPage(page, |db.checklists|, Pager.PageSize).None? then None
    else UserPageData(db, viewer, username)
  }

  /** Following a user from their page flips the flag the page shows. */
  lemma FollowShowsOnUserPage(db: Db, user: UserId, username: UserId, page: Option<string>)
    requires FreshIds(db) && username in db.users && user != username
    ensures var r := ViewFunc.FollowUser(db, user, username);
      && (UserPageFor(r.db, LoggedIn(user), username, page).Some? <==> UserPageFor(db, LoggedIn(user), username, page).Some?)
      && (UserPageFor(db, LoggedIn(user), username, page).Some? ==>
            UserPageFor(r.db, LoggedIn(user), username, page).value.ifFollowed == !UserPageFor(db, LoggedIn(user), username, page).value.ifFollowed)
  {
    HoldsIffValue(db.follows, user, username);
  }

  // ---------------------------------------------------------------------
  // ChecklistCreateView, ChecklistUpdateView, ChecklistDeleteView

  /** The fields the create and update forms post: `title`, `content`, `category`, `is_draft`. */
  datatype ChecklistForm = ChecklistForm(title: string, content: string, category: Option<Id>, isDraft: bool)

  /**
   * The model form's cleaning: the title as `TitleField` cleans it, the
   * content as `ContentField` cleans it, and a category that names an
   * existing category. The category is required: the foreign key allows a
   * null column but not a blank form value.
   */
  function CleanChecklist(db: Db, f: ChecklistForm): (r: Option<ChecklistForm>)
    ensures r.Some? <==>
      && TitleField(f.title).Some? && ContentField(f.content).Some?
      && f.category.Some? && f.category.value in db.categories
    ensures r.Some? ==> r.value == f.(title := TitleField(f.title).value, content := ContentField(f.content).value)
  {
    match (TitleField(f.title), ContentField(f.content))
    case (Some(t), Some(c)) =>
      if f.category.Some? && f.category.value in db.categories then Some(f.(title := t, content := c))
      else None
    case _ => None
  }

  /**
   * `ChecklistCreateView`: a valid form becomes a checklist of the
   * requesting user, posted now, with visibility 0.
   */
  function CreateChecklist(db: Db, user: UserId, f: ChecklistForm): (r: Step)
    requires FreshIds(db)
    ensures FreshIds(r.db)
    ensures CleanChecklist(db, f).None? ==> r == Step(db, Silent)
    ensures CleanChecklist(db, f).Some? ==>
      var g := CleanChecklist(db, f).value;
      && r.out == Succeeded
      && Inserted(db.checklists, r.db.checklists, Checklist(g.title, g.content, db.clock, user, 0, g.category, g.isDraft))
      && db.nextId in r.db.checklists && r.db.checklists == db.checklists[db.nextId := r.db.checklists[db.nextId]]
      && r.db == db.(checklists := r.db.checklists, nextId := r.db.nextId, clock := r.db.clock)
      && r.db.clock == db.clock + 1
  {
    match CleanChecklist(db, f)
    case None => Step(db, Silent)
    case Some(g) =>
      Step(AddChecklist(db, Checklist(g.title, g.content, db.clock, user, 0, g.category, g.isDraft)), Succeeded)
  }

  /**
   * A new published checklist heads its author's page and the home feed; a
   * new draft heads the author's drafts.
   */
  lemma CreatedChecklistComesFirst(db: Db, user: UserId, f: ChecklistForm)
    requires FreshIds(db) && TimesBelow(db)
    ensures var r := CreateChecklist(db, user, f).db;
      CleanChecklist(db, f).Some? ==>
        if f.isDraft then Feeds.DraftFeed(r, user)[0] == db.nextId
        else Feeds.UserFeed(r, user)[0] == db.nextId && Feeds.HomeFeed(r)[0] == db.nextId
  {
    match CleanChecklist(db, f)
    case None =>
    case Some(g) =>
      AddedChecklistHeads(db, Checklist(g.title, g.content, db.clock, user, 0, g.category, g.isDraft));
  }

  /** A checklist stamped now is newer than every row already stored. */
  lemma AddedChecklistHeads(db: Db, c: Checklist)
    requires FreshIds(db) && TimesBelow(db) && c.datePosted == db.clock
    ensures var r := AddChecklist(db, c);
      if c.isDraft then Feeds.DraftFeed(r, c.author)[0] == db.nextId
      else Feeds.UserFeed(r, c.author)[0] == db.nextId && Feeds.HomeFeed(r)[0] == db.nextId
  {
    var r := AddChecklist(db, c);
    var n := db.nextId;
    assert n in r.checklists && r.checklists[n].datePosted == db.clock;
    assert forall k :: k in r.checklists && k != n ==> Feeds.PostedAt(r, k) < Feeds.PostedAt(r, n);
    if c.isDraft {
      NewestHeads(r, Feeds.DraftFeed(r, c.author), n);
    } else {
      NewestHeads(r, Feeds.UserFeed(r, c.author), n);
      NewestHeads(r, Feeds.HomeFeed(r), n);
    }
  }

  /** In a newest-first listing, an element strictly newer than all others comes first. */
  lemma NewestHeads(db: Db, s: seq<Id>, n: Id)
    requires n in s
    requires forall i, j :: 0 <= i < j < |s| ==> Feeds.PostedAt(db, s[i]) >= Feeds.PostedAt(db, s[j])
    requires forall k :: k in db.checklists && k != n ==> Feeds.PostedAt(db, k) < Feeds.PostedAt(db, n)
    requires forall k :: k in s ==> k in db.checklists
    ensures s[0] == n
  {
    var i :| 0 <= i < |s| && s[i] == n;
    if i > 0 {
      assert Feeds.PostedAt(db, s[0]) >= Feeds.PostedAt(db, s[i]);
      assert s[0] in s;
    }
  }

  /**
   * `ChecklistUpdateView`: a 404 for an unknown checklist, a 403 for anyone
   * but the author; a valid form replaces title, content, category and
   * draft flag, and keeps the author, the posting date and the visibility.
   */
  function UpdateChecklist(db: Db, user: UserId, cid: Id, f: ChecklistForm): (r: Step)
    ensures cid !in db.checklists ==> r == Step(db, NotFound)
    ensures cid in db.checklists && db.checklists[cid].author != user ==> r == Step(db, Forbidden)
    ensures r.out == Succeeded <==> cid in db.checklists && db.checklists[cid].author == user && CleanChecklist(db, f).Some?
    ensures r.out == Succeeded ==>
      var g := CleanChecklist(db, f).value;
      var prev := db.checklists[cid];
      && r.db.checklists.Keys == db.checklists.Keys
      && r.db.checklists[cid] == Checklist(g.title, g.content, prev.datePosted, prev.author, prev.visibility, g.category, g.isDraft)
      && (forall k :: k in db.checklists && k != cid ==> r.db.checklists[k] == db.checklists[k])
      && r.db == db.(checklists := r.db.checklists)
    ensures r.out != Succeeded ==> r.db == db
  {
    if cid !in db.checklists then Step(db, NotFound)
    else if db.checklists[cid].author != user then Step(db, Forbidden)
    else match CleanChecklist(db, f)
      case None => Step(db, Silent)
      case Some(g) =>
        var c := db.checklists[cid].(title := g.title, content := g.content, category := g.category,
                                     isDraft := g.isDraft, author := user);
        Step(db.(checklists := db.checklists[cid := c]), Succeeded)
  }

  /** `ChecklistDeleteView`: only the author may delete, and the delete cascades. */
  function DeleteChecklistView(db: Db, user: UserId, cid: Id): (r: Step)
    ensures cid !in db.checklists ==> r == Step(db, NotFound)
    ensures cid in db.checklists && db.checklists[cid].author != user ==> r == Step(db, Forbidden)
    ensures r.out == Succeeded <==> cid in db.checklists && db.checklists[cid].author == user
    ensures r.out == Succeeded ==>
      && cid !in r.db.checklists
      && (forall k :: k in r.db.items ==> r.db.items[k].checklist != cid)
      && (forall k :: k in r.db.comments ==> r.db.comments[k].checklist != cid)
      && CountTo(r.db.upvotes, cid) == 0
    ensures r.out != Succeeded ==> r.db == db
  {
    if cid !in db.checklists then Step(db, NotFound)
    else if db.checklists[cid].author != user then Step(db, Forbidden)
    else
      var r := Cascade.DeleteChecklist(db, cid);
      CountToEmpty(r.upvotes, cid);
      Step(r, Succeeded)
  }

  /** Publishing a draft moves it from its author's drafts to the author's page. */
  lemma PublishMovesToUserPage(db: Db, user: UserId, cid: Id)
    requires FreshIds(db) && cid in db.checklists && db.checklists[cid].author == user
    ensures var r := ViewFunc.PublishChecklist(db, user, cid).db;
      cid in Feeds.UserFeed(r, user) && cid !in Feeds.DraftFeed(r, user)
  {
  }
}

=== FILE: feeds.dfy ===
/**
 * The checklist listings the list views display before annotation and
 * paging: the home feed, a user's published checklists, a user's drafts,
 * a category's checklists and the search hits.
 */
module Feeds {
  import opened Wrappers
  import opened Ordering
  import opened Models
  import opened Text

  /** The checklists whose row satisfies `keep`, in primary-key order. */
  function Select(db: Db, keep: Checklist -> bool): (r: seq<Id>)
    ensures forall k :: k in r ==> k in db.checklists && keep(db.checklists[k])
    ensures FreshIds(db) ==> forall k :: k in db.checklists && keep(db.checklists[k]) ==> k in r
    ensures Increasing(r)
  {
    KeysWhere(db.checklists, keep, db.nextId)
  }

  /** When checklist `id` was posted (0 for an id that names no checklist). */
  function PostedAt(db: Db, id: Id): nat
  {
    if id in db.checklists then db.checklists[id].datePosted else 0
  }

  /**
   * `order_by("-date_posted")` over the checklists `keep` selects: exactly
   * those checklists, each once, newest first.
   */
  function Feed(db: Db, keep: Checklist -> bool): (r: seq<Id>)
    ensures forall k :: k in r ==> k in db.checklists && keep(db.checklists[k])
    ensures FreshIds(db) ==> forall k :: k in db.checklists && keep(db.checklists[k]) ==> k in r
    ensures Distinct(r)
    ensures forall i, j :: 0 <= i < j < |r| ==> PostedAt(db, r[i]) >= PostedAt(db, r[j])
  {
    var s := Select(db, keep);
    IncreasingIsDistinct(s);
    var r := SortDesc(s, (k: Id) => PostedAt(db, k));
    SameMultisetDistinct(s, r);
    r
  }

  predicate IsPublished(c: Checklist) { !c.isDraft }

  /** `ChecklistListView`: every published checklist. */
  function HomeFeed(db: Db): (r: seq<Id>)
    ensures FreshIds(db) ==> forall k :: k in r <==> k in db.checklists && !db.checklists[k].isDraft
    ensures forall k :: k in r ==> k in db.checklists && !db.checklists[k].isDraft
    ensures Distinct(r)
    ensures forall i, j :: 0 <= i < j < |r| ==> PostedAt(db, r[i]) >= PostedAt(db, r[j])
  {
    Feed(db, IsPublished)
  }

  /** `UserChecklistListView`: the published checklists of `author`. */
  function UserFeed(db: Db, author: UserId): (r: seq<Id>)
    ensures forall k :: k in r ==> k in db.checklists && !db.checklists[k].isDraft && db.checklists[k].author == author
    ensures FreshIds(db) ==> forall k :: k in r <==> k in db.checklists && !db.checklists[k].isDraft && db.checklists[k].author == author
    ensures Distinct(r)
    ensures forall i, j :: 0 <= i < j < |r| ==> PostedAt(db, r[i]) >= PostedAt(db, r[j])
  {
    Feed(db, (c: Checklist) => !c.isDraft && c.author == author)
  }

  /** `UserDraftChecklistListView`: the drafts of `author`. */
  function DraftFeed(db: Db, author: UserId): (r: seq<Id>)
    ensures forall k :: k in r ==> k in db.checklists && db.checklists[k].isDraft && db.checklists[k].author == author
    ensures FreshIds(db) ==> forall k :: k in r <==> k in db.checklists && db.checklists[k].isDraft && db.checklists[k].author == author
    ensures Distinct(r)
    ensures forall i, j :: 0 <= i < j < |r| ==> PostedAt(db, r[i]) >= PostedAt(db, r[j])
  {
    Feed(db, (c: Checklist) => c.isDraft && c.author == author)
  }

  /** `CategoryChecklistListView`: the published checklists filed under category `cat`. */
  function CategoryFeed(db: Db, cat: Id): (r: seq<Id>)
    ensures forall k :: k in r ==> k in db.checklists && !db.checklists[k].isDraft && db.checklists[k].category == Some(cat)
    ensures FreshIds(db) ==> forall k :: k in r <==> k in db.checklists && !db.checklists[k].isDraft && db.checklists[k].category == Some(cat)
    ensures Distinct(r)
    ensures forall i, j :: 0 <= i < j < |r| ==> PostedAt(db, r[i]) >= PostedAt(db, r[j])
  {
    Feed(db, (c: Checklist) => !c.isDraft && c.category == Some(cat))
  }

  /** The search filter: published, and `q` occurs in the title or the content, ignoring case. */
  predicate Matches(c: Checklist, q: string)
  {
    !c.isDraft && (IContains(c.title, q) || IContains(c.content, q))
  }

  /** `SearchChecklistListView`'s query set, unordered, read in primary-key order. */
  function SearchHits(db: Db, q: string): (r: seq<Id>)
    ensures forall k :: k in r ==> k in db.checklists && Matches(db.checklists[k], q)
    ensures FreshIds(db) ==> forall k :: k in r <==> k in db.checklists && Matches(db.checklists[k], q)
    ensures Increasing(r)
  {
    Select(db, (c: Checklist) => Matches(c, q))
  }

  /** A user's published checklists and drafts split the user's checklists between them. */
  lemma UserFeedsPartition(db: Db, author: UserId)
    requires FreshIds(db)
    ensures forall k :: k in db.checklists && db.checklists[k].author == author ==>
      (k in UserFeed(db, author) <==> k !in DraftFeed(db, author))
    ensures forall k :: k in UserFeed(db, author) ==> k in HomeFeed(db)
  {
  }

  /** Search ignores the case of the query. */
  lemma SearchIgnoresCase(db: Db, q: string)
    ensures SearchHits(db, LowerStr(q)) == SearchHits(db, q)
  {
    forall c: Checklist ensures Matches(c, LowerStr(q)) == Matches(c, q) {
      IContainsIgnoresCase(c.title, q);
      IContainsIgnoresCase(c.content, q);
    }
    KeysWhereSameFilter(db.checklists, (c: Checklist) => Matches(c, LowerStr(q)), (c: Checklist) => Matches(c, q), db.nextId);
  }
}

=== FILE: forms.dfy ===
/**
 * Cleaning of the text fields of the model forms. A required
 * `CharField(max_length=100)` is used for checklist and item titles, and a
 * required rich-text field for checklist content. Django strips surrounding
 * whitespace first, then rejects an empty value and, for a title, a value
 * longer than the maximum. Every Django 3.0 `forms.CharField`, the rich-text
 * form field included, also carries `ProhibitNullCharactersValidator`, so a
 * value holding the NUL character `'\0'` is rejected too.
 */
module Forms {
  import opened Wrappers
  import opened Text

  /** `max_length` of `Checklist.title` and `Item.title`. */
  const MaxTitle := 100

  /** The cleaned title, or `None` when the form is invalid. */
  function TitleField(raw: string): (r: Option<string>)
    ensures r.Some? <==> !IsBlank(raw) && |Strip(raw)| <= MaxTitle && '\0' !in raw
    ensures r.Some? ==> r.value == Strip(raw) && 0 < |r.value| <= MaxTitle && '\0' !in r.value
    ensures r.Some? ==> |r.value| == 0 || (!IsSpace(r.value[0]) && !IsSpace(r.value[|r.value| - 1]))
  {
    StripEmptyIffBlank(raw);
    StripKeeps(raw, '\0');
    var t := Strip(raw);
    if t == [] || |t| > MaxTitle || '\0' in t then None else Some(t)
  }

  /** A cleaned title is accepted as it is when submitted again. */
  lemma TitleFieldIdempotent(raw: string)
    requires TitleField(raw).Some?
    ensures TitleField(TitleField(raw).value) == TitleField(raw)
  {
    var t := TitleField(raw).value;
    StripIdempotent(raw);
    StripEmptyIffBlank(t);
    StripKeeps(t, '\0');
  }

  /**
   * Every title the form accepts is a core with no whitespace at its ends,
   * padded with whitespace: the core is what is stored, unless it is longer
   * than the maximum or holds a NUL character.
   */
  lemma {:induction false} TitleFieldPadded(pre: string, core: string, post: string)
    requires IsBlank(pre) && IsBlank(post)
    requires |core| > 0 && !IsSpace(core[0]) && !IsSpace(core[|core| - 1])
    ensures TitleField(pre + core + post) == if |core| <= MaxTitle && '\0' !in core then Some(core) else None
  {
    var s := pre + core + post;
    var i, j := |pre|, |pre| + |core|;
    assert s[i..j] == core;
    assert s[i] == core[0] && s[j - 1] == core[|core| - 1];
    assert SpaceMargins(s, i, j) by {
      forall k | 0 <= k < i ensures IsSpace(s[k]) {
        assert s[k] == pre[k];
      }
      forall k | j <= k < |s| ensures IsSpace(s[k]) {
        assert s[k] == post[k - j];
      }
    }
    StripUnique(s, i, j);
  }

  /**
   * The cleaned rich-text content, or `None` when it is blank or holds a NUL
   * character (no length limit).
   */
  function ContentField(raw: string): (r: Option<string>)
    ensures r.Some? <==> !IsBlank(raw) && '\0' !in raw
    ensures r.Some? ==> r.value == Strip(raw) && |r.value| > 0 && '\0' !in r.value
  {
    StripEmptyIffBlank(raw);
    StripKeeps(raw, '\0');
    var t := Strip(raw);
    if t == [] || '\0' in t then None else Some(t)
  }
}

=== FILE: invariants.dfy ===
/**
 * Every view keeps the database well formed (`Models.Wf`: fresh keys,
 * timestamps in the past, no dangling reference) and keeps at most one row
 * per pair in each link table, provided the requesting user exists.
 */
module Invariants {
  import opened Wrappers
  import opened Relation
  import opened Models
  import opened Outcomes
  import ViewFunc
  import ItemComm
  import ChecklistViews
  import Cascade
  import Forms

  /** Every row of `t` links an element of `xs` to an element of `ys`. */
  predicate LinksOk<A, B>(t: Table<A, B>, xs: set<A>, ys: set<B>)
  {
    forall k :: k in t ==> t[k].from in xs && t[k].to in ys
  }

  /** A toggle between existing rows keeps every link pointing at existing rows, and the keys below the counter. */
  lemma ToggleLinksOk<A, B>(t: Table<A, B>, a: A, b: B, newKey: nat, xs: set<A>, ys: set<B>)
    requires newKey !in t && LinksOk(t, xs, ys) && a in xs && b in ys
    ensures LinksOk(Toggle(t, a, b, newKey).0, xs, ys)
    ensures KeysBelow(t, newKey) ==> KeysBelow(Toggle(t, a, b, newKey).0, newKey + 1)
  {
    var r := Toggle(t, a, b, newKey);
    if r.1 {
      assert r.0 == t[newKey := Link(a, b)];
    }
  }

  lemma WithUpvotes(db: Db, t: Table<UserId, Id>)
    requires Wf(db) && LinksOk(t, db.users, db.checklists.Keys) && KeysBelow(t, db.nextId + 1)
    ensures Wf(db.(upvotes := t, nextId := db.nextId + 1))
  {
  }

  lemma WithBookmarks(db: Db, t: Table<UserId, Id>)
    requires Wf(db) && LinksOk(t, db.users, db.checklists.Keys) && KeysBelow(t, db.nextId + 1)
    ensures Wf(db.(bookmarks := t, nextId := db.nextId + 1))
  {
  }

  lemma WithFollows(db: Db, t: Table<UserId, UserId>)
    requires Wf(db) && LinksOk(t, db.users, db.users) && KeysBelow(t, db.nextId + 1)
    ensures Wf(db.(follows := t, nextId := db.nextId + 1))
  {
  }

  lemma WithChecklistFollows(db: Db, t: Table<UserId, Id>)
    requires Wf(db) && LinksOk(t, db.users, db.checklists.Keys) && KeysBelow(t, db.nextId + 1)
    ensures Wf(db.(checklistFollows := t, nextId := db.nextId + 1))
  {
  }

  /** A notification between existing rows, stamped now, keeps the database well formed. */
  lemma NotifyWf(db: Db, fromUser: UserId, toUser: Option<UserId>, kind: NotifKind, checklist: Option<Id>)
    requires Wf(db) && fromUser in db.users
    requires toUser.Some? ==> toUser.value in db.users
    requires checklist.Some? ==> checklist.value in db.checklists
    ensures Wf(Notify(db, fromUser, toUser, kind, checklist))
  {
    var r := Notify(db, fromUser, toUser, kind, checklist);
    assert r.notifications == db.notifications[db.nextId := Notification(fromUser, toUser, db.clock, kind, checklist)];
  }

  /** An upvote by a non-author adds the row and a notification for the author. */
  lemma UpvoteNotifiedWf(db: Db, user: UserId, cid: Id)
    requires Wf(db) && user in db.users && cid in db.checklists && db.checklists[cid].author != user
    requires !Holds(db.upvotes, user, cid)
    ensures Wf(Notify(db.(upvotes := Toggle(db.upvotes, user, cid, db.nextId).0, nextId := db.nextId + 1), user, Some(db.checklists[cid].author), UpvoteNotif, Some(cid)))
  {
    var tg := Toggle(db.upvotes, user, cid, db.nextId);
    ToggleLinksOk(db.upvotes, user, cid, db.nextId, db.users, db.checklists.Keys);
    WithUpvotes(db, tg.0);
    NotifyWf(db.(upvotes := tg.0, nextId := db.nextId + 1), user, Some(db.checklists[cid].author), UpvoteNotif, Some(cid));
  }

  /** The database an added upvotes leaves: the toggled table, then the notification. */
  lemma UpvoteAddShape(db: Db, user: UserId, cid: Id)
    requires FreshIds(db) && cid in db.checklists && db.checklists[cid].author != user
    requires !Holds(db.upvotes, user, cid)
    ensures ViewFunc.UpvoteChecklist(db, user, cid).db == Notify(db.(upvotes := Toggle(db.upvotes, user, cid, db.nextId).0, nextId := db.nextId + 1), user, Some(db.checklists[cid].author), UpvoteNotif, Some(cid))
  {
  }

  lemma UpvoteAddWf(db: Db, user: UserId, cid: Id)
    requires Wf(db) && user in db.users && cid in db.checklists && db.checklists[cid].author != user
    requires !Holds(db.upvotes, user, cid)
    ensures Wf(ViewFunc.UpvoteChecklist(db, user, cid).db)
  {
    UpvoteNotifiedWf(db, user, cid);
    UpvoteAddShape(db, user, cid);
  }

  lemma UpvoteWf(db: Db, user: UserId, cid: Id)
    requires Wf(db) && user in db.users
    ensures Wf(ViewFunc.UpvoteChecklist(db, user, cid).db)
  {
    if cid in db.checklists && db.checklists[cid].author != user {
      if Holds(db.upvotes, user, cid) {
        var tg := Toggle(db.upvotes, user, cid, db.nextId);
        ToggleLinksOk(db.upvotes, user, cid, db.nextId, db.users, db.checklists.Keys);
        WithUpvotes(db, tg.0);
        assert ViewFunc.UpvoteChecklist(db, user, cid).db == db.(upvotes := tg.0, nextId := db.nextId + 1);
      } else {
        UpvoteAddWf(db, user, cid);
      }
    }
  }

  lemma BookmarkWf(db: Db, user: UserId, cid: Id)
    requires Wf(db) && user in db.users
    ensures Wf(ViewFunc.BookmarkChecklist(db, user, cid).db)
  {
    if cid in db.checklists && db.checklists[cid].author != user {
      var tg := Toggle(db.bookmarks, user, cid, db.nextId);
      ToggleLinksOk(db.bookmarks, user, cid, db.nextId, db.users, db.checklists.Keys);
      WithBookmarks(db, tg.0);
      assert ViewFunc.BookmarkChecklist(db, user, cid).db == db.(bookmarks := tg.0, nextId := db.nextId + 1);
    }
  }

  /** A new follow that adds the row and notifies the followed user. */
  lemma FollowUserNotifiedWf(db: Db, user: UserId, username: UserId)
    requires Wf(db) && user in db.users && username in db.users && user != username
    requires !Holds(db.follows, user, username)
    ensures Wf(Notify(db.(follows := Toggle(db.follows, user, username, db.nextId).0, nextId := db.nextId + 1), user, Some(username), UserFollowNotif, None))
  {
    var tg := Toggle(db.follows, user, username, db.nextId);
    ToggleLinksOk(db.follows, user, username, db.nextId, db.users, db.users);
    WithFollows(db, tg.0);
    NotifyWf(db.(follows := tg.0, nextId := db.nextId + 1), user, Some(username), UserFollowNotif, None);
  }

  /** The database an added follows leaves: the toggled table, then the notification. */
  lemma FollowUserAddShape(db: Db, user: UserId, username: UserId)
    requires FreshIds(db) && username in db.users && user != username
    requires !Holds(db.follows, user, username)
    ensures ViewFunc.FollowUser(db, user, username).db == Notify(db.(follows := Toggle(db.follows, user, username, db.nextId).0, nextId := db.nextId + 1), user, Some(username), UserFollowNotif, None)
  {
  }

  lemma FollowUserAddWf(db: Db, user: UserId, username: UserId)
    requires Wf(db) && user in db.users && username in db.users && user != username
    requires !Holds(db.follows, user, username)
    ensures Wf(ViewFunc.FollowUser(db, user, username).db)
  {
    FollowUserNotifiedWf(db, user, username);
    FollowUserAddShape(db, user, username);
  }

  lemma FollowUserWf(db: Db, user: UserId, username: UserId)
    requires Wf(db) && user in db.users
    ensures Wf(ViewFunc.FollowUser(db, user, username).db)
  {
    if user != username && username in db.users {
      if Holds(db.follows, user, username) {
        var tg := Toggle(db.follows, user, username, db.nextId);
        ToggleLinksOk(db.follows, user, username, db.nextId, db.users, db.users);
        WithFollows(db, tg.0);
        assert ViewFunc.FollowUser(db, user, username).db == db.(follows := tg.0, nextId := db.nextId + 1);
      } else {
        FollowUserAddWf(db, user, username);
      }
    }
  }

  /** A new checklist follow that adds the row and notifies the author. */
  lemma FollowChecklistNotifiedWf(db: Db, user: UserId, cid: Id)
    requires Wf(db) && user in db.users && cid in db.checklists && db.checklists[cid].author != user
    requires !Holds(db.checklistFollows, user, cid)
    ensures Wf(Notify(db.(checklistFollows := Toggle(db.checklistFollows, user, cid, db.nextId).0, nextId := db.nextId + 1), user, Some(db.checklists[cid].author), ChecklistFollowNotif, Some(cid)))
  {
    var tg := Toggle(db.checklistFollows, user, cid, db.nextId);
    ToggleLinksOk(db.checklistFollows, user, cid, db.nextId, db.users, db.checklists.Keys);
    WithChecklistFollows(db, tg.0);
    NotifyWf(db.(checklistFollows := tg.0, nextId := db.nextId + 1), user, Some(db.checklists[cid].author), ChecklistFollowNotif, Some(cid));
  }

  /** The database an added checklistFollows leaves: the toggled table, then the notification. */
  lemma FollowChecklistAddShape(db: Db, user: UserId, cid: Id)
    requires FreshIds(db) && cid in db.checklists && db.checklists[cid].author != user
    requires !Holds(db.checklistFollows, user, cid)
    ensures ViewFunc.FollowChecklist(db, user, cid).db == Notify(db.(checklistFollows := Toggle(db.checklistFollows, user, cid, db.nextId).0, nextId := db.nextId + 1), user, Some(db.checklists[cid].author), ChecklistFollowNotif, Some(cid))
  {
  }

  lemma FollowChecklistAddWf(db: Db, user: UserId, cid: Id)
    requires Wf(db) && user in db.users && cid in db.checklists && db.checklists[cid].author != user
    requires !Holds(db.checklistFollows, user, cid)
    ensures Wf(ViewFunc.FollowChecklist(db, user, cid).db)
  {
    FollowChecklistNotifiedWf(db, user, cid);
    FollowChecklistAddShape(db, user, cid);
  }

  lemma FollowChecklistWf(db: Db, user: UserId, cid: Id)
    requires Wf(db) && user in db.users
    ensures Wf(ViewFunc.FollowChecklist(db, user, cid).db)
  {
    if cid in db.checklists && db.checklists[cid].author != user {
      if Holds(db.checklistFollows, user, cid) {
        var tg := Toggle(db.checklistFollows, user, cid, db.nextId);
        ToggleLinksOk(db.checklistFollows, user, cid, db.nextId, db.users, db.checklists.Keys);
        WithChecklistFollows(db, tg.0);
        assert ViewFunc.FollowChecklist(db, user, cid).db == db.(checklistFollows := tg.0, nextId := db.nextId + 1);
      } else {
        FollowChecklistAddWf(db, user, cid);
      }
    }
  }

  lemma UpvoteKeepsUniquePairs(db: Db, user: UserId, cid: Id)
    requires FreshIds(db) && UniquePairs(db)
    ensures UniquePairs(ViewFunc.UpvoteChecklist(db, user, cid).db)
  {
    var r := ViewFunc.UpvoteChecklist(db, user, cid).db;
    if cid in db.checklists && db.checklists[cid].author != user {
      assert r.upvotes == Toggle(db.upvotes, user, cid, db.nextId).0;
    }
  }

  lemma BookmarkKeepsUniquePairs(db: Db, user: UserId, cid: Id)
    requires FreshIds(db) && UniquePairs(db)
    ensures UniquePairs(ViewFunc.BookmarkChecklist(db, user, cid).db)
  {
    var r := ViewFunc.BookmarkChecklist(db, user, cid).db;
    if cid in db.checklists && db.checklists[cid].author != user {
      assert r.bookmarks == Toggle(db.bookmarks, user, cid, db.nextId).0;
    }
  }

  lemma FollowUserKeepsUniquePairs(db: Db, user: UserId, username: UserId)
    requires FreshIds(db) && UniquePairs(db)
    ensures UniquePairs(ViewFunc.FollowUser(db, user, username).db)
  {
    var r := ViewFunc.FollowUser(db, user, username).db;
    if user != username && username in db.users {
      var t := Toggle(db.follows, user, username, db.nextId).0;
      assert AtMostOnePerPair(t);
      assert r.follows == t;
    }
  }

  lemma FollowChecklistKeepsUniquePairs(db: Db, user: UserId, cid: Id)
    requires FreshIds(db) && UniquePairs(db)
    ensures UniquePairs(ViewFunc.FollowChecklist(db, user, cid).db)
  {
    var r := ViewFunc.FollowChecklist(db, user, cid).db;
    if cid in db.checklists && db.checklists[cid].author != user {
      assert r.checklistFollows == Toggle(db.checklistFollows, user, cid, db.nextId).0;
    }
  }

  /** Replacing the items, all of them attached to existing checklists, keeps the database well formed. */
  lemma WithItems(db: Db, items: map<Id, Item>, n: nat)
    requires Wf(db) && db.nextId <= n && KeysBelow(items, n)
    requires forall k :: k in items ==> items[k].checklist in db.checklists
    ensures Wf(db.(items := items, nextId := n))
  {
  }

  /**
   * Replacing the checklists by a superset whose rows point at existing users
   * and categories and were posted before the new clock keeps the database
   * well formed.
   */
  lemma WithChecklists(db: Db, cs: map<Id, Checklist>, n: nat, clock: nat)
    requires Wf(db) && db.nextId <= n && db.clock <= clock && KeysBelow(cs, n)
    requires db.checklists.Keys <= cs.Keys
    requires forall k :: k in cs ==> ChecklistRefsOk(db, cs[k]) && cs[k].datePosted < clock
    ensures Wf(db.(checklists := cs, nextId := n, clock := clock))
  {
    var r := db.(checklists := cs, nextId := n, clock := clock);
    assert TimesBelow(r);
    assert forall k :: k in r.checklists ==> ChecklistRefsOk(r, r.checklists[k]);
    assert forall k :: k in r.comments ==> CommentRefsOk(r, r.comments[k]);
    assert forall k :: k in r.notifications ==> NotificationRefsOk(r, r.notifications[k]);
  }

  /** Replacing checklists and items together, as the copy of a checklist does. */
  lemma WithChecklistsAndItems(db: Db, cs: map<Id, Checklist>, items: map<Id, Item>, n: nat, clock: nat)
    requires Wf(db) && db.nextId <= n && db.clock <= clock && KeysBelow(cs, n) && KeysBelow(items, n)
    requires db.checklists.Keys <= cs.Keys
    requires forall k :: k in cs ==> ChecklistRefsOk(db, cs[k]) && cs[k].datePosted < clock
    requires forall k :: k in items ==> items[k].checklist in cs
    ensures Wf(db.(checklists := cs, items := items, nextId := n, clock := clock))
  {
    var r := db.(checklists := cs, items := items, nextId := n, clock := clock);
    assert TimesBelow(r);
    assert forall k :: k in r.checklists ==> ChecklistRefsOk(r, r.checklists[k]);
    assert forall k :: k in r.comments ==> CommentRefsOk(r, r.comments[k]);
    assert forall k :: k in r.notifications ==> NotificationRefsOk(r, r.notifications[k]);
  }

  /** Replacing the comments by rows that point at existing rows keeps the database well formed. */
  lemma WithComments(db: Db, cs: map<Id, Comment>, n: nat, clock: nat)
    requires Wf(db) && db.nextId <= n && db.clock <= clock && KeysBelow(cs, n)
    requires forall k :: k in cs ==> && cs[k].checklist in db.checklists && cs[k].user in db.users
                                     && (cs[k].parent.Some? ==> cs[k].parent.value in cs)
                                     && cs[k].createdOn < clock
    ensures Wf(db.(comments := cs, nextId := n, clock := clock))
  {
    var r := db.(comments := cs, nextId := n, clock := clock);
    assert TimesBelow(r);
    assert forall k :: k in r.comments ==> CommentRefsOk(r, r.comments[k]);
    assert forall k :: k in r.notifications ==> NotificationRefsOk(r, r.notifications[k]);
  }

  lemma ItemActionWf(db: Db, user: UserId, itemId: Id, action: string)
    requires Wf(db)
    ensures Wf(ViewFunc.ItemAction(db, user, itemId, action).db)
  {
    var r := ViewFunc.ItemAction(db, user, itemId, action).db;
    WithItems(db, r.items, db.nextId);
    assert r == db.(items := r.items, nextId := db.nextId);
  }

  lemma PublishWf(db: Db, user: UserId, cid: Id)
    requires Wf(db)
    ensures Wf(ViewFunc.PublishChecklist(db, user, cid).db)
  {
    var r := ViewFunc.PublishChecklist(db, user, cid).db;
    if cid in db.checklists && db.checklists[cid].author == user {
      assert forall k :: k in r.checklists ==> ChecklistRefsOk(db, r.checklists[k]) && r.checklists[k].datePosted < db.clock by {
        forall k | k in r.checklists ensures ChecklistRefsOk(db, r.checklists[k]) && r.checklists[k].datePosted < db.clock {
          assert ChecklistRefsOk(db, db.checklists[k]);
        }
      }
      WithChecklists(db, r.checklists, db.nextId, db.clock);
      assert r == db.(checklists := r.checklists, nextId := db.nextId, clock := db.clock);
    }
  }

  /** Every item the copy ends up with belongs to an existing checklist or to the copy. */
  lemma CopiedItemsRefs(db: Db, cid: Id, items: map<Id, Item>)
    requires Wf(db) && items == ViewFunc.CopiedItems(db, cid)
    ensures KeysBelow(items, db.nextId + 1 + |ItemsOf(db, cid)|)
    ensures forall k :: k in items ==> items[k].checklist in db.checklists || items[k].checklist == db.nextId
  {
    var n := db.nextId;
    var src := ItemsOf(db, cid);
    ViewFunc.CopiedItemsKeys(db, cid);
    ViewFunc.CopiedItemsContents(db, cid, src);
    forall k | k in items ensures items[k].checklist in db.checklists || items[k].checklist == n {
      if k !in db.items {
        var j := k - n - 1;
        assert items[n + 1 + j] == db.items[src[j]].(checklist := n);
      }
    }
  }

  /** The copy saved by save-and-edit keeps the database well formed. */
  lemma SaveCopyWf(db: Db, user: UserId, cid: Id)
    requires Wf(db) && user in db.users && cid in db.checklists
    ensures Wf(ViewFunc.SaveCopy(db, user, cid))
  {
    ViewFunc.SaveCopyFresh(db, user, cid);
    SaveCopyTimes(db, user, cid);
    SaveCopyRowRefs(db, user, cid);
    SaveCopyLinkRefs(db, user, cid);
  }

  /** The fields the copy writes, as one update of `db`. */
  function CopyResult(db: Db, user: UserId, cid: Id): (r: Db)
    requires FreshIds(db) && cid in db.checklists
    ensures r == db.(checklists := r.checklists, items := r.items, nextId := r.nextId, clock := r.clock)
  {
    var original := db.checklists[cid];
    db.(checklists := db.checklists[db.nextId := NewChecklist(original.title + " by " + user, original.content, user, original.category, db.clock)],
        items := ViewFunc.CopiedItems(db, cid),
        nextId := db.nextId + 1 + |ItemsOf(db, cid)|,
        clock := db.clock + 1)
  }

  /** The copy's fields, before they are written, keep the timestamps in the past. */
  lemma CopyResultTimes(db: Db, user: UserId, cid: Id)
    requires Wf(db) && user in db.users && cid in db.checklists
    ensures TimesBelow(CopyResult(db, user, cid))
  {
    var original := db.checklists[cid];
    var cs := db.checklists[db.nextId := NewChecklist(original.title + " by " + user, original.content, user, original.category, db.clock)];
    var items := ViewFunc.CopiedItems(db, cid);
    var last := db.nextId + 1 + |ItemsOf(db, cid)|;
    CopyParts(db, user, cid, cs, items, last);
    WithChecklistsAndItems(db, cs, items, last, db.clock + 1);
  }

  /** The copy's fields, before they are written, keep the content rows' references. */
  lemma CopyResultRowRefs(db: Db, user: UserId, cid: Id)
    requires Wf(db) && user in db.users && cid in db.checklists
    ensures RowRefsOk(CopyResult(db, user, cid))
  {
    var original := db.checklists[cid];
    var cs := db.checklists[db.nextId := NewChecklist(original.title + " by " + user, original.content, user, original.category, db.clock)];
    var items := ViewFunc.CopiedItems(db, cid);
    var last := db.nextId + 1 + |ItemsOf(db, cid)|;
    CopyParts(db, user, cid, cs, items, last);
    WithChecklistsAndItems(db, cs, items, last, db.clock + 1);
  }

  /** The copy's fields, before they are written, keep the link tables' references. */
  lemma CopyResultLinkRefs(db: Db, user: UserId, cid: Id)
    requires Wf(db) && user in db.users && cid in db.checklists
    ensures LinkRefsOk(CopyResult(db, user, cid))
  {
    var original := db.checklists[cid];
    var cs := db.checklists[db.nextId := NewChecklist(original.title + " by " + user, original.content, user, original.category, db.clock)];
    var items := ViewFunc.CopiedItems(db, cid);
    var last := db.nextId + 1 + |ItemsOf(db, cid)|;
    CopyParts(db, user, cid, cs, items, last);
    WithChecklistsAndItems(db, cs, items, last, db.clock + 1);
  }

  lemma SaveCopyTimes(db: Db, user: UserId, cid: Id)
    requires Wf(db) && user in db.users && cid in db.checklists
    ensures TimesBelow(ViewFunc.SaveCopy(db, user, cid))
  {
    CopyResultTimes(db, user, cid);
    SaveCopyShape(db, user, cid);
  }

  lemma SaveCopyRowRefs(db: Db, user: UserId, cid: Id)
    requires Wf(db) && user in db.users && cid in db.checklists
    ensures RowRefsOk(ViewFunc.SaveCopy(db, user, cid))
  {
    CopyResultRowRefs(db, user, cid);
    SaveCopyShape(db, user, cid);
  }

  lemma SaveCopyLinkRefs(db: Db, user: UserId, cid: Id)
    requires Wf(db) && user in db.users && cid in db.checklists
    ensures LinkRefsOk(ViewFunc.SaveCopy(db, user, cid))
  {
    CopyResultLinkRefs(db, user, cid);
    SaveCopyShape(db, user, cid);
  }

  /** The checklists and items the copy writes point at existing rows and stay below the counter. */
  lemma CopyParts(db: Db, user: UserId, cid: Id, cs: map<Id, Checklist>, items: map<Id, Item>, last: nat)
    requires Wf(db) && user in db.users && cid in db.checklists
    requires var original := db.checklists[cid];
      cs == db.checklists[db.nextId := NewChecklist(original.title + " by " + user, original.content, user, original.category, db.clock)]
    requires items == ViewFunc.CopiedItems(db, cid) && last == db.nextId + 1 + |ItemsOf(db, cid)|
    ensures KeysBelow(cs, last) && KeysBelow(items, last) && db.checklists.Keys <= cs.Keys
    ensures forall k :: k in cs ==> ChecklistRefsOk(db, cs[k]) && cs[k].datePosted < db.clock + 1
    ensures forall k :: k in items ==> items[k].checklist in cs
  {
    var n := db.nextId;
    var original := db.checklists[cid];
    assert ChecklistRefsOk(db, cs[n]) && cs[n].datePosted < db.clock + 1 by {
      assert ChecklistRefsOk(db, original);
    }
    forall k | k in cs ensures ChecklistRefsOk(db, cs[k]) && cs[k].datePosted < db.clock + 1 {
      if k != n {
        assert ChecklistRefsOk(db, db.checklists[k]);
      }
    }
    CopiedItemsRefs(db, cid, items);
  }

  /** The database after the copy, field by field. */
  lemma SaveCopyShape(db: Db, user: UserId, cid: Id)
    requires FreshIds(db) && cid in db.checklists
    ensures ViewFunc.SaveCopy(db, user, cid) == CopyResult(db, user, cid)
  {
  }

  lemma SaveAndEditWf(db: Db, user: UserId, cid: Id)
    requires Wf(db) && user in db.users
    ensures Wf(ViewFunc.SaveAndEdit(db, user, cid).db)
  {
    if ViewFunc.SaveAndEdit(db, user, cid).out == Done(SavedCopy) {
      SaveCopyWf(db, user, cid);
    }
  }

  lemma DismissNotifWf(db: Db, user: UserId, id: Id)
    requires Wf(db)
    ensures Wf(ViewFunc.DismissNotif(db, user, id).db)
  {
  }

  /** Saving a new comment between existing rows, stamped now, keeps the database well formed. */
  lemma AddCommentWf(db: Db, c: Comment)
    requires Wf(db) && c.checklist in db.checklists && c.user in db.users && c.createdOn == db.clock
    requires c.parent.Some? ==> c.parent.value in db.comments
    ensures Wf(db.(comments := db.comments[db.nextId := c], nextId := db.nextId + 1, clock := db.clock + 1))
  {
    var cs := db.comments[db.nextId := c];
    AddedCommentRows(db, c);
    WithComments(db, cs, db.nextId + 1, db.clock + 1);
  }

  /** The comment table with `c` added: every row points at existing rows and is in the past. */
  lemma AddedCommentRows(db: Db, c: Comment)
    requires Wf(db) && c.checklist in db.checklists && c.user in db.users && c.createdOn == db.clock
    requires c.parent.Some? ==> c.parent.value in db.comments
    ensures var cs := db.comments[db.nextId := c];
      forall k :: k in cs ==> && cs[k].checklist in db.checklists && cs[k].user in db.users
                              && (cs[k].parent.Some? ==> cs[k].parent.value in cs)
                              && cs[k].createdOn < db.clock + 1
  {
    var cs := db.comments[db.nextId := c];
    forall k | k in cs
      ensures && cs[k].checklist in db.checklists && cs[k].user in db.users
              && (cs[k].parent.Some? ==> cs[k].parent.value in cs)
              && cs[k].createdOn < db.clock + 1
    {
      if k in db.comments && k != db.nextId {
        assert CommentRefsOk(db, db.comments[k]);
      }
    }
  }

  lemma SubmitCommentWf(db: Db, user: UserId, cid: Id, isPost: bool, form: Option<string>, parentId: IntParam)
    requires Wf(db) && user in db.users
    ensures Wf(ViewFunc.SubmitComment(db, user, cid, isPost, form, parentId).db)
  {
    var r := ViewFunc.SubmitComment(db, user, cid, isPost, form, parentId);
    if r.out == Done(CommentSaved) {
      var c := Comment(cid, user, form.value, db.clock, ViewFunc.ParentOf(db, parentId).value);
      AddCommentWf(db, c);
      assert r.db == db.(comments := db.comments[db.nextId := c], nextId := db.nextId + 1, clock := db.clock + 1);
    }
  }

  /** Saving an item of an existing checklist keeps the database well formed. */
  lemma AddItemWf(db: Db, it: Item)
    requires Wf(db) && it.checklist in db.checklists
    ensures Wf(AddItem(db, it))
  {
    WithItems(db, db.items[db.nextId := it], db.nextId + 1);
  }

  lemma CreateItemWf(db: Db, user: UserId, cid: Id, rawTitle: string)
    requires Wf(db)
    ensures Wf(ItemComm.CreateItem(db, user, cid, rawTitle).db)
  {
    if cid in db.checklists && db.checklists[cid].author == user && Forms.TitleField(rawTitle).Some? {
      AddItemWf(db, NewItem(Forms.TitleField(rawTitle).value, cid));
    }
  }

  lemma UpdateItemWf(db: Db, user: UserId, itemId: Id, rawTitle: string)
    requires Wf(db)
    ensures Wf(ItemComm.UpdateItem(db, user, itemId, rawTitle).db)
  {
    var r := ItemComm.UpdateItem(db, user, itemId, rawTitle);
    if r.out == Succeeded {
      WithItems(db, r.db.items, db.nextId);
      assert r.db == db.(items := r.db.items, nextId := db.nextId);
    }
  }

  lemma UpdateCommentWf(db: Db, user: UserId, id: Id, body: Option<string>)
    requires Wf(db)
    ensures Wf(ItemComm.UpdateComment(db, user, id, body).db)
  {
    var r := ItemComm.UpdateComment(db, user, id, body).db;
    if r != db {
      forall k | k in r.comments
        ensures && r.comments[k].checklist in db.checklists && r.comments[k].user in db.users
                && (r.comments[k].parent.Some? ==> r.comments[k].parent.value in r.comments)
                && r.comments[k].createdOn < db.clock
      {
        assert CommentRefsOk(db, db.comments[k]);
      }
      WithComments(db, r.comments, db.nextId, db.clock);
      assert r == db.(comments := r.comments, nextId := db.nextId, clock := db.clock);
    }
  }

  lemma DeleteCommentWf(db: Db, user: UserId, id: Id)
    requires Wf(db)
    ensures Wf(ItemComm.DeleteComment(db, user, id).db)
  {
    if ItemComm.DeleteComment(db, user, id).out == Done(CommentDeleted) {
      Cascade.DeleteCommentTreeWf(db, id);
    }
  }

  /** Saving a checklist whose author and category exist keeps the database well formed. */
  lemma AddChecklistWf(db: Db, c: Checklist)
    requires Wf(db) && ChecklistRefsOk(db, c) && c.datePosted <= db.clock
    ensures Wf(AddChecklist(db, c))
  {
    var cs := db.checklists[db.nextId := c];
    forall k | k in cs ensures ChecklistRefsOk(db, cs[k]) && cs[k].datePosted < db.clock + 1 {
      if k in db.checklists {
        assert ChecklistRefsOk(db, db.checklists[k]);
      }
    }
    WithChecklists(db, cs, db.nextId + 1, db.clock + 1);
  }

  lemma CreateChecklistWf(db: Db, user: UserId, f: ChecklistViews.ChecklistForm)
    requires Wf(db) && user in db.users
    ensures Wf(ChecklistViews.CreateChecklist(db, user, f).db)
  {
    match ChecklistViews.CleanChecklist(db, f)
    case None =>
    case Some(g) =>
      AddChecklistWf(db, Checklist(g.title, g.content, db.clock, user, 0, g.category, g.isDraft));
  }

  lemma UpdateChecklistWf(db: Db, user: UserId, cid: Id, f: ChecklistViews.ChecklistForm)
    requires Wf(db)
    ensures Wf(ChecklistViews.UpdateChecklist(db, user, cid, f).db)
  {
    var r := ChecklistViews.UpdateChecklist(db, user, cid, f);
    if r.out == Succeeded {
      forall k | k in r.db.checklists ensures ChecklistRefsOk(db, r.db.checklists[k]) && r.db.checklists[k].datePosted < db.clock {
        assert ChecklistRefsOk(db, db.checklists[k]);
      }
      WithChecklists(db, r.db.checklists, db.nextId, db.clock);
      assert r.db == db.(checklists := r.db.checklists, nextId := db.nextId, clock := db.clock);
    }
  }

  lemma DeleteChecklistViewWf(db: Db, user: UserId, cid: Id)
    requires Wf(db)
    ensures Wf(ChecklistViews.DeleteChecklistView(db, user, cid).db)
  {
    if cid in db.checklists {
      Cascade.DeleteChecklistWf(db, cid);
    }
  }

  // ---------------------------------------------------------------------
  // Every request

  /** Requests that toggle a link-table row. */
  datatype LinkRequest =
    | Upvote(cid: Id)
    | Bookmark(cid: Id)
    | FollowUserReq(username: UserId)
    | FollowChecklistReq(cid: Id)

  /** `a` and `b` hold the same four link tables. */
  predicate SameLinks(a: Db, b: Db)
  {
    a.upvotes == b.upvotes && a.bookmarks == b.bookmarks && a.follows == b.follows && a.checklistFollows == b.checklistFollows
  }

  /** The other function views that change a checklist or a notification. */
  datatype ActionRequest =
    | ItemActionReq(itemId: Id, action: string)
    | Publish(cid: Id)
    | SaveAndEditReq(cid: Id)
    | Dismiss(id: Id)

  /** Item writes. */
  datatype ItemRequest =
    | CreateItemReq(cid: Id, rawTitle: string)
    | UpdateItemReq(itemId: Id, rawTitle: string)

  /** Comment writes. */
  datatype CommentRequest =
    | SubmitCommentReq(cid: Id, isPost: bool, form: Option<string>, parentId: IntParam)
    | UpdateCommentReq(id: Id, body: Option<string>)
    | DeleteCommentReq(id: Id)

  /** Checklist create, update and delete. */
  datatype ChecklistRequest =
    | CreateChecklistReq(f: ChecklistViews.ChecklistForm)
    | UpdateChecklistReq(cid: Id, f: ChecklistViews.ChecklistForm)
    | DeleteChecklistReq(cid: Id)

  /** The requests a logged-in user can send that write to the database. */
  datatype Request =
    | LinkReq(link: LinkRequest)
    | ActionReq(action: ActionRequest)
    | ItemReq(item: ItemRequest)
    | CommentReq(comment: CommentRequest)
    | ChecklistReq(crud: ChecklistRequest)

  function HandleLink(db: Db, user: UserId, req: LinkRequest): Step
    requires FreshIds(db)
  {
    match req
    case Upvote(cid) => ViewFunc.UpvoteChecklist(db, user, cid)
    case Bookmark(cid) => ViewFunc.BookmarkChecklist(db, user, cid)
    case FollowUserReq(username) => ViewFunc.FollowUser(db, user, username)
    case FollowChecklistReq(cid) => ViewFunc.FollowChecklist(db, user, cid)
  }

  function HandleAction(db: Db, user: UserId, req: ActionRequest): (r: Step)
    requires FreshIds(db)
    ensures SameLinks(db, r.db)
  {
    match req
    case ItemActionReq(itemId, action) => ViewFunc.ItemAction(db, user, itemId, action)
    case Publish(cid) => ViewFunc.PublishChecklist(db, user, cid)
    case SaveAndEditReq(cid) => ViewFunc.SaveAndEdit(db, user, cid)
    case Dismiss(id) => ViewFunc.DismissNotif(db, user, id)
  }

  function HandleItem(db: Db, user: UserId, req: ItemRequest): (r: Step)
    requires FreshIds(db)
    ensures SameLinks(db, r.db)
  {
    match req
    case CreateItemReq(cid, rawTitle) => ItemComm.CreateItem(db, user, cid, rawTitle)
    case UpdateItemReq(itemId, rawTitle) => ItemComm.UpdateItem(db, user, itemId, rawTitle)
  }

  function HandleComment(db: Db, user: UserId, req: CommentRequest): (r: Step)
    requires FreshIds(db)
    ensures SameLinks(db, r.db)
  {
    match req
    case SubmitCommentReq(cid, isPost, form, parentId) => ViewFunc.SubmitComment(db, user, cid, isPost, form, parentId)
    case UpdateCommentReq(id, body) => ItemComm.UpdateComment(db, user, id, body)
    case DeleteCommentReq(id) => ItemComm.DeleteComment(db, user, id)
  }

  function HandleChecklist(db: Db, user: UserId, req: ChecklistRequest): Step
    requires FreshIds(db)
  {
    match req
    case CreateChecklistReq(f) => ChecklistViews.CreateChecklist(db, user, f)
    case UpdateChecklistReq(cid, f) => ChecklistViews.UpdateChecklist(db, user, cid, f)
    case DeleteChecklistReq(cid) => ChecklistViews.DeleteChecklistView(db, user, cid)
  }

  /** Routes a request to its view. */
  function Handle(db: Db, user: UserId, req: Request): Step
    requires FreshIds(db)
  {
    match req
    case LinkReq(l) => HandleLink(db, user, l)
    case ActionReq(a) => HandleAction(db, user, a)
    case ItemReq(i) => HandleItem(db, user, i)
    case CommentReq(c) => HandleComment(db, user, c)
    case ChecklistReq(c) => HandleChecklist(db, user, c)
  }

  lemma HandleLinkWf(db: Db, user: UserId, req: LinkRequest)
    requires Wf(db) && user in db.users
    ensures Wf(HandleLink(db, user, req).db)
  {
    match req
    case Upvote(cid) => UpvoteWf(db, user, cid);
    case Bookmark(cid) => BookmarkWf(db, user, cid);
    case FollowUserReq(username) => FollowUserWf(db, user, username);
    case FollowChecklistReq(cid) => FollowChecklistWf(db, user, cid);
  }

  lemma HandleActionWf(db: Db, user: UserId, req: ActionRequest)
    requires Wf(db) && user in db.users
    ensures Wf(HandleAction(db, user, req).db)
  {
    match req
    case ItemActionReq(itemId, action) => ItemActionWf(db, user, itemId, action);
    case Publish(cid) => PublishWf(db, user, cid);
    case SaveAndEditReq(cid) => SaveAndEditWf(db, user, cid);
    case Dismiss(id) => DismissNotifWf(db, user, id);
  }

  lemma HandleItemWf(db: Db, user: UserId, req: ItemRequest)
    requires Wf(db) && user in db.users
    ensures Wf(HandleItem(db, user, req).db)
  {
    match req
    case CreateItemReq(cid, rawTitle) => CreateItemWf(db, user, cid, rawTitle);
    case UpdateItemReq(itemId, rawTitle) => UpdateItemWf(db, user, itemId, rawTitle);
  }

  lemma HandleCommentWf(db: Db, user: UserId, req: CommentRequest)
    requires Wf(db) && user in db.users
    ensures Wf(HandleComment(db, user, req).db)
  {
    match req
    case SubmitCommentReq(cid, isPost, form, parentId) => SubmitCommentWf(db, user, cid, isPost, form, parentId);
    case UpdateCommentReq(id, body) => UpdateCommentWf(db, user, id, body);
    case DeleteCommentReq(id) => DeleteCommentWf(db, user, id);
  }

  lemma HandleChecklistWf(db: Db, user: UserId, req: ChecklistRequest)
    requires Wf(db) && user in db.users
    ensures Wf(HandleChecklist(db, user, req).db)
  {
    match req
    case CreateChecklistReq(f) => CreateChecklistWf(db, user, f);
    case UpdateChecklistReq(cid, f) => UpdateChecklistWf(db, user, cid, f);
    case DeleteChecklistReq(cid) => DeleteChecklistViewWf(db, user, cid);
  }

  /** Whatever an existing user requests, the database stays well formed. */
  lemma HandleWf(db: Db, user: UserId, req: Request)
    requires Wf(db) && user in db.users
    ensures Wf(Handle(db, user, req).db)
  {
    match req
    case LinkReq(l) =>
      HandleLinkWf(db, user, l);
      assert Handle(db, user, req) == HandleLink(db, user, l);
    case ActionReq(a) =>
      HandleActionWf(db, user, a);
      assert Handle(db, user, req) == HandleAction(db, user, a);
    case ItemReq(i) =>
      HandleItemWf(db, user, i);
      assert Handle(db, user, req) == HandleItem(db, user, i);
    case CommentReq(c) =>
      HandleCommentWf(db, user, c);
      assert Handle(db, user, req) == HandleComment(db, user, c);
    case ChecklistReq(c) =>
      HandleChecklistWf(db, user, c);
      assert Handle(db, user, req) == HandleChecklist(db, user, c);
  }

  /** Dropping rows from a link table keeps at most one row per pair. */
  lemma SubTableUnique<A, B>(t: Table<A, B>, t': Table<A, B>)
    requires AtMostOnePerPair(t)
    requires forall k :: k in t' ==> k in t && t'[k] == t[k]
    ensures AtMostOnePerPair(t')
  {
  }

  /** Deleting a checklist drops link rows without adding any. */
  lemma DeleteChecklistKeepsUniquePairs(db: Db, user: UserId, cid: Id)
    requires UniquePairs(db)
    ensures UniquePairs(ChecklistViews.DeleteChecklistView(db, user, cid).db)
  {
    var r := ChecklistViews.DeleteChecklistView(db, user, cid).db;
    if cid in db.checklists && db.checklists[cid].author == user {
      assert r == Cascade.DeleteChecklist(db, cid);
      SubTableUnique(db.upvotes, r.upvotes);
      SubTableUnique(db.bookmarks, r.bookmarks);
      SubTableUnique(db.checklistFollows, r.checklistFollows);
    }
  }

  lemma HandleChecklistKeepsUniquePairs(db: Db, user: UserId, req: ChecklistRequest)
    requires FreshIds(db) && UniquePairs(db)
    ensures UniquePairs(HandleChecklist(db, user, req).db)
  {
    match req
    case CreateChecklistReq(f) =>
    case UpdateChecklistReq(cid, f) =>
    case DeleteChecklistReq(cid) => DeleteChecklistKeepsUniquePairs(db, user, cid);
  }

  /** Whatever is requested, no link table ever holds two rows for one pair. */
  lemma HandleKeepsUniquePairs(db: Db, user: UserId, req: Request)
    requires FreshIds(db) && UniquePairs(db)
    ensures UniquePairs(Handle(db, user, req).db)
  {
    match req
    case LinkReq(Upvote(cid)) => UpvoteKeepsUniquePairs(db, user, cid);
    case LinkReq(Bookmark(cid)) => BookmarkKeepsUniquePairs(db, user, cid);
    case LinkReq(FollowUserReq(username)) => FollowUserKeepsUniquePairs(db, user, username);
    case LinkReq(FollowChecklistReq(cid)) => FollowChecklistKeepsUniquePairs(db, user, cid);
    case ActionReq(a) =>
    case ItemReq(i) =>
    case CommentReq(c) =>
    case ChecklistReq(c) => HandleChecklistKeepsUniquePairs(db, user, c);
  }
}

=== FILE: itemcomm.dfy ===
/**
 * The class-based views for items and comments: creating an item, editing
 * an item's title or a comment's body, and deleting a comment. Every one
 * of them requires a logged-in user.
 */
module ItemComm {
  import opened Wrappers
  import opened Relation
  import opened Models
  import opened Outcomes
  import opened Forms
  import Cascade

  /**
   * `ItemCreateView`: only the checklist's author may add an item; the
   * new item, not completed, belongs to checklist `cid`.
   */
  function CreateItem(db: Db, user: UserId, cid: Id, rawTitle: string): (r: Step)
    requires FreshIds(db)
    ensures FreshIds(r.db)
    ensures cid !in db.checklists ==> r == Step(db, Crash)
    ensures cid in db.checklists && db.checklists[cid].author != user ==> r == Step(db, Refused(AddItemDenied))
    ensures cid in db.checklists && db.checklists[cid].author == user && TitleField(rawTitle).None? ==> r == Step(db, Silent)
    ensures r.out == Succeeded <==> cid in db.checklists && db.checklists[cid].author == user && TitleField(rawTitle).Some?
    ensures r.out == Succeeded ==>
      && Inserted(db.items, r.db.items, NewItem(TitleField(rawTitle).value, cid))
      && ItemsOf(r.db, cid) == ItemsOf(db, cid) + [db.nextId]
      && r.db == db.(items := r.db.items, nextId := r.db.nextId)
    ensures r.out != Succeeded ==> r.db == db
  {
    if cid !in db.checklists then Step(db, Crash)
    else if db.checklists[cid].author != user then Step(db, Refused(AddItemDenied))
    else match TitleField(rawTitle)
      case None => Step(db, Silent)
      case Some(title) =>
        Step(AddItem(db, NewItem(title, cid)), Succeeded)
  }

  /**
   * The guard of `ItemUpdateView`: 404 for an unknown item, 403 unless
   * the user wrote the item's checklist. `None` lets the request through.
   */
  function ItemGuard(db: Db, user: UserId, itemId: Id): (r: Option<Outcome>)
    ensures r.None? <==> itemId in db.items && db.items[itemId].checklist in db.checklists
                         && db.checklists[db.items[itemId].checklist].author == user
    ensures itemId !in db.items ==> r == Some(NotFound)
    ensures r.Some? ==> r.value in {NotFound, Forbidden, Crash}
  {
    if itemId !in db.items then Some(NotFound)
    else if db.items[itemId].checklist !in db.checklists then Some(Crash)
    else if db.checklists[db.items[itemId].checklist].author != user then Some(Forbidden)
    else None
  }

  /** `ItemUpdateView`: the author renames an item; nothing else changes. */
  function UpdateItem(db: Db, user: UserId, itemId: Id, rawTitle: string): (r: Step)
    ensures ItemGuard(db, user, itemId).Some? ==> r == Step(db, ItemGuard(db, user, itemId).value)
    ensures ItemGuard(db, user, itemId).None? && TitleField(rawTitle).None? ==> r == Step(db, Silent)
    ensures r.out == Succeeded <==> ItemGuard(db, user, itemId).None? && TitleField(rawTitle).Some?
    ensures r.out == Succeeded ==>
      && r.db.items.Keys == db.items.Keys
      && r.db.items[itemId] == db.items[itemId].(title := TitleField(rawTitle).value)
      && (forall k :: k in db.items && k != itemId ==> r.db.items[k] == db.items[k])
      && r.db == db.(items := r.db.items)
    ensures r.out != Succeeded ==> r.db == db
  {
    match ItemGuard(db, user, itemId)
    case Some(out) => Step(db, out)
    case None =>
      match TitleField(rawTitle)
      case None => Step(db, Silent)
      case Some(title) =>
        Step(db.(items := db.items[itemId := db.items[itemId].(title := title)]), Succeeded)
  }

  /** Submitting the same edit twice leaves what the first one saved. */
  lemma UpdateItemIdempotent(db: Db, user: UserId, itemId: Id, rawTitle: string)
    ensures var r1 := UpdateItem(db, user, itemId, rawTitle);
      UpdateItem(r1.db, user, itemId, rawTitle).db == r1.db
  {
    var r1 := UpdateItem(db, user, itemId, rawTitle);
    if r1.out == Succeeded {
      assert r1.db.checklists == db.checklists;
      var r2 := UpdateItem(r1.db, user, itemId, rawTitle);
      assert r2.out == Succeeded;
      assert r2.db.items == r1.db.items by {
        assert r2.db.items.Keys == r1.db.items.Keys;
        assert r2.db.items[itemId] == r1.db.items[itemId];
      }
    }
  }

  /**
   * The guard shared by `CommentUpdateView` and `CommentDeleteView`: 404
   * for an unknown comment, 403 unless the user wrote it.
   */
  function CommentGuard(db: Db, user: UserId, id: Id): (r: Option<Outcome>)
    ensures r.None? <==> id in db.comments && db.comments[id].user == user
    ensures r.Some? ==> r == (if id in db.comments then Some(Forbidden) else Some(NotFound))
  {
    if id !in db.comments then Some(NotFound)
    else if db.comments[id].user != user then Some(Forbidden)
    else None
  }

  /**
   * `CommentUpdateView`: the writer replaces the body. `body` is the
   * validated field, `None` when the form is invalid.
   */
  function UpdateComment(db: Db, user: UserId, id: Id, body: Option<string>): (r: Step)
    ensures CommentGuard(db, user, id).Some? ==> r == Step(db, CommentGuard(db, user, id).value)
    ensures r.out == Succeeded <==> CommentGuard(db, user, id).None? && body.Some?
    ensures r.out == Succeeded ==>
      && r.db.comments.Keys == db.comments.Keys
      && r.db.comments[id] == db.comments[id].(body := body.value)
      && (forall k :: k in db.comments && k != id ==> r.db.comments[k] == db.comments[k])
      && r.db == db.(comments := r.db.comments)
    ensures r.out != Succeeded ==> r.db == db
  {
    match CommentGuard(db, user, id)
    case Some(out) => Step(db, out)
    case None =>
      if body.None? then Step(db, Silent)
      else Step(db.(comments := db.comments[id := db.comments[id].(body := body.value)]), Succeeded)
  }

  /**
   * `CommentDeleteView.delete`: a top-level comment that has replies stays;
   * any other comment goes, and with it every reply below it.
   */
  function DeleteComment(db: Db, user: UserId, id: Id): (r: Step)
    ensures CommentGuard(db, user, id).Some? ==> r == Step(db, CommentGuard(db, user, id).value)
    ensures CommentGuard(db, user, id).None? && db.comments[id].parent.None? && Children(db.comments, id) != {} ==>
      r == Step(db, Refused(CommentHasReplies))
    ensures r.out == Done(CommentDeleted) <==>
      CommentGuard(db, user, id).None? && (db.comments[id].parent.Some? || Children(db.comments, id) == {})
    ensures r.out == Done(CommentDeleted) ==>
      && id !in r.db.comments
      && (forall k :: k in db.comments && db.comments[k].parent == Some(id) ==> k !in r.db.comments)
      && id in db.comments
      && (forall k :: k in r.db.comments <==> k in db.comments && k !in Cascade.Subtree(db.comments, {id}))
      && (forall k :: k in r.db.comments ==> k in db.comments && r.db.comments[k] == db.comments[k])
      && r.db == db.(comments := r.db.comments)
    ensures r.out != Done(CommentDeleted) ==> r.db == db
  {
    match CommentGuard(db, user, id)
    case Some(out) => Step(db, out)
    case None =>
      if db.comments[id].parent.None? && Children(db.comments, id) != {} then Step(db, Refused(CommentHasReplies))
      else Step(Cascade.DeleteCommentTree(db, id), Done(CommentDeleted))
  }

  /** A deleted comment cannot be deleted again: the second request is a 404. */
  lemma DeleteCommentTwice(db: Db, user: UserId, id: Id)
    ensures var r1 := DeleteComment(db, user, id);
      r1.out == Done(CommentDeleted) ==> DeleteComment(r1.db, user, id) == Step(r1.db, NotFound)
  {
  }

  /**
   * A deletion that goes through removes the comment's whole thread below it
   * and nothing else: the removed comments form the least set that holds
   * `id` and is closed under replies.
   */
  lemma DeleteCommentRemovesThread(db: Db, user: UserId, id: Id, s: set<Id>)
    ensures var r := DeleteComment(db, user, id);
      var gone := db.comments.Keys - r.db.comments.Keys;
      r.out == Done(CommentDeleted) ==>
        && id in gone
        && Cascade.Closed(db.comments, gone)
        && (id in s && Cascade.Closed(db.comments, s) ==> gone <= s)
  {
    if DeleteComment(db, user, id).out == Done(CommentDeleted) {
      Cascade.DeleteCommentTreeRemovesThread(db, id, s);
    }
  }

  /** A top-level comment without replies is removed alone. */
  lemma DeleteLoneComment(db: Db, user: UserId, id: Id)
    requires id in db.comments && db.comments[id].user == user
    requires db.comments[id].parent.None? && Children(db.comments, id) == {}
    ensures DeleteComment(db, user, id).db.comments == db.comments - {id}
  {
    var r := Cascade.DeleteCommentTree(db, id);
    Cascade.SubtreeLeast(db.comments, {id}, {id});
  }
}

=== FILE: listings.dfy ===
/**
 * The listing views: the user's bookmarks and upvotes (each row with the
 * checklist's upvote count), the search results and a category's
 * checklists.
 */
module Listings {
  import opened Wrappers
  import opened Relation
  import opened Ordering
  import opened Text
  import opened Models
  import opened Outcomes
  import opened Pager
  import Feeds

  /** What a listing view answers: the page it shows, or the outcome that replaced it. */
  datatype Answer<T> = Shown(value: T) | Fail(out: Outcome)

  /** `request.GET.get(key)`. */
  function GetParam(params: map<string, string>, key: string): (r: Option<string>)
    ensures r.Some? <==> key in params
    ensures r.Some? ==> r.value == params[key]
  {
    if key in params then Some(params[key]) else None
  }

  // ---------------------------------------------------------------------
  // BookmarkChecklistListView

  /** One zipped entry of the bookmarks page: `(bookmark, count, upvoted)`. */
  datatype BookmarkRow = BookmarkRow(bookmark: Id, votes: nat, upvoted: bool)

  /** `Bookmark.objects.filter(user=...)`, unordered, read in primary-key order. */
  function BookmarksOf(db: Db, user: UserId): (r: seq<Id>)
    ensures forall k :: k in r ==> k in db.bookmarks && db.bookmarks[k].from == user
    ensures FreshIds(db) ==> forall k :: k in db.bookmarks && db.bookmarks[k].from == user ==> k in r
    ensures Increasing(r)
  {
    KeysWhere(db.bookmarks, (l: Link<UserId, Id>) => l.from == user, db.nextId)
  }

  /**
   * The rows the bookmarks page zips: for each of the user's bookmarks, the
   * upvote count of the bookmarked checklist and whether the user upvoted it.
   */
  function BookmarkRows(db: Db, user: UserId): (r: seq<BookmarkRow>)
    ensures |r| == |BookmarksOf(db, user)|
    ensures forall i :: 0 <= i < |r| ==>
      var b := r[i].bookmark;
      && b == BookmarksOf(db, user)[i]
      && b in db.bookmarks && db.bookmarks[b].from == user
      && r[i].votes == |RowsTo(db.upvotes, db.bookmarks[b].to)|
      && (r[i].upvoted <==> Link(user, db.bookmarks[b].to) in db.upvotes.Values)
  {
    var bs := BookmarksOf(db, user);
    UpvotedIsValue(db, user);
    seq(|bs|, i requires 0 <= i < |bs| =>
      BookmarkRow(bs[i], CountTo(db.upvotes, db.bookmarks[bs[i]].to), Holds(db.upvotes, user, db.bookmarks[bs[i]].to)))
  }

  lemma UpvotedIsValue(db: Db, user: UserId)
    ensures forall c: Id :: Holds(db.upvotes, user, c) <==> Link(user, c) in db.upvotes.Values
  {
    forall c: Id ensures Holds(db.upvotes, user, c) <==> Link(user, c) in db.upvotes.Values {
      HoldsIffValue(db.upvotes, user, c);
    }
  }

  /**
   * The bookmarks page for the raw `page` parameter. `ListView` first checks
   * `page` against the whole `Bookmark` table (its default query set) and
   * answers 404 when it fails; otherwise `paginate_content` pages the user's
   * rows by five, with its own fallbacks.
   */
  function BookmarkPage(db: Db, user: UserId, page: Option<string>): (r: Answer<Page<BookmarkRow>>)
    ensures r.Fail? <==> ListViewPage(page, |db.bookmarks|, PageSize).None?
    ensures r.Fail? ==> r.out == NotFound
    ensures r.Shown? ==> r.value == Paginate(BookmarkRows(db, user), PageIntParam(page), PageSize)
    ensures r.Shown? ==> (r.value.HasOtherPages() <==> |BookmarksOf(db, user)| > PageSize)
    ensures r.Shown? && |BookmarksOf(db, user)| > 0 ==> |r.value.items| > 0
  {
    var rows := BookmarkRows(db, user);
    var p := PageIntParam(page);
    if ListViewPage(page, |db.bookmarks|, PageSize).None? then Fail(NotFound)
    else
      HasOtherPagesIffSeveral(rows, p, PageSize);
      if |rows| > 0 then
        PageNeverEmpty(rows, p, PageSize);
        Shown(Paginate(rows, p, PageSize))
      else Shown(Paginate(rows, p, PageSize))
  }

  /**
   * Page `v` of the bookmarks is shown exactly when the whole `Bookmark`
   * table has that page; it is then page `v` of the user's rows, or their
   * last page when they have fewer.
   */
  lemma BookmarkPageNumber(db: Db, user: UserId, v: int)
    ensures var r := BookmarkPage(db, user, Some(ShowInt(v)));
      && (r.Shown? <==> 1 <= v <= NumPages(|db.bookmarks|, PageSize))
      && (r.Shown? ==> r.value.number == Min(v, NumPages(|BookmarksOf(db, user)|, PageSize)))
  {
    ListViewAcceptsShown(v, |db.bookmarks|, PageSize);
    AcceptedPageNumber(BookmarkRows(db, user), Some(ShowInt(v)), |db.bookmarks|, PageSize);
    ParseShowInt(v);
  }

  /** `page=last` passes the `ListView` check, which reads it as its last page, but `int()` fails on it, so page 1 is shown. */
  lemma BookmarkPageLast(db: Db, user: UserId)
    ensures BookmarkPage(db, user, Some("last")).Shown? && BookmarkPage(db, user, Some("last")).value.number == 1
  {
    AcceptedPageNumber(BookmarkRows(db, user), Some("last"), |db.bookmarks|, PageSize);
  }

  // ---------------------------------------------------------------------
  // UpvoteChecklistListView

  /** One zipped entry of the upvotes page: `(upvote, count)`. */
  datatype UpvoteRow = UpvoteRow(upvote: Id, votes: nat)

  /** `Upvote.objects.filter(user=...)`, read in primary-key order. */
  function UpvotesOf(db: Db, user: UserId): (r: seq<Id>)
    ensures forall k :: k in r ==> k in db.upvotes && db.upvotes[k].from == user
    ensures FreshIds(db) ==> forall k :: k in db.upvotes && db.upvotes[k].from == user ==> k in r
    ensures Increasing(r)
  {
    KeysWhere(db.upvotes, (l: Link<UserId, Id>) => l.from == user, db.nextId)
  }

  /** For each of the user's upvotes, the upvote count of the upvoted checklist. */
  function UpvoteRows(db: Db, user: UserId): (r: seq<UpvoteRow>)
    ensures |r| == |UpvotesOf(db, user)|
    ensures forall i :: 0 <= i < |r| ==>
      var u := r[i].upvote;
      && u == UpvotesOf(db, user)[i]
      && u in db.upvotes && db.upvotes[u].from == user
      && r[i].votes == |RowsTo(db.upvotes, db.upvotes[u].to)|
      && r[i].votes >= 1
  {
    var us := UpvotesOf(db, user);
    UpvotedCounted(db, us);
    seq(|us|, i requires 0 <= i < |us| => UpvoteRow(us[i], CountTo(db.upvotes, db.upvotes[us[i]].to)))
  }

  /** A checklist someone upvoted has at least one upvote. */
  lemma UpvotedCounted(db: Db, us: seq<Id>)
    requires forall i :: 0 <= i < |us| ==> us[i] in db.upvotes
    ensures forall i :: 0 <= i < |us| ==> |RowsTo(db.upvotes, db.upvotes[us[i]].to)| >= 1
  {
    forall i | 0 <= i < |us| ensures |RowsTo(db.upvotes, db.upvotes[us[i]].to)| >= 1 {
      assert us[i] in RowsTo(db.upvotes, db.upvotes[us[i]].to);
    }
  }

  /**
   * The upvotes page for the raw `page` parameter: the `ListView` check
   * against the whole `Upvote` table, then the user's rows paged by five.
   */
  function UpvotePage(db: Db, user: UserId, page: Option<string>): (r: Answer<Page<UpvoteRow>>)
    ensures r.Fail? <==> ListViewPage(page, |db.upvotes|, PageSize).None?
    ensures r.Fail? ==> r.out == NotFound
    ensures r.Shown? ==> r.value == Paginate(UpvoteRows(db, user), PageIntParam(page), PageSize)
    ensures r.Shown? ==> (r.value.HasOtherPages() <==> |UpvotesOf(db, user)| > PageSize)
  {
    var rows := UpvoteRows(db, user);
    var p := PageIntParam(page);
    if ListViewPage(page, |db.upvotes|, PageSize).None? then Fail(NotFound)
    else
      HasOtherPagesIffSeveral(rows, p, PageSize);
      Shown(Paginate(rows, p, PageSize))
  }

  /** Page `v` of the upvotes is shown exactly when the whole `Upvote` table has that page. */
  lemma UpvotePageNumber(db: Db, user: UserId, v: int)
    ensures var r := UpvotePage(db, user, Some(ShowInt(v)));
      && (r.Shown? <==> 1 <= v <= NumPages(|db.upvotes|, PageSize))
      && (r.Shown? ==> r.value.number == Min(v, NumPages(|UpvotesOf(db, user)|, PageSize)))
  {
    ListViewAcceptsShown(v, |db.upvotes|, PageSize);
    AcceptedPageNumber(UpvoteRows(db, user), Some(ShowInt(v)), |db.upvotes|, PageSize);
    ParseShowInt(v);
  }

  /** `page=last` passes the `ListView` check, which reads it as its last page, but `int()` fails on it, so page 1 is shown. */
  lemma UpvotePageLast(db: Db, user: UserId)
    ensures UpvotePage(db, user, Some("last")).Shown? && UpvotePage(db, user, Some("last")).value.number == 1
  {
    AcceptedPageNumber(UpvoteRows(db, user), Some("last"), |db.upvotes|, PageSize);
  }

  // ---------------------------------------------------------------------
  // SearchChecklistListView

  /**
   * What the search view hands on: the checklists to list (`None` when no
   * query was given) and the query string the page echoes.
   */
  datatype SearchResult = SearchResult(hits: Option<seq<Id>>, query: string)

  /**
   * `SearchChecklistListView` on the GET parameters `params`. The `ListView`
   * check of `page` against the whole `Checklist` table comes first and
   * answers 404. Then, with no parameters at all, the query set is never
   * bound and the view raises. A missing or blank `q` hands on no query set
   * (`hits == None`) and echoes "". Otherwise `q`, unstripped, is matched
   * against title and content.
   */
  function Search(db: Db, params: map<string, string>): (r: Answer<SearchResult>)
    ensures r == Fail(NotFound) <==> ListViewPage(GetParam(params, "page"), |db.checklists|, PageSize).None?
    ensures r == Fail(Crash) <==> ListViewPage(GetParam(params, "page"), |db.checklists|, PageSize).Some? && params == map[]
    ensures r.Fail? ==> r.out == NotFound || r.out == Crash
    ensures r.Shown? && ("q" !in params || IsBlank(params["q"])) ==> r.value == SearchResult(None, "")
    ensures r.Shown? && "q" in params && !IsBlank(params["q"]) ==>
      && r.value.query == params["q"]
      && r.value.hits.Some?
      && (forall k :: k in r.value.hits.value ==> k in db.checklists && Feeds.Matches(db.checklists[k], params["q"]))
      && (FreshIds(db) ==> forall k :: k in db.checklists && Feeds.Matches(db.checklists[k], params["q"]) ==> k in r.value.hits.value)
  {
    if ListViewPage(GetParam(params, "page"), |db.checklists|, PageSize).None? then Fail(NotFound)
    else if params == map[] then Fail(Crash)
    else if "q" !in params then Shown(SearchResult(None, ""))
    else
      var q := params["q"];
      StripEmptyIffBlank(q);
      if Strip(q) != [] then Shown(SearchResult(Some(Feeds.SearchHits(db, q)), q))
      else Shown(SearchResult(None, ""))
  }

  /** A query that differs only in letter case finds the same checklists. */
  lemma SearchCaseInsensitive(db: Db, params: map<string, string>)
    requires "q" in params && !IsBlank(params["q"])
    ensures var lowered := params["q" := LowerStr(params["q"])];
      && (Search(db, lowered).Shown? <==> Search(db, params).Shown?)
      && (Search(db, params).Shown? ==> Search(db, lowered).value.hits == Search(db, params).value.hits)
  {
    var q := params["q"];
    var lowered := params["q" := LowerStr(q)];
    assert lowered != map[] && params != map[] by {
      assert "q" in lowered && "q" in params;
    }
    assert !IsBlank(LowerStr(q)) by {
      var i :| 0 <= i < |q| && !IsSpace(q[i]);
      assert !IsSpace(LowerStr(q)[i]);
    }
    assert GetParam(lowered, "page") == GetParam(params, "page");
    Feeds.SearchIgnoresCase(db, q);
  }

  // ---------------------------------------------------------------------
  // CategoryChecklistListView

  /** `Category.objects.filter(name=...)`: the categories called `name` (names are not unique). */
  function CategoriesNamed(db: Db, name: string): (r: seq<Id>)
    ensures forall k :: k in r ==> k in db.categories && db.categories[k].name == name
    ensures FreshIds(db) ==> forall k :: k in db.categories && db.categories[k].name == name ==> k in r
    ensures Increasing(r)
  {
    KeysWhere(db.categories, (c: Category) => c.name == name, db.nextId)
  }

  /**
   * `CategoryChecklistListView`: after the `ListView` check of `page`
   * against the whole `Checklist` table (a 404 when it fails),
   * `get_object_or_404(Category, name=...)` answers 404 for no match and
   * raises for several; one match lists that category's published
   * checklists, newest first.
   */
  function CategoryListing(db: Db, name: string, page: Option<string>): (r: Answer<seq<Id>>)
    ensures ListViewPage(page, |db.checklists|, PageSize).None? ==> r == Fail(NotFound)
    ensures ListViewPage(page, |db.checklists|, PageSize).Some? && |CategoriesNamed(db, name)| == 0 ==> r == Fail(NotFound)
    ensures ListViewPage(page, |db.checklists|, PageSize).Some? && |CategoriesNamed(db, name)| > 1 ==> r == Fail(Crash)
    ensures r.Shown? <==> ListViewPage(page, |db.checklists|, PageSize).Some? && |CategoriesNamed(db, name)| == 1
    ensures r.Shown? ==>
      var cat := CategoriesNamed(db, name)[0];
      && cat in db.categories && db.categories[cat].name == name
      && (forall k :: k in r.value ==>
            k in db.checklists && !db.checklists[k].isDraft && db.checklists[k].category == Some(cat))
      && (FreshIds(db) ==> forall k :: k in db.checklists && !db.checklists[k].isDraft && db.checklists[k].category == Some(cat) ==> k in r.value)
      && (forall i, j :: 0 <= i < j < |r.value| ==> Feeds.PostedAt(db, r.value[i]) >= Feeds.PostedAt(db, r.value[j]))
  {
    var named := CategoriesNamed(db, name);
    if ListViewPage(page, |db.checklists|, PageSize).None? then Fail(NotFound)
    else if |named| == 0 then Fail(NotFound)
    else if |named| > 1 then Fail(Crash)
    else Shown(Feeds.CategoryFeed(db, named[0]))
  }
}

=== FILE: models.dfy ===
/**
 * The schema of the checklist app as an immutable database value: one map
 * per table from primary key to row, the link tables of module `Relation`,
 * a counter handing out fresh primary keys and an abstract clock standing in
 * for `timezone.now`.
 */
module Models {
  import opened Wrappers
  import opened Relation
  import Ordering

  /** Users are identified by their username, which Django keeps unique. */
  type UserId = string

  /** Primary keys. */
  type Id = nat

  datatype Checklist = Checklist(
    title: string,
    content: string,
    datePosted: nat,
    author: UserId,
    visibility: nat,
    category: Option<Id>,
    isDraft: bool)

  datatype Item = Item(title: string, completed: bool, checklist: Id)

  datatype Category = Category(name: string)

  /** The `notif_type` choices. */
  datatype NotifKind = UpvoteNotif | UserFollowNotif | ChecklistFollowNotif

  datatype Notification = Notification(
    fromUser: UserId,
    toUser: Option<UserId>,
    dateNotified: nat,
    kind: NotifKind,
    checklist: Option<Id>)

  datatype Comment = Comment(
    checklist: Id,
    user: UserId,
    body: string,
    createdOn: nat,
    parent: Option<Id>)

  /** The whole database. */
  datatype Db = Db(
    users: set<UserId>,
    categories: map<Id, Category>,
    checklists: map<Id, Checklist>,
    items: map<Id, Item>,
    upvotes: Table<UserId, Id>,
    bookmarks: Table<UserId, Id>,
    follows: Table<UserId, UserId>,
    checklistFollows: Table<UserId, Id>,
    notifications: map<Id, Notification>,
    comments: map<Id, Comment>,
    nextId: nat,
    clock: nat)

  // ---------------------------------------------------------------------
  // Notification kinds

  /** The integer stored in `notif_type`. */
  function Code(k: NotifKind): nat
  {
    match k
    case UpvoteNotif => 1
    case UserFollowNotif => 2
    case ChecklistFollowNotif => 3
  }

  /** The human-readable name of each choice. */
  function Label(k: NotifKind): string
  {
    match k
    case UpvoteNotif => "upvote"
    case UserFollowNotif => "user_follow"
    case ChecklistFollowNotif => "checklist_follow"
  }

  /** Reads a stored `notif_type` back; only the three declared choices are valid. */
  function KindOfCode(n: int): (r: Option<NotifKind>)
    ensures r.Some? <==> 1 <= n <= 3
    ensures r.Some? ==> Code(r.value) == n
  {
    if n == 1 then Some(UpvoteNotif)
    else if n == 2 then Some(UserFollowNotif)
    else if n == 3 then Some(ChecklistFollowNotif)
    else None
  }

  lemma KindCodeRoundTrip(k: NotifKind)
    ensures KindOfCode(Code(k)) == Some(k)
  {
  }

  /** The `notif_type` default. */
  const DefaultKind: NotifKind := UpvoteNotif

  // ---------------------------------------------------------------------
  // Rows built with the model defaults

  /** A checklist saved without an explicit draft flag or visibility. */
  function NewChecklist(title: string, content: string, author: UserId, category: Option<Id>, now: nat): (c: Checklist)
    ensures !c.isDraft && c.visibility == 0
    ensures c.title == title && c.content == content && c.author == author
    ensures c.category == category && c.datePosted == now
  {
    Checklist(title, content, now, author, 0, category, false)
  }

  /** An item saved without an explicit completed flag. */
  function NewItem(title: string, checklist: Id): (i: Item)
    ensures !i.completed && i.title == title && i.checklist == checklist
  {
    Item(title, false, checklist)
  }

  /** A notification saved without an explicit kind. */
  function NewNotification(fromUser: UserId, toUser: Option<UserId>, checklist: Option<Id>, now: nat): (n: Notification)
    ensures n.kind == DefaultKind && Code(n.kind) == 1
    ensures n.fromUser == fromUser && n.toUser == toUser && n.checklist == checklist
  {
    Notification(fromUser, toUser, now, DefaultKind, checklist)
  }

  // ---------------------------------------------------------------------
  // String forms

  function ChecklistStr(c: Checklist): string
  {
    c.title
  }

  function CategoryStr(c: Category): string
  {
    c.name
  }

  /** `Upvote.__str__` and `Bookmark.__str__`: username, `" - "`, checklist title. */
  function LinkStr(db: Db, l: Link<UserId, Id>): (s: string)
    requires l.to in db.checklists
    ensures |s| == |l.from| + 3 + |ChecklistStr(db.checklists[l.to])|
    ensures s[..|l.from|] == l.from
    ensures s[|l.from|..|l.from| + 3] == " - "
    ensures s[|l.from| + 3..] == ChecklistStr(db.checklists[l.to])
  {
    l.from + " - " + db.checklists[l.to].title
  }

  function CommentStr(c: Comment): string
  {
    "Comment " + c.body + " by " + c.user
  }

  // ---------------------------------------------------------------------
  // Queries shared by the views

  /** The rows of `m` whose value satisfies `p` (`objects.filter(...)`). */
  function Keep<V>(m: map<Id, V>, p: V -> bool): (r: map<Id, V>)
    ensures forall k :: k in r <==> k in m && p(m[k])
    ensures forall k :: k in r ==> r[k] == m[k]
  {
    map k | k in m && p(m[k]) :: m[k]
  }

  /** `Comment.children()`: the comments whose parent is `id`. */
  function Children(cs: map<Id, Comment>, id: Id): set<Id>
  {
    set k | k in cs && cs[k].parent == Some(id)
  }

  /** `checklist.item_set.all()`, read in primary-key order. */
  function ItemsOf(db: Db, cid: Id): (r: seq<Id>)
    ensures forall k :: k in r ==> k in db.items && db.items[k].checklist == cid
    ensures FreshIds(db) ==> forall k :: k in db.items && db.items[k].checklist == cid ==> k in r
    ensures Ordering.Increasing(r)
  {
    Ordering.KeysWhere(db.items, (x: Item) => x.checklist == cid, db.nextId)
  }

  /** Saves checklist `c` under the counter's key; the clock moves past its posting time. */
  function AddChecklist(db: Db, c: Checklist): (r: Db)
    requires FreshIds(db)
    ensures FreshIds(r)
    ensures Inserted(db.checklists, r.checklists, c)
    ensures r.checklists == db.checklists[db.nextId := c]
    ensures r == db.(checklists := r.checklists, nextId := db.nextId + 1, clock := db.clock + 1)
  {
    InsertedAt(db.checklists, db.nextId, c);
    FreshAfterBump(db, db.nextId + 1);
    db.(checklists := db.checklists[db.nextId := c], nextId := db.nextId + 1, clock := db.clock + 1)
  }

  /** Saves item `it` under the counter's key. */
  function AddItem(db: Db, it: Item): (r: Db)
    requires FreshIds(db)
    ensures FreshIds(r)
    ensures Inserted(db.items, r.items, it)
    ensures r == db.(items := r.items, nextId := r.nextId)
    ensures ItemsOf(r, it.checklist) == ItemsOf(db, it.checklist) + [db.nextId]
  {
    InsertedAt(db.items, db.nextId, it);
    ItemsOfAfterInsert(db, it.checklist, it);
    db.(items := db.items[db.nextId := it], nextId := db.nextId + 1)
  }

  /** A new item of `cid` under the counter's key comes last in `cid`'s items. */
  lemma ItemsOfAfterInsert(db: Db, cid: Id, it: Item)
    requires KeysBelow(db.items, db.nextId) && it.checklist == cid
    ensures ItemsOf(db.(items := db.items[db.nextId := it], nextId := db.nextId + 1), cid) == ItemsOf(db, cid) + [db.nextId]
  {
    Ordering.KeysWhereAgree(db.items[db.nextId := it], db.items, (x: Item) => x.checklist == cid, db.nextId);
  }

  /** Number of upvote rows for checklist `c` (`checklist.upvote_set.count()`). */
  function UpvoteCount(db: Db, c: Id): nat
  {
    CountTo(db.upvotes, c)
  }

  // ---------------------------------------------------------------------
  // Integrity of the database

  predicate KeysBelow<V>(m: map<Id, V>, n: nat)
  {
    forall k :: k in m ==> k < n
  }

  /** `nextId` is unused in every table. */
  predicate FreshIds(db: Db)
  {
    && KeysBelow(db.categories, db.nextId)
    && KeysBelow(db.checklists, db.nextId)
    && KeysBelow(db.items, db.nextId)
    && KeysBelow(db.upvotes, db.nextId)
    && KeysBelow(db.bookmarks, db.nextId)
    && KeysBelow(db.follows, db.nextId)
    && KeysBelow(db.checklistFollows, db.nextId)
    && KeysBelow(db.notifications, db.nextId)
    && KeysBelow(db.comments, db.nextId)
  }

  /** Moving the id counter forward keeps every table below it. */
  lemma FreshAfterBump(db: Db, n: nat)
    requires FreshIds(db) && db.nextId <= n
    ensures FreshIds(db.(nextId := n))
  {
  }

  /** Every stored timestamp lies in the past of `clock`. */
  predicate TimesBelow(db: Db)
  {
    && (forall k :: k in db.checklists ==> db.checklists[k].datePosted < db.clock)
    && (forall k :: k in db.notifications ==> db.notifications[k].dateNotified < db.clock)
    && (forall k :: k in db.comments ==> db.comments[k].createdOn < db.clock)
  }

  predicate ChecklistRefsOk(db: Db, c: Checklist)
  {
    c.author in db.users && (c.category.Some? ==> c.category.value in db.categories)
  }

  predicate NotificationRefsOk(db: Db, n: Notification)
  {
    && n.fromUser in db.users
    && (n.toUser.Some? ==> n.toUser.value in db.users)
    && (n.checklist.Some? ==> n.checklist.value in db.checklists)
  }

  predicate CommentRefsOk(db: Db, c: Comment)
  {
    && c.checklist in db.checklists
    && c.user in db.users
    && (c.parent.Some? ==> c.parent.value in db.comments)
  }

  /** Every foreign key of a content row points at an existing row. */
  predicate RowRefsOk(db: Db)
  {
    && (forall k :: k in db.checklists ==> ChecklistRefsOk(db, db.checklists[k]))
    && (forall k :: k in db.items ==> db.items[k].checklist in db.checklists)
    && (forall k :: k in db.notifications ==> NotificationRefsOk(db, db.notifications[k]))
    && (forall k :: k in db.comments ==> CommentRefsOk(db, db.comments[k]))
  }

  /** Every row of the four link tables joins existing rows. */
  predicate LinkRefsOk(db: Db)
  {
    && (forall k :: k in db.upvotes ==> db.upvotes[k].from in db.users && db.upvotes[k].to in db.checklists)
    && (forall k :: k in db.bookmarks ==> db.bookmarks[k].from in db.users && db.bookmarks[k].to in db.checklists)
    && (forall k :: k in db.follows ==> db.follows[k].from in db.users && db.follows[k].to in db.users)
    && (forall k :: k in db.checklistFollows ==>
          db.checklistFollows[k].from in db.users && db.checklistFollows[k].to in db.checklists)
  }

  /** Every foreign key points at an existing row. */
  predicate RefsOk(db: Db)
  {
    RowRefsOk(db) && LinkRefsOk(db)
  }

  /** The database's own integrity: fresh keys, past timestamps, no dangling reference. */
  predicate Wf(db: Db)
  {
    FreshIds(db) && TimesBelow(db) && RefsOk(db)
  }

  /** The invariant the toggles keep: at most one row per (actor, target) in each link table. */
  predicate UniquePairs(db: Db)
  {
    && AtMostOnePerPair(db.upvotes)
    && AtMostOnePerPair(db.bookmarks)
    && AtMostOnePerPair(db.follows)
    && AtMostOnePerPair(db.checklistFollows)
  }

  /** Inserts a notification under the next key, stamped with the clock. */
  function Notify(db: Db, fromUser: UserId, toUser: Option<UserId>, kind: NotifKind, checklist: Option<Id>): (r: Db)
    requires FreshIds(db)
    ensures FreshIds(r) && r.clock == db.clock + 1
    ensures Inserted(db.notifications, r.notifications, Notification(fromUser, toUser, db.clock, kind, checklist))
    ensures r == db.(notifications := r.notifications, nextId := r.nextId, clock := r.clock)
  {
    InsertedAt(db.notifications, db.nextId, Notification(fromUser, toUser, db.clock, kind, checklist));
    db.(notifications := db.notifications[db.nextId := Notification(fromUser, toUser, db.clock, kind, checklist)],
        nextId := db.nextId + 1,
        clock := db.clock + 1)
  }
}

=== FILE: ordering.dfy ===
/**
 * Sequences the ORM hands back: a `filter(...)` read in primary-key order,
 * and an `order_by(...)` modelled as a stable insertion sort under a
 * caller-supplied "may precede" relation.
 */
module Ordering {

  /** Strictly increasing, hence free of duplicates. */
  predicate Increasing(s: seq<nat>)
  {
    forall i, j :: 0 <= i < j < |s| ==> s[i] < s[j]
  }

  /** No element occurs twice. */
  predicate Distinct<T(==)>(s: seq<T>)
  {
    forall i, j :: 0 <= i < j < |s| ==> s[i] != s[j]
  }

  /** The keys below `n` whose row satisfies `keep`, ascending: a `filter(...)` read in primary-key order. */
  function KeysWhere<V>(m: map<nat, V>, keep: V -> bool, n: nat): (r: seq<nat>)
    ensures forall k :: k in r <==> k < n && k in m && keep(m[k])
    ensures Increasing(r)
  {
    if n == 0 then []
    else
      var rest := KeysWhere(m, keep, n - 1);
      assert forall i :: 0 <= i < |rest| ==> rest[i] in rest;
      if n - 1 in m && keep(m[n - 1]) then rest + [n - 1] else rest
  }

  /** Two tables that agree below `n` give the same keys below `n`. */
  lemma {:induction false} KeysWhereAgree<V>(a: map<nat, V>, b: map<nat, V>, keep: V -> bool, n: nat)
    requires forall k :: k < n ==> (k in a <==> k in b)
    requires forall k :: k < n && k in a ==> a[k] == b[k]
    ensures KeysWhere(a, keep, n) == KeysWhere(b, keep, n)
  {
    if n > 0 {
      KeysWhereAgree(a, b, keep, n - 1);
    }
  }

  /** Filters that agree on every row select the same keys. */
  lemma {:induction false} KeysWhereSameFilter<V(!new)>(m: map<nat, V>, p: V -> bool, q: V -> bool, n: nat)
    requires forall v :: p(v) == q(v)
    ensures KeysWhere(m, p, n) == KeysWhere(m, q, n)
  {
    if n > 0 {
      KeysWhereSameFilter(m, p, q, n - 1);
    }
  }

  lemma IncreasingIsDistinct(s: seq<nat>)
    requires Increasing(s)
    ensures Distinct(s)
  {
  }

  /** `before` relates every two values one way or the other. */
  ghost predicate Total<T(!new)>(before: (T, T) -> bool)
  {
    forall x, y :: before(x, y) || before(y, x)
  }

  /** Every element may precede its successor. */
  predicate SortedBy<T>(s: seq<T>, before: (T, T) -> bool)
  {
    forall i :: 0 < i < |s| ==> before(s[i - 1], s[i])
  }

  /** Insert `x` in front of the first element it may precede. */
  function InsertBy<T>(x: T, s: seq<T>, before: (T, T) -> bool): (r: seq<T>)
    ensures multiset(r) == multiset{x} + multiset(s)
    ensures |r| == |s| + 1
  {
    if |s| == 0 || before(x, s[0]) then [x] + s
    else
      assert s == [s[0]] + s[1..];
      [s[0]] + InsertBy(x, s[1..], before)
  }

  /** Insertion sort; for a total `before` the result is sorted (see `SortBySorted`). */
  function SortBy<T>(s: seq<T>, before: (T, T) -> bool): (r: seq<T>)
    ensures multiset(r) == multiset(s)
    ensures |r| == |s|
  {
    if |s| == 0 then []
    else
      assert s == [s[0]] + s[1..];
      InsertBy(s[0], SortBy(s[1..], before), before)
  }

  lemma {:induction false} InsertBySorted<T(!new)>(x: T, s: seq<T>, before: (T, T) -> bool)
    requires Total(before)
    requires SortedBy(s, before)
    ensures SortedBy(InsertBy(x, s, before), before)
  {
    if |s| == 0 || before(x, s[0]) {
    } else {
      var tail := InsertBy(x, s[1..], before);
      InsertBySorted(x, s[1..], before);
      assert before(s[0], x);
      assert tail[0] in multiset{x} + multiset(s[1..]);
      if tail[0] != x {
        assert tail[0] == s[1];
      }
    }
  }

  /** For a total `before`, `SortBy` orders its input. */
  lemma {:induction false} SortBySorted<T(!new)>(s: seq<T>, before: (T, T) -> bool)
    requires Total(before)
    ensures SortedBy(SortBy(s, before), before)
  {
    if |s| > 0 {
      SortBySorted(s[1..], before);
      InsertBySorted(s[0], SortBy(s[1..], before), before);
    }
  }

  /**
   * `order_by("-field")`: largest `key` first, ties kept in input order.
   * Every earlier element has a key at least that of every later one.
   */
  function SortDesc<T(!new)>(s: seq<T>, key: T -> int): (r: seq<T>)
    ensures multiset(r) == multiset(s)
    ensures forall i, j :: 0 <= i < j < |r| ==> key(r[i]) >= key(r[j])
  {
    var before := (a: T, b: T) => key(a) >= key(b);
    SortBySorted(s, before);
    SortedPairwise(SortBy(s, before), before);
    SortBy(s, before)
  }

  /** `before` chains: `x` before `y` before `z` puts `x` before `z`. */
  ghost predicate Transitive<T(!new)>(before: (T, T) -> bool)
  {
    forall x, y, z :: before(x, y) && before(y, z) ==> before(x, z)
  }

  /** Under a transitive `before`, adjacent order is order between every two positions. */
  lemma {:induction false} SortedPairwise<T(!new)>(s: seq<T>, before: (T, T) -> bool)
    requires Transitive(before) && SortedBy(s, before)
    ensures forall i, j :: 0 <= i < j < |s| ==> before(s[i], s[j])
  {
    if |s| > 1 {
      var t := s[1..];
      SortedPairwise(t, before);
      forall i, j | 0 <= i < j < |s| ensures before(s[i], s[j]) {
        if i > 0 {
          assert t[i - 1] == s[i] && t[j - 1] == s[j];
        } else if j > 1 {
          assert t[0] == s[1] && t[j - 1] == s[j];
          assert before(s[0], s[1]);
        }
      }
    }
  }

  /** A reordering of a duplicate-free sequence has the same elements and no duplicates. */
  lemma SameMultisetDistinct<T>(s: seq<T>, r: seq<T>)
    requires Distinct(s) && multiset(r) == multiset(s)
    ensures forall x :: x in r <==> x in s
    ensures Distinct(r)
  {
    assert forall x :: x in r <==> x in multiset(r);
    assert forall x :: x in s <==> x in multiset(s);
    DistinctByCount(s);
    forall i, j | 0 <= i < j < |r| ensures r[i] != r[j] {
      if r[i] == r[j] {
        TwoOccurrences(r, i, j);
      }
    }
  }

  /** In a duplicate-free sequence every element occurs once. */
  lemma {:induction false} DistinctByCount<T>(s: seq<T>)
    requires Distinct(s)
    ensures forall x :: multiset(s)[x] <= 1
  {
    if |s| > 0 {
      DistinctByCount(s[1..]);
      assert s == [s[0]] + s[1..];
      assert s[0] !in s[1..];
    }
  }

  /** Two equal entries make an element occur at least twice. */
  lemma {:induction false} TwoOccurrences<T>(s: seq<T>, i: int, j: int)
    requires 0 <= i < j < |s| && s[i] == s[j]
    ensures multiset(s)[s[i]] >= 2
  {
    assert s == s[..i] + [s[i]] + s[i + 1..j] + [s[j]] + s[j + 1..];
  }
}

=== FILE: outcomes.dfy ===
/**
 * What a view reports back, with the flash messages it leaves. The HTTP
 * response itself (redirect target, template) is not modelled.
 */
module Outcomes {
  import opened Models

  /** The flash messages of the views, one constructor per message. */
  datatype Msg =
    | UpvoteOwnDenied | Upvoted | UpvoteRetracted
    | BookmarkOwnDenied | Bookmarked | BookmarkRemoved
    | ItemActionDenied | ItemToggled | ItemDeleted
    | PublishDenied | Published
    | FollowSelfDenied | UserFollowed | UserUnfollowed
    | SaveOwnDenied | SavedCopy | AlreadySaved
    | FollowOwnChecklistDenied | ChecklistFollowed | ChecklistUnfollowed
    | AuthorReplyOnly | CommentSaved
    | AddItemDenied | CommentHasReplies | CommentDeleted

  /** The exact text of each message. */
  function Text(m: Msg): string
  {
    match m
    case UpvoteOwnDenied => "Action Denied! You cannot upvote your own checklist!"
    case Upvoted => "Checklist upvoted!"
    case UpvoteRetracted => "Upvote retracted!"
    case BookmarkOwnDenied => "Action Denied! You cannot bookmark your own checklist!"
    case Bookmarked => "Checklist bookmarked!"
    case BookmarkRemoved => "Bookmark removed!"
    case ItemActionDenied => "Action Denied! You can only make changes to your own checklist!"
    case ItemToggled => "Item Ticked/Un-ticked!"
    case ItemDeleted => "Item deleted!"
    case PublishDenied => "Action Denied! You can only publish your own checklist!"
    case Published => "Checklist published and removed from drafts!"
    case FollowSelfDenied => "Action Denied! You can only follow other users!"
    case UserFollowed => "User followed!"
    case UserUnfollowed => "User unfollowed!"
    case SaveOwnDenied => "You can only save and edit others' checklists!"
    case SavedCopy => "Checklist saved. You can now modify it as your own!"
    case AlreadySaved => "You have already saved this checklist once!"
    case FollowOwnChecklistDenied => "Action Denied! You can not follow your own checklists!"
    case ChecklistFollowed => "Checklist followed!"
    case ChecklistUnfollowed => "Checklist unfollowed!"
    case AuthorReplyOnly => "Author can only to reply to others' comments!"
    case CommentSaved => "Your comment has been saved!"
    case AddItemDenied => "Action Denied! You can only add items to your own checklist!"
    case CommentHasReplies => "You cannot delete your comment as there are replies to your comment now!"
    case CommentDeleted => "Your comment has been successfully deleted!"
  }

  /**
   * How a request ends: with a success or error message; with success and
   * no message (a form saved, a row deleted); silently (nothing saved, or a
   * form shown again); with a 404 (`get_object_or_404`) or a 403 (a failed
   * `test_func`); or with an uncaught exception (a missing row read with
   * `objects.get`, an unbound local, an integrity error).
   */
  datatype Outcome = Done(msg: Msg) | Refused(msg: Msg) | Succeeded | Silent | NotFound | Forbidden | Crash

  /** A transition: the database afterwards and how the request ended. */
  datatype Step = Step(db: Db, out: Outcome)

  /** The database is left exactly as it was. */
  predicate Unchanged(db: Db, r: Step)
  {
    r.db == db
  }
}

=== FILE: pager.dfy ===
/**
 * Paging, as the listing views meet it twice. First Django's `ListView`
 * checks the raw `page` parameter against its whole model table and answers
 * 404 for a bad one. Then `paginate_content` pages the view's own rows with
 * Django's `Paginator` (no orphans, an empty first page allowed), falling back
 * to page 1 for a page that is missing or not an integer, and to the last
 * page for one out of range.
 */
module Pager {
  import opened Wrappers
  import opened Text

  /** The page size every list view of the app uses (`paginate_by = 5`). */
  const PageSize: nat := 5

  /** One page: its items, its 1-based number and the paginator's page count. */
  datatype Page<T> = Page(items: seq<T>, number: nat, numPages: nat)
  {
    /** `has_other_pages()`: a previous or a next page exists. */
    predicate HasOtherPages()
    {
      number > 1 || number < numPages
    }
  }

  /** `num_pages`: `ceil(n / size)`, but at least 1 so that an empty list still has page 1. */
  function NumPages(n: nat, size: nat): (p: nat)
    requires size > 0
    ensures p >= 1
    ensures n == 0 ==> p == 1
    ensures n > 0 ==> (p - 1) * size < n <= p * size
  {
    if n == 0 then 1
    else
      var p := (n + size - 1) / size;
      assert p * size <= n + size - 1 < p * size + size;
      p
  }

  function Min(a: int, b: int): int
  {
    if a <= b then a else b
  }

  /** First index of page `number`. */
  function Start(number: nat, size: nat): nat
    requires number >= 1
  {
    (number - 1) * size
  }

  lemma {:induction false} MulLe(a: nat, b: nat, c: nat)
    requires a <= b
    ensures a * c <= b * c
  {
    assert b * c == a * c + (b - a) * c;
  }

  /** Where a valid page starts relative to the list's end. */
  lemma StartBounds(n: nat, size: nat, number: nat)
    requires size > 0 && 1 <= number <= NumPages(n, size)
    ensures Start(number, size) <= n
    ensures n > 0 ==> Start(number, size) < n
    ensures number < NumPages(n, size) ==> Start(number, size) + size < n
  {
    var np := NumPages(n, size);
    MulLe(number - 1, np - 1, size);
    if number < np {
      MulLe(number, np - 1, size);
      assert Start(number, size) + size == number * size;
    }
  }

  /** `Paginator.page(number)` for a valid number: the contiguous slice it covers. */
  function PageAt<T>(xs: seq<T>, number: nat, size: nat): (r: seq<T>)
    requires size > 0 && 1 <= number <= NumPages(|xs|, size)
    ensures |r| <= size
    ensures |xs| > 0 ==> |r| > 0
    ensures number < NumPages(|xs|, size) ==> |r| == size
    ensures Start(number, size) + |r| <= |xs|
    ensures |r| == Min(size, |xs| - Start(number, size))
    ensures r == xs[Start(number, size)..Start(number, size) + |r|]
  {
    var lo := Start(number, size);
    StartBounds(|xs|, size, number);
    var hi := Min(lo + size, |xs|);
    assert |xs| > 0 ==> lo < hi;
    assert number < NumPages(|xs|, size) ==> hi == lo + size;
    xs[lo..hi]
  }

  /** `paginate_content(xs, page, size)`. */
  function Paginate<T>(xs: seq<T>, page: IntParam, size: nat): (r: Page<T>)
    requires size > 0
    ensures r.numPages == NumPages(|xs|, size)
    ensures 1 <= r.number <= r.numPages
    ensures (page.Missing? || page.NotAnInteger?) ==> r.number == 1
    ensures page.Int? && 1 <= page.value <= r.numPages ==> r.number == page.value
    ensures page.Int? && !(1 <= page.value <= r.numPages) ==> r.number == r.numPages
    ensures r.items == PageAt(xs, r.number, size)
  {
    var n := NumPages(|xs|, size);
    var number :=
      match page
      case Missing => 1
      case NotAnInteger => 1
      case Int(v) => if 1 <= v <= n then v as nat else n;
    Page(PageAt(xs, number, size), number, n)
  }

  /**
   * How `paginate_content` reads the raw `page` parameter: `Paginator.page`
   * calls `int()` on it, and a missing one (`None`) is not an integer either.
   */
  function PageIntParam(raw: Option<string>): (r: IntParam)
    ensures r.Missing? <==> raw.None?
    ensures r.Int? <==> raw.Some? && ParseInt(raw.value).Some?
    ensures r.Int? ==> r.value == ParseInt(raw.value).value
  {
    match raw
    case None => Missing
    case Some(s) => match ParseInt(s) { case Some(v) => Int(v) case None => NotAnInteger }
  }

  /**
   * The page check Django's `ListView` makes in its own `get_context_data`
   * (`MultipleObjectMixin.paginate_queryset`) over its default query set of
   * `n` rows, before the view's code runs. A missing or empty `page` means
   * page 1 and `"last"` the last page; any other text that is not an integer,
   * and any number outside `1..num_pages`, is answered with a 404 (`None`).
   */
  function ListViewPage(raw: Option<string>, n: nat, size: nat): (r: Option<nat>)
    requires size > 0
    ensures r.Some? ==> 1 <= r.value <= NumPages(n, size)
    ensures raw.None? || raw == Some("") ==> r == Some(1)
    ensures raw == Some("last") ==> r == Some(NumPages(n, size))
    ensures raw.Some? && ParseInt(raw.value).Some? ==>
      var v := ParseInt(raw.value).value;
      (r.Some? <==> 1 <= v <= NumPages(n, size)) && (r.Some? ==> r.value == v)
    ensures raw.Some? && raw.value != "" && raw.value != "last" && ParseInt(raw.value).None? ==> r.None?
  {
    var np := NumPages(n, size);
    NotIntegers();
    if raw.None? || raw.value == "" then Some(1)
    else match ParseInt(raw.value)
      case Some(v) => if 1 <= v <= np then Some(v as nat) else None
      case None => if raw.value == "last" then Some(np) else None
  }

  /**
   * Once the `ListView` check lets a request through, `paginate_content`
   * on a list `xs` shows: page 1 for a missing, empty or `"last"` page
   * (`int()` fails on the latter two), and otherwise the requested number,
   * or the last page of `xs` when `xs` has fewer pages than the default
   * query set.
   */
  lemma AcceptedPageNumber<T>(xs: seq<T>, raw: Option<string>, n: nat, size: nat)
    requires size > 0
    ensures ListViewPage(raw, n, size).Some? ==>
      var p := Paginate(xs, PageIntParam(raw), size);
      && (raw.None? || raw == Some("") || raw == Some("last") ==> p.number == 1)
      && (raw.Some? && ParseInt(raw.value).Some? ==> p.number == Min(ParseInt(raw.value).value, NumPages(|xs|, size)))
  {
    NotIntegers();
  }

  /** A page number written out by `str()` passes the `ListView` check exactly when it is in range. */
  lemma ListViewAcceptsShown(v: int, n: nat, size: nat)
    requires size > 0
    ensures ListViewPage(Some(ShowInt(v)), n, size) == if 1 <= v <= NumPages(n, size) then Some(v as nat) else None
  {
    ParseShowInt(v);
  }

  /** A page never comes back empty while there is something to show. */
  lemma PageNeverEmpty<T>(xs: seq<T>, page: IntParam, size: nat)
    requires size > 0 && |xs| > 0
    ensures |Paginate(xs, page, size).items| > 0
  {
  }

  /** `has_other_pages()` is true exactly when the list needs more than one page. */
  lemma HasOtherPagesIffSeveral<T>(xs: seq<T>, page: IntParam, size: nat)
    requires size > 0
    ensures Paginate(xs, page, size).HasOtherPages() <==> |xs| > size
  {
    var n := NumPages(|xs|, size);
    if n > 1 {
      MulLe(1, n - 1, size);
    } else {
      assert n * size == size;
    }
  }

  /** Pages `from` .. `NumPages`, one after the other. */
  function PagesFrom<T>(xs: seq<T>, size: nat, from: nat): seq<T>
    requires size > 0 && 1 <= from
    decreases NumPages(|xs|, size) + 1 - from
  {
    if from > NumPages(|xs|, size) then []
    else PageAt(xs, from, size) + PagesFrom(xs, size, from + 1)
  }

  /** Reading every page in turn gives back the list, once and in order. */
  lemma {:induction false} PagesCoverFrom<T>(xs: seq<T>, size: nat, from: nat)
    requires size > 0 && 1 <= from <= NumPages(|xs|, size) + 1
    ensures Start(from, size) <= |xs| ==> PagesFrom(xs, size, from) == xs[Start(from, size)..]
    decreases NumPages(|xs|, size) + 1 - from
  {
    var n := NumPages(|xs|, size);
    var lo := Start(from, size);
    assert Start(from + 1, size) == lo + size by {
      assert from * size == (from - 1) * size + size;
    }
    if from < n {
      StartBounds(|xs|, size, from);
      PagesCoverFrom(xs, size, from + 1);
      assert xs[lo..] == xs[lo..lo + size] + xs[lo + size..];
    } else if from == n {
      StartBounds(|xs|, size, from);
      if |xs| > 0 {
        assert lo + size == n * size;
      }
    } else if lo <= |xs| {
      if |xs| > 0 {
        assert lo == n * size;
      }
    }
  }

  lemma PagesCoverAll<T>(xs: seq<T>, size: nat)
    requires size > 0
    ensures PagesFrom(xs, size, 1) == xs
  {
    PagesCoverFrom(xs, size, 1);
  }
}

=== FILE: relation.dfy ===
/**
 * Link tables: the many-to-many rows `Upvote(user, checklist)`,
 * `Bookmark(user, checklist)`, `Follow(fromUser, toUser)` and
 * `FollowChecklist(fromUser, toChecklist)`, keyed by primary key, and the
 * create-if-absent / delete-all-if-present toggle every one of them uses.
 */
module Relation {

  /** One row of a link table. */
  datatype Link<A, B> = Link(from: A, to: B)

  /** A link table: primary key to row. Nothing in the schema makes (from, to) unique. */
  type Table<A, B> = map<nat, Link<A, B>>

  /** Some row links `a` to `b` (the ORM's `filter(from=a, to=b)` is non-empty). */
  predicate Holds<A(==), B(==)>(t: Table<A, B>, a: A, b: B)
  {
    exists id :: id in t && t[id] == Link(a, b)
  }

  /** Primary keys of the rows linking `a` to `b`. */
  function RowsFor<A(==), B(==)>(t: Table<A, B>, a: A, b: B): set<nat>
  {
    set id | id in t && t[id] == Link(a, b)
  }

  /** Primary keys of the rows pointing at `b`, whoever created them (`checklist.upvote_set`). */
  function RowsTo<A, B(==)>(t: Table<A, B>, b: B): set<nat>
  {
    set id | id in t && t[id].to == b
  }

  /** Number of rows pointing at `b` (`checklist.upvote_set.count()`). */
  function CountTo<A, B(==)>(t: Table<A, B>, b: B): nat
  {
    |RowsTo(t, b)|
  }

  /** The invariant the toggles keep: at most one row per (from, to) pair. */
  predicate AtMostOnePerPair<A(==), B(==)>(t: Table<A, B>)
  {
    forall i, j :: i in t && j in t && t[i] == t[j] ==> i == j
  }

  /** `s` with `x` added when absent and removed when present. */
  function Flip<T>(s: set<T>, x: T): set<T>
  {
    if x in s then s - {x} else s + {x}
  }

  /** Flipping the same element twice gives the set back. */
  lemma FlipTwice<T>(s: set<T>, x: T)
    ensures Flip(Flip(s, x), x) == s
  {
  }

  /** `m'` is `m` with exactly one row `v` inserted under a key `m` did not use. */
  ghost predicate Inserted<V>(m: map<nat, V>, m': map<nat, V>, v: V)
  {
    exists k: nat :: k !in m && m' == m[k := v]
  }

  lemma InsertedAt<V>(m: map<nat, V>, k: nat, v: V)
    requires k !in m
    ensures Inserted(m, m[k := v], v)
  {
  }

  lemma ValuesAfterInsert<V>(m: map<nat, V>, k: nat, v: V)
    requires k !in m
    ensures m[k := v].Values == m.Values + {v}
  {
    var m' := m[k := v];
    forall x | x in m.Values ensures x in m'.Values {
      var j :| j in m && m[j] == x;
      assert m'[j] == x;
    }
    assert m'[k] == v;
  }

  /** `m` without any row equal to `v` (the ORM's `filter(...).delete()`). */
  function RemoveAll<V(==)>(m: map<nat, V>, v: V): (m': map<nat, V>)
    ensures forall k :: k in m' <==> k in m && m[k] != v
    ensures forall k :: k in m' ==> m'[k] == m[k]
    ensures m'.Values == m.Values - {v}
  {
    var m' := map k | k in m && m[k] != v :: m[k];
    assert forall x :: x in m.Values - {v} ==> x in m'.Values by {
      forall x | x in m.Values - {v} ensures x in m'.Values {
        var j :| j in m && m[j] == x;
        assert m'[j] == x;
      }
    }
    m'
  }

  lemma HoldsIffValue<A, B>(t: Table<A, B>, a: A, b: B)
    ensures Holds(t, a, b) <==> Link(a, b) in t.Values
  {
    if Link(a, b) in t.Values {
      var id :| id in t && t[id] == Link(a, b);
    }
  }

  /**
   * The toggle: when no row links `a` to `b`, insert one under the fresh key;
   * otherwise delete every such row. The boolean says whether a row was added.
   */
  function Toggle<A(==), B(==)>(t: Table<A, B>, a: A, b: B, newKey: nat): (r: (Table<A, B>, bool))
    requires newKey !in t
    ensures r.1 <==> !Holds(t, a, b)
    ensures r.0.Values == Flip(t.Values, Link(a, b))
    ensures Holds(r.0, a, b) <==> !Holds(t, a, b)
    ensures r.1 ==> Inserted(t, r.0, Link(a, b)) && RowsFor(r.0, a, b) == {newKey}
    ensures !r.1 ==> r.0.Keys == t.Keys - RowsFor(t, a, b) && RowsFor(r.0, a, b) == {}
    ensures forall id :: id in t && t[id] != Link(a, b) ==> id in r.0 && r.0[id] == t[id]
    ensures AtMostOnePerPair(t) ==> AtMostOnePerPair(r.0)
  {
    HoldsIffValue(t, a, b);
    if Holds(t, a, b) then
      var t' := RemoveAll(t, Link(a, b));
      HoldsIffValue(t', a, b);
      (t', false)
    else
      var t' := t[newKey := Link(a, b)];
      InsertedAt(t, newKey, Link(a, b));
      ValuesAfterInsert(t, newKey, Link(a, b));
      HoldsIffValue(t', a, b);
      (t', true)
  }

  /** Two toggles of the same pair give back the relation the table started with. */
  lemma ToggleTwice<A, B>(t: Table<A, B>, a: A, b: B, f1: nat, f2: nat)
    requires f1 !in t
    requires f2 !in Toggle(t, a, b, f1).0
    ensures Toggle(Toggle(t, a, b, f1).0, a, b, f2).0.Values == t.Values
    ensures !Holds(t, a, b) ==> Toggle(Toggle(t, a, b, f1).0, a, b, f2).0 == t
  {
    var t1 := Toggle(t, a, b, f1).0;
    var t2 := Toggle(t1, a, b, f2).0;
    HoldsIffValue(t, a, b);
    if !Holds(t, a, b) {
      assert t1 == t[f1 := Link(a, b)];
      assert t2.Keys == t.Keys;
    }
  }

  /**
   * A toggle moves the count of `b` by one, up when it adds a row and down
   * when it removes one, and leaves every other count alone.
   */
  lemma ToggleCount<A, B>(t: Table<A, B>, a: A, b: B, newKey: nat, c: B)
    requires newKey !in t && AtMostOnePerPair(t)
    ensures c == b ==> CountTo(Toggle(t, a, b, newKey).0, b) == if Holds(t, a, b) then CountTo(t, b) - 1 else CountTo(t, b) + 1
    ensures c != b ==> CountTo(Toggle(t, a, b, newKey).0, c) == CountTo(t, c)
  {
    if Holds(t, a, b) {
      ToggleCountRemoved(t, a, b, newKey, c);
    } else {
      ToggleCountAdded(t, a, b, newKey, c);
    }
  }

  /** Removing the one row of a pair lowers its target's count by one. */
  lemma ToggleCountRemoved<A, B>(t: Table<A, B>, a: A, b: B, newKey: nat, c: B)
    requires newKey !in t && AtMostOnePerPair(t) && Holds(t, a, b)
    ensures CountTo(Toggle(t, a, b, newKey).0, c) == if c == b then CountTo(t, b) - 1 else CountTo(t, c)
  {
    var r := Toggle(t, a, b, newKey).0;
    var id :| id in t && t[id] == Link(a, b);
    assert RowsFor(t, a, b) == {id};
    if c == b {
      assert RowsTo(r, b) == RowsTo(t, b) - {id};
    } else {
      assert RowsTo(r, c) == RowsTo(t, c);
    }
  }

  /** Adding a row for a pair raises its target's count by one. */
  lemma ToggleCountAdded<A, B>(t: Table<A, B>, a: A, b: B, newKey: nat, c: B)
    requires newKey !in t && !Holds(t, a, b)
    ensures CountTo(Toggle(t, a, b, newKey).0, c) == if c == b then CountTo(t, b) + 1 else CountTo(t, c)
  {
    var r := Toggle(t, a, b, newKey).0;
    assert r == t[newKey := Link(a, b)];
    if c == b {
      assert RowsTo(r, b) == RowsTo(t, b) + {newKey};
    } else {
      assert RowsTo(r, c) == RowsTo(t, c);
    }
  }

  /** When no row points at `b`, every other table row is kept and `b` has no count. */
  lemma CountToEmpty<A, B>(t: Table<A, B>, b: B)
    requires forall id :: id in t ==> t[id].to != b
    ensures CountTo(t, b) == 0
  {
    assert RowsTo(t, b) == {};
  }
}

=== FILE: text.dfy ===
/**
 * The string operations the queries rely on: Python's `str.strip()`, the
 * database's case-insensitive `icontains` lookup, and the collation used by
 * `order_by("title")`. Case folding covers ASCII letters only.
 */
module Text {
  import opened Wrappers

  /** Python whitespace in the ASCII range: space, `\t`..`\r` and `\x1c`..`\x1f`. */
  predicate IsSpace(c: char)
  {
    c == ' ' || (9 <= c as int <= 13) || (28 <= c as int <= 31)
  }

  /** `s.strip()` is empty. */
  predicate IsBlank(s: string)
  {
    forall i :: 0 <= i < |s| ==> IsSpace(s[i])
  }

  function TrimLeft(s: string): (r: string)
    ensures |r| <= |s| && r == s[|s| - |r|..]
    ensures forall i :: 0 <= i < |s| - |r| ==> IsSpace(s[i])
    ensures |r| == 0 || !IsSpace(r[0])
  {
    if |s| > 0 && IsSpace(s[0]) then TrimLeft(s[1..]) else s
  }

  function TrimRight(s: string): (r: string)
    ensures |r| <= |s| && r == s[..|r|]
    ensures forall i :: |r| <= i < |s| ==> IsSpace(s[i])
    ensures |r| == 0 || !IsSpace(r[|r| - 1])
  {
    if |s| > 0 && IsSpace(s[|s| - 1]) then TrimRight(s[..|s| - 1]) else s
  }

  /** Everything in `s` before `i` and from `j` on is whitespace. */
  predicate SpaceMargins(s: string, i: int, j: int)
    requires 0 <= i <= j <= |s|
  {
    (forall k :: 0 <= k < i ==> IsSpace(s[k])) && (forall k :: j <= k < |s| ==> IsSpace(s[k]))
  }

  /**
   * A suffix `l` of `s` after a whitespace prefix, cut down to a prefix `t`
   * before a whitespace tail, is a slice of `s` with whitespace margins.
   */
  lemma {:induction false} TrimBothAt(s: string, l: string, t: string)
    requires |l| <= |s| && l == s[|s| - |l|..]
    requires forall k :: 0 <= k < |s| - |l| ==> IsSpace(s[k])
    requires |t| <= |l| && t == l[..|t|]
    requires forall k :: |t| <= k < |l| ==> IsSpace(l[k])
    ensures t == s[|s| - |l|..|s| - |l| + |t|]
    ensures SpaceMargins(s, |s| - |l|, |s| - |l| + |t|)
  {
    var i := |s| - |l|;
    forall k | i + |t| <= k < |s| ensures IsSpace(s[k]) {
      assert s[k] == l[k - i];
    }
  }

  /** Python's `s.strip()` over the whitespace of `IsSpace`. */
  function Strip(s: string): (r: string)
    ensures |r| == 0 || (!IsSpace(r[0]) && !IsSpace(r[|r| - 1]))
    ensures exists i, j {:trigger SpaceMargins(s, i, j)} :: 0 <= i <= j <= |s| && r == s[i..j] && SpaceMargins(s, i, j)
  {
    var l := TrimLeft(s);
    var t := TrimRight(l);
    TrimBothAt(s, l, t);
    t
  }

  /** Two non-empty slices bordered by whitespace, with none at their own ends, coincide. */
  lemma {:induction false} MarginsUnique(s: string, i: int, j: int, i': int, j': int)
    requires 0 <= i < j <= |s| && SpaceMargins(s, i, j) && !IsSpace(s[i]) && !IsSpace(s[j - 1])
    requires 0 <= i' < j' <= |s| && SpaceMargins(s, i', j') && !IsSpace(s[i']) && !IsSpace(s[j' - 1])
    ensures i == i' && j == j'
  {
  }

  /** A non-empty slice bordered by whitespace, with none at its own ends, is the stripped string. */
  lemma {:induction false} StripCore(s: string, i: int, j: int)
    requires 0 <= i < j <= |s|
    requires SpaceMargins(s, i, j)
    requires !IsSpace(s[i]) && !IsSpace(s[j - 1])
    ensures Strip(s) == s[i..j]
  {
    var r := Strip(s);
    var i', j' :| 0 <= i' <= j' <= |s| && r == s[i'..j'] && SpaceMargins(s, i', j');
    assert !IsBlank(s) by { assert !IsSpace(s[i]); }
    StripEmptyIffBlank(s);
    assert r != [] && |r| == j' - i';
    assert !IsSpace(r[0]) && !IsSpace(r[|r| - 1]);
    assert r[0] == s[i'] && r[|r| - 1] == s[j' - 1];
    MarginsUnique(s, i, j, i', j');
  }

  /**
   * `s.strip()` is pinned down by the margins it drops: whenever `s[i..j]`
   * is bordered by whitespace only and has no whitespace at either end
   * (or is empty), it is the stripped string.
   */
  lemma {:induction false} StripUnique(s: string, i: int, j: int)
    requires 0 <= i <= j <= |s|
    requires SpaceMargins(s, i, j)
    requires i == j || (!IsSpace(s[i]) && !IsSpace(s[j - 1]))
    ensures Strip(s) == s[i..j]
  {
    if i == j {
      assert IsBlank(s) by {
        forall k | 0 <= k < |s| ensures IsSpace(s[k]) {
          assert k < i || j <= k;
        }
      }
      StripEmptyIffBlank(s);
    } else {
      StripCore(s, i, j);
    }
  }

  /** `s.strip()` is falsy exactly when `s` is all whitespace. */
  lemma StripEmptyIffBlank(s: string)
    ensures Strip(s) == [] <==> IsBlank(s)
  {
    var l := TrimLeft(s);
    if !IsBlank(s) {
      var i :| 0 <= i < |s| && !IsSpace(s[i]);
      assert l[i - (|s| - |l|)] == s[i];
    }
  }

  /** Stripping a stripped string changes nothing. */
  /** A slice bordered only by whitespace holds every non-whitespace character of `s`. */
  lemma {:induction false} MarginsKeep(s: string, i: int, j: int, c: char)
    requires 0 <= i <= j <= |s|
    requires SpaceMargins(s, i, j) && !IsSpace(c)
    ensures c in s[i..j] <==> c in s
  {
    if c in s {
      var k :| 0 <= k < |s| && s[k] == c;
      assert i <= k < j;
      assert s[i..j][k - i] == c;
    }
  }

  /** Stripping removes only whitespace: any other character survives it. */
  lemma StripKeeps(s: string, c: char)
    requires !IsSpace(c)
    ensures c in Strip(s) <==> c in s
  {
    var i, j :| 0 <= i <= j <= |s| && Strip(s) == s[i..j] && SpaceMargins(s, i, j);
    MarginsKeep(s, i, j, c);
  }

  lemma StripIdempotent(s: string)
    ensures Strip(Strip(s)) == Strip(s)
  {
    var t := Strip(s);
    assert TrimLeft(t) == t;
    assert TrimRight(t) == t;
  }

  /** ASCII lower-casing, standing in for the database's case-insensitive collation. */
  function Lower(c: char): (d: char)
    ensures 'A' <= c <= 'Z' ==> 'a' <= d <= 'z' && d as int - c as int == 32
    ensures !('A' <= c <= 'Z') ==> d == c
  {
    if 'A' <= c <= 'Z' then (c as int + 32) as char else c
  }

  function LowerStr(s: string): (r: string)
    ensures |r| == |s|
    ensures forall i :: 0 <= i < |s| ==> r[i] == Lower(s[i])
  {
    seq(|s|, i requires 0 <= i < |s| => Lower(s[i]))
  }

  lemma LowerStrIdempotent(s: string)
    ensures LowerStr(LowerStr(s)) == LowerStr(s)
  {
  }

  /** `sub` occurs in `s` starting at position `i`. */
  predicate MatchAt(sub: string, s: string, i: int)
  {
    0 <= i && i + |sub| <= |s| && s[i..i + |sub|] == sub
  }

  /** `sub` occurs in `s` at some position. */
  predicate IsSubstring(sub: string, s: string)
  {
    exists i :: 0 <= i <= |s| - |sub| && MatchAt(sub, s, i)
  }

  /** The `icontains` lookup: `q` occurs in `s` ignoring ASCII case. */
  predicate IContains(s: string, q: string)
  {
    IsSubstring(LowerStr(q), LowerStr(s))
  }

  /** Lower-casing either side does not change an `icontains` match. */
  lemma IContainsIgnoresCase(s: string, q: string)
    ensures IContains(LowerStr(s), q) <==> IContains(s, q)
    ensures IContains(s, LowerStr(q)) <==> IContains(s, q)
  {
    LowerStrIdempotent(s);
    LowerStrIdempotent(q);
  }

  /** Lexicographic order on code points: the collation assumed for `order_by("title")`. */
  predicate StrLe(a: string, b: string)
  {
    |a| == 0 || (|b| > 0 && (a[0] < b[0] || (a[0] == b[0] && StrLe(a[1..], b[1..]))))
  }

  lemma {:induction false} StrLeTrans(a: string, b: string, c: string)
    requires StrLe(a, b) && StrLe(b, c)
    ensures StrLe(a, c)
  {
    if |a| > 0 && a[0] == b[0] && b[0] == c[0] {
      StrLeTrans(a[1..], b[1..], c[1..]);
    }
  }

  lemma {:induction false} StrLeTotal(a: string, b: string)
    ensures StrLe(a, b) || StrLe(b, a)
  {
    if |a| > 0 && |b| > 0 && a[0] == b[0] {
      StrLeTotal(a[1..], b[1..]);
    }
  }

  // ---------------------------------------------------------------------
  // Python's `int()` on a request parameter, base 10, ASCII digits

  predicate IsDigit(c: char)
  {
    '0' <= c <= '9'
  }

  function DigitValue(c: char): nat
    requires IsDigit(c)
  {
    c as int - '0' as int
  }

  /** The digit character of `d`. */
  function DigitChar(d: nat): (c: char)
    requires d < 10
    ensures IsDigit(c) && DigitValue(c) == d
  {
    ('0' as int + d) as char
  }

  /** Digits, with single underscores allowed between two digits (PEP 515). */
  predicate DigitGroups(s: string)
  {
    && |s| > 0 && IsDigit(s[0]) && IsDigit(s[|s| - 1])
    && (forall i :: 0 <= i < |s| ==> IsDigit(s[i]) || s[i] == '_')
    && (forall i :: 0 <= i < |s| - 1 ==> s[i] == '_' ==> s[i + 1] != '_')
  }

  /** The base-10 value of the digits of `s`, underscores skipped. */
  function DigitsValue(s: string): nat
    requires forall i :: 0 <= i < |s| ==> IsDigit(s[i]) || s[i] == '_'
  {
    if s == [] then 0
    else if s[|s| - 1] == '_' then DigitsValue(s[..|s| - 1])
    else DigitsValue(s[..|s| - 1]) * 10 + DigitValue(s[|s| - 1])
  }

  /** What `int()` accepts once surrounding whitespace is gone: an optional sign, then digit groups. */
  predicate IntLiteral(t: string)
  {
    DigitGroups(t) || (|t| > 0 && (t[0] == '+' || t[0] == '-') && DigitGroups(t[1..]))
  }

  /** `int(s)` on a string: `Some` of its value, or `None` where Python raises `ValueError`. */
  function ParseInt(s: string): (r: Option<int>)
    ensures r.Some? <==> IntLiteral(Strip(s))
    ensures r.Some? && r.value < 0 ==> Strip(s)[0] == '-'
  {
    var t := Strip(s);
    if DigitGroups(t) then Some(DigitsValue(t))
    else if |t| > 0 && (t[0] == '+' || t[0] == '-') && DigitGroups(t[1..]) then
      var v: int := DigitsValue(t[1..]);
      Some(if t[0] == '-' then -v else v)
    else None
  }

  /** The two page values `ListView` reads before trying `int()` are not integers. */
  lemma NotIntegers()
    ensures ParseInt("") == None && ParseInt("last") == None
  {
    assert Strip("") == "" by { StripUnique("", 0, 0); }
    assert Strip("last") == "last" by { StripUnique("last", 0, 4); }
    assert !DigitGroups("last") && !DigitGroups("ast");
  }

  /** `str(n)` for a natural number. */
  function ShowNat(n: nat): (r: string)
    ensures |r| > 0
    ensures forall i :: 0 <= i < |r| ==> IsDigit(r[i])
  {
    if n < 10 then [DigitChar(n)] else ShowNat(n / 10) + [DigitChar(n % 10)]
  }

  /** `str(n)`. */
  function ShowInt(n: int): (r: string)
  {
    if n < 0 then "-" + ShowNat(-n) else ShowNat(n)
  }

  lemma {:induction false} ShowNatValue(n: nat)
    ensures DigitGroups(ShowNat(n))
    ensures DigitsValue(ShowNat(n)) == n
  {
    var r := ShowNat(n);
    if n >= 10 {
      ShowNatValue(n / 10);
      assert r[..|r| - 1] == ShowNat(n / 10);
    }
  }

  /** `int(str(n)) == n`: every page number the app links to reads back as itself. */
  lemma ParseShowInt(n: int)
    ensures ParseInt(ShowInt(n)) == Some(n)
  {
    var s := ShowInt(n);
    var m := if n < 0 then -n else n;
    ShowNatValue(m);
    var d := ShowNat(m);
    assert !IsSpace(s[0]) && !IsSpace(s[|s| - 1]) by {
      assert IsDigit(d[0]) && IsDigit(d[|d| - 1]);
      assert s[|s| - 1] == d[|d| - 1];
    }
    StripUnique(s, 0, |s|);
    assert s[0..|s|] == s;
    if n < 0 {
      assert s[1..] == d;
      assert !DigitGroups(s);
    }
  }
}

=== FILE: viewfunc.dfy ===
/**
 * The function views that change the database: upvote, bookmark, item
 * tick/delete, publish, follow user, save-and-edit, dismiss notification,
 * follow checklist and submit comment. Each is a pure transition from the
 * database and the request to the database afterwards and the outcome.
 * Every caller is logged in (`login_required`); a guest is redirected before
 * any of this runs.
 */
module ViewFunc {
  import opened Wrappers
  import opened Relation
  import opened Models
  import opened Outcomes

  /** `request.user` is the author of checklist `cid`. */
  predicate IsAuthor(db: Db, user: UserId, cid: Id)
    requires cid in db.checklists
  {
    db.checklists[cid].author == user
  }

  // ---------------------------------------------------------------------
  // upvote_checklist

  function UpvoteChecklist(db: Db, user: UserId, cid: Id): (r: Step)
    requires FreshIds(db)
    ensures FreshIds(r.db)
    ensures cid !in db.checklists ==> r == Step(db, Crash)
    ensures cid in db.checklists && IsAuthor(db, user, cid) ==> r == Step(db, Refused(UpvoteOwnDenied))
    ensures cid in db.checklists && !IsAuthor(db, user, cid) ==>
      && r.db.upvotes.Values == Flip(db.upvotes.Values, Link(user, cid))
      && (forall k :: k in db.upvotes && db.upvotes[k] != Link(user, cid) ==> k in r.db.upvotes && r.db.upvotes[k] == db.upvotes[k])
      && r.db == db.(upvotes := r.db.upvotes, notifications := r.db.notifications, nextId := r.db.nextId, clock := r.db.clock)
    ensures cid in db.checklists && !IsAuthor(db, user, cid) && Holds(db.upvotes, user, cid) ==>
      && r.out == Done(UpvoteRetracted)
      && RowsFor(r.db.upvotes, user, cid) == {}
      && r.db.notifications == db.notifications
    ensures cid in db.checklists && !IsAuthor(db, user, cid) && !Holds(db.upvotes, user, cid) ==>
      && r.out == Done(Upvoted)
      && |RowsFor(r.db.upvotes, user, cid)| == 1
      && Inserted(db.notifications, r.db.notifications,
                  Notification(user, Some(db.checklists[cid].author), db.clock, UpvoteNotif, Some(cid)))
  {
    if cid !in db.checklists then Step(db, Crash)
    else if IsAuthor(db, user, cid) then Step(db, Refused(UpvoteOwnDenied))
    else
      var tg := Toggle(db.upvotes, user, cid, db.nextId);
      var db1 := db.(upvotes := tg.0, nextId := db.nextId + 1);
      if tg.1 then
        Step(Notify(db1, user, Some(db.checklists[cid].author), UpvoteNotif, Some(cid)), Done(Upvoted))
      else Step(db1, Done(UpvoteRetracted))
  }

  /** Two upvote requests in a row leave the upvote relation as it was. */
  lemma UpvoteTwice(db: Db, user: UserId, cid: Id)
    requires FreshIds(db)
    ensures var r1 := UpvoteChecklist(db, user, cid);
      UpvoteChecklist(r1.db, user, cid).db.upvotes.Values == db.upvotes.Values
  {
    var r1 := UpvoteChecklist(db, user, cid);
    if cid in db.checklists && !IsAuthor(db, user, cid) {
      assert r1.db.checklists == db.checklists;
      FlipTwice(db.upvotes.Values, Link(user, cid));
    }
  }

  // ---------------------------------------------------------------------
  // bookmark_checklist

  function BookmarkChecklist(db: Db, user: UserId, cid: Id): (r: Step)
    requires FreshIds(db)
    ensures FreshIds(r.db)
    ensures cid !in db.checklists ==> r == Step(db, Crash)
    ensures cid in db.checklists && IsAuthor(db, user, cid) ==> r == Step(db, Refused(BookmarkOwnDenied))
    ensures cid in db.checklists && !IsAuthor(db, user, cid) ==>
      && r.db.bookmarks.Values == Flip(db.bookmarks.Values, Link(user, cid))
      && (forall k :: k in db.bookmarks && db.bookmarks[k] != Link(user, cid) ==> k in r.db.bookmarks && r.db.bookmarks[k] == db.bookmarks[k])
      && r.db == db.(bookmarks := r.db.bookmarks, nextId := r.db.nextId)
      && r.out == (if Holds(db.bookmarks, user, cid) then Done(BookmarkRemoved) else Done(Bookmarked))
      && |RowsFor(r.db.bookmarks, user, cid)| == (if Holds(db.bookmarks, user, cid) then 0 else 1)
  {
    if cid !in db.checklists then Step(db, Crash)
    else if IsAuthor(db, user, cid) then Step(db, Refused(BookmarkOwnDenied))
    else
      var tg := Toggle(db.bookmarks, user, cid, db.nextId);
      Step(db.(bookmarks := tg.0, nextId := db.nextId + 1),
           if tg.1 then Done(Bookmarked) else Done(BookmarkRemoved))
  }

  /** Two bookmark requests in a row leave the bookmark relation as it was. */
  lemma BookmarkTwice(db: Db, user: UserId, cid: Id)
    requires FreshIds(db)
    ensures var r1 := BookmarkChecklist(db, user, cid);
      BookmarkChecklist(r1.db, user, cid).db.bookmarks.Values == db.bookmarks.Values
  {
    var r1 := BookmarkChecklist(db, user, cid);
    if cid in db.checklists && !IsAuthor(db, user, cid) {
      assert r1.db.checklists == db.checklists;
      FlipTwice(db.bookmarks.Values, Link(user, cid));
    }
  }

  // ---------------------------------------------------------------------
  // item_action

  function ItemAction(db: Db, user: UserId, itemId: Id, action: string): (r: Step)
    ensures itemId !in db.items || db.items[itemId].checklist !in db.checklists ==> r == Step(db, Crash)
    ensures (itemId in db.items && db.items[itemId].checklist in db.checklists
             && !IsAuthor(db, user, db.items[itemId].checklist)) ==> r == Step(db, Refused(ItemActionDenied))
    ensures r.out == Done(ItemToggled) ==>
      && action == "complete" && itemId in db.items
      && r.db.items.Keys == db.items.Keys
      && r.db.items[itemId].completed == !db.items[itemId].completed
      && r.db.items[itemId].(completed := db.items[itemId].completed) == db.items[itemId]
      && (forall k :: k in db.items && k != itemId ==> r.db.items[k] == db.items[k])
    ensures r.out == Done(ItemDeleted) ==>
      && action == "delete"
      && (forall k :: k in r.db.items <==> k in db.items && k != itemId)
      && (forall k :: k in r.db.items ==> r.db.items[k] == db.items[k])
    ensures r.db == db.(items := r.db.items)
    ensures r.out.Done? || r.db == db
    ensures itemId in db.items && db.items[itemId].checklist in db.checklists
            && IsAuthor(db, user, db.items[itemId].checklist) ==>
      r.out == (if action == "complete" then Done(ItemToggled) else if action == "delete" then Done(ItemDeleted) else Crash)
  {
    if itemId !in db.items || db.items[itemId].checklist !in db.checklists then Step(db, Crash)
    else if !IsAuthor(db, user, db.items[itemId].checklist) then Step(db, Refused(ItemActionDenied))
    else
      var item := db.items[itemId];
      if action == "complete" then
        Step(db.(items := db.items[itemId := item.(completed := !item.completed)]), Done(ItemToggled))
      else if action == "delete" then
        Step(db.(items := db.items - {itemId}), Done(ItemDeleted))
      else
        // `msg` is never assigned: `messages.success(request, msg)` raises
        Step(db, Crash)
  }

  /** Ticking an item twice restores the database. */
  lemma TickTwice(db: Db, user: UserId, itemId: Id)
    ensures ItemAction(ItemAction(db, user, itemId, "complete").db, user, itemId, "complete").db == db
  {
    var r1 := ItemAction(db, user, itemId, "complete");
    if r1.out == Done(ItemToggled) {
      assert r1.db.items[itemId := db.items[itemId]] == db.items;
    }
  }

  // ---------------------------------------------------------------------
  // publish_checklist

  function PublishChecklist(db: Db, user: UserId, cid: Id): (r: Step)
    ensures cid !in db.checklists ==> r == Step(db, Crash)
    ensures cid in db.checklists && !IsAuthor(db, user, cid) ==> r == Step(db, Refused(PublishDenied))
    ensures cid in db.checklists && IsAuthor(db, user, cid) ==>
      && r.out == Done(Published)
      && r.db.checklists.Keys == db.checklists.Keys
      && !r.db.checklists[cid].isDraft
      && r.db.checklists[cid].(isDraft := db.checklists[cid].isDraft) == db.checklists[cid]
      && (forall k :: k in db.checklists && k != cid ==> r.db.checklists[k] == db.checklists[k])
      && r.db == db.(checklists := r.db.checklists)
  {
    if cid !in db.checklists then Step(db, Crash)
    else if !IsAuthor(db, user, cid) then Step(db, Refused(PublishDenied))
    else Step(db.(checklists := db.checklists[cid := db.checklists[cid].(isDraft := false)]), Done(Published))
  }

  /** Publishing twice is publishing once. */
  lemma PublishIdempotent(db: Db, user: UserId, cid: Id)
    ensures var r1 := PublishChecklist(db, user, cid);
      PublishChecklist(r1.db, user, cid).db == r1.db
  {
    var r1 := PublishChecklist(db, user, cid);
    if cid in db.checklists && IsAuthor(db, user, cid) {
      assert r1.db.checklists[cid := r1.db.checklists[cid].(isDraft := false)] == r1.db.checklists;
    }
  }

  // ---------------------------------------------------------------------
  // follow_user

  /** `follow_user(request, username)` by logged-in `user`. */
  function FollowUser(db: Db, user: UserId, username: UserId): (r: Step)
    requires FreshIds(db)
    ensures FreshIds(r.db)
    ensures user == username ==> r == Step(db, Refused(FollowSelfDenied))
    // an unknown name leaves `toUser` as None and saving the Follow row fails
    ensures user != username && username !in db.users ==> r == Step(db, Crash)
    ensures user != username && username in db.users ==>
      && r.db.follows.Values == Flip(db.follows.Values, Link(user, username))
      && r.db == db.(follows := r.db.follows, notifications := r.db.notifications, nextId := r.db.nextId, clock := r.db.clock)
      && (Holds(db.follows, user, username) ==> r.out == Done(UserUnfollowed) && r.db.notifications == db.notifications)
      && (!Holds(db.follows, user, username) ==>
            && r.out == Done(UserFollowed)
            && Inserted(db.notifications, r.db.notifications, Notification(user, Some(username), db.clock, UserFollowNotif, None)))
  {
    if user == username then Step(db, Refused(FollowSelfDenied))
    else if username !in db.users then Step(db, Crash)
    else
      var tg := Toggle(db.follows, user, username, db.nextId);
      var db1 := db.(follows := tg.0, nextId := db.nextId + 1);
      if tg.1 then Step(Notify(db1, user, Some(username), UserFollowNotif, None), Done(UserFollowed))
      else Step(db1, Done(UserUnfollowed))
  }

  lemma FollowUserTwice(db: Db, user: UserId, username: UserId)
    requires FreshIds(db)
    ensures var r1 := FollowUser(db, user, username);
      FollowUser(r1.db, user, username).db.follows.Values == db.follows.Values
  {
    var r1 := FollowUser(db, user, username);
    if user != username && username in db.users {
      assert r1.db.users == db.users;
      FlipTwice(db.follows.Values, Link(user, username));
    }
  }

  // ---------------------------------------------------------------------
  // save_and_edit

  /** `c` is what save-and-edit makes of `original` for `user`. */
  predicate IsCopyFor(c: Checklist, original: Checklist, user: UserId)
  {
    && c.title == original.title + " by " + user
    && c.content == original.content
    && c.author == user
    && c.category == original.category
  }

  /** The duplicate check: the user already owns a copy of checklist `cid`. */
  predicate AlreadyCopied(db: Db, user: UserId, cid: Id)
    requires cid in db.checklists
  {
    exists k :: k in db.checklists && IsCopyFor(db.checklists[k], db.checklists[cid], user)
  }

  /** The items `src` copied, one by one, to checklist `target` under keys `base`, `base + 1`, ... */
  function CopyItems(items: map<Id, Item>, src: seq<Id>, target: Id, base: nat): (r: map<Id, Item>)
    requires forall j :: 0 <= j < |src| ==> src[j] in items
    requires KeysBelow(items, base)
    ensures forall k :: k in r <==> k in items || base <= k < base + |src|
    ensures forall k :: k in items ==> r[k] == items[k]
    ensures forall j {:trigger src[j]} :: 0 <= j < |src| ==> r[base + j] == items[src[j]].(checklist := target)
    decreases |src|
  {
    if |src| == 0 then items
    else CopyItems(items[base := items[src[0]].(checklist := target)], src[1..], target, base + 1)
  }

  /**
   * The copy itself: checklist `nextId` for `user`, the copied items under
   * the keys right after it, the clock moved on.
   */
  function SaveCopy(db: Db, user: UserId, cid: Id): (r: Db)
    requires FreshIds(db) && cid in db.checklists
    ensures db.nextId !in db.checklists && db.nextId in r.checklists
    ensures r.checklists == db.checklists[db.nextId := r.checklists[db.nextId]]
    ensures IsCopyFor(r.checklists[db.nextId], db.checklists[cid], user)
    ensures !r.checklists[db.nextId].isDraft && r.checklists[db.nextId].datePosted == db.clock
    ensures forall k :: k in db.items ==> k in r.items && r.items[k] == db.items[k]
    ensures r.items == CopiedItems(db, cid) && r.nextId == db.nextId + 1 + |ItemsOf(db, cid)|
    ensures r == db.(checklists := r.checklists, items := r.items, nextId := r.nextId, clock := r.clock)
  {
    var original := db.checklists[cid];
    var n := db.nextId;
    var copy := NewChecklist(original.title + " by " + user, original.content, user, original.category, db.clock);
    var src := ItemsOf(db, cid);
    var items := CopiedItems(db, cid);
    db.(checklists := db.checklists[n := copy], items := items, nextId := n + 1 + |src|, clock := db.clock + 1)
  }

  /** The items the copy receives, under the keys right after the copy's own. */
  function CopiedItems(db: Db, cid: Id): (r: map<Id, Item>)
    requires KeysBelow(db.items, db.nextId + 1)
  {
    CopyItems(db.items, ItemsOf(db, cid), db.nextId, db.nextId + 1)
  }

  /** The copy adds exactly the keys after `nextId`, one per item of the original. */
  lemma CopiedItemsKeys(db: Db, cid: Id)
    requires KeysBelow(db.items, db.nextId + 1)
    ensures forall k :: k in CopiedItems(db, cid) <==> k in db.items || db.nextId < k <= db.nextId + |ItemsOf(db, cid)|
  {
  }

  /**
   * Item `j` of the original, in id order, reappears under key
   * `nextId + 1 + j`, pointing at the copy.
   */
  lemma CopiedItemsContents(db: Db, cid: Id, src: seq<Id>)
    requires KeysBelow(db.items, db.nextId + 1)
    requires src == ItemsOf(db, cid)
    ensures forall j :: 0 <= j < |src| ==>
      var r := CopiedItems(db, cid);
      db.nextId + 1 + j in r && r[db.nextId + 1 + j] == db.items[src[j]].(checklist := db.nextId)
  {
    var n := db.nextId;
    var r := CopiedItems(db, cid);
    forall j | 0 <= j < |src|
      ensures n + 1 + j in r && r[n + 1 + j] == db.items[src[j]].(checklist := n)
    {
      assert src[j] in db.items;
    }
  }

  /** The copy and its items take ids below the new counter. */
  lemma SaveCopyFresh(db: Db, user: UserId, cid: Id)
    requires FreshIds(db) && cid in db.checklists
    ensures FreshIds(SaveCopy(db, user, cid))
  {
    var r := SaveCopy(db, user, cid);
    FreshAfterBump(db, r.nextId);
    assert KeysBelow(r.items, r.nextId);
    assert KeysBelow(r.checklists, r.nextId);
  }

  /**
   * `save_and_edit`: a non-author gets a copy titled "<title> by <username>",
   * with the original's content and category, as a published checklist of
   * their own, together with a copy of every item. The original is untouched.
   */
  function SaveAndEdit(db: Db, user: UserId, cid: Id): (r: Step)
    requires FreshIds(db)
    ensures FreshIds(r.db)
    ensures cid !in db.checklists ==> r == Step(db, Crash)
    ensures cid in db.checklists && IsAuthor(db, user, cid) ==> r == Step(db, Refused(SaveOwnDenied))
    ensures cid in db.checklists && !IsAuthor(db, user, cid) && AlreadyCopied(db, user, cid) ==>
      r == Step(db, Refused(AlreadySaved))
    ensures cid in db.checklists && !IsAuthor(db, user, cid) && !AlreadyCopied(db, user, cid) ==>
      r == Step(SaveCopy(db, user, cid), Done(SavedCopy))
  {
    if cid !in db.checklists then Step(db, Crash)
    else if IsAuthor(db, user, cid) then Step(db, Refused(SaveOwnDenied))
    else if AlreadyCopied(db, user, cid) then Step(db, Refused(AlreadySaved))
    else
      SaveCopyFresh(db, user, cid);
      Step(SaveCopy(db, user, cid), Done(SavedCopy))
  }

  /** Saving the same checklist again changes nothing and says so. */
  lemma SaveAndEditRepeat(db: Db, user: UserId, cid: Id)
    requires FreshIds(db)
    ensures var r1 := SaveAndEdit(db, user, cid);
      r1.out == Done(SavedCopy) ==> SaveAndEdit(r1.db, user, cid) == Step(r1.db, Refused(AlreadySaved))
  {
    var r1 := SaveAndEdit(db, user, cid);
    if r1.out == Done(SavedCopy) {
      var n := db.nextId;
      assert n in r1.db.checklists && IsCopyFor(r1.db.checklists[n], r1.db.checklists[cid], user);
    }
  }

  // ---------------------------------------------------------------------
  // dismiss_notif

  /** Deletes notification `id`, whoever asks; an unknown id is a no-op. */
  function DismissNotif(db: Db, user: UserId, id: Id): (r: Step)
    ensures r.out == Silent
    ensures forall k :: k in r.db.notifications <==> k in db.notifications && k != id
    ensures forall k :: k in r.db.notifications ==> r.db.notifications[k] == db.notifications[k]
    ensures r.db == db.(notifications := r.db.notifications)
    ensures id !in db.notifications ==> r.db == db
  {
    Step(db.(notifications := db.notifications - {id}), Silent)
  }

  // ---------------------------------------------------------------------
  // follow_checklist

  function FollowChecklist(db: Db, user: UserId, cid: Id): (r: Step)
    requires FreshIds(db)
    ensures FreshIds(r.db)
    ensures cid !in db.checklists ==> r == Step(db, Crash)
    ensures cid in db.checklists && IsAuthor(db, user, cid) ==> r == Step(db, Refused(FollowOwnChecklistDenied))
    ensures cid in db.checklists && !IsAuthor(db, user, cid) ==>
      && r.db.checklistFollows.Values == Flip(db.checklistFollows.Values, Link(user, cid))
      && r.db == db.(checklistFollows := r.db.checklistFollows, notifications := r.db.notifications,
                     nextId := r.db.nextId, clock := r.db.clock)
      && (Holds(db.checklistFollows, user, cid) ==>
            r.out == Done(ChecklistUnfollowed) && r.db.notifications == db.notifications)
      && (!Holds(db.checklistFollows, user, cid) ==>
            && r.out == Done(ChecklistFollowed)
            && Inserted(db.notifications, r.db.notifications,
                        Notification(user, Some(db.checklists[cid].author), db.clock, ChecklistFollowNotif, Some(cid))))
  {
    if cid !in db.checklists then Step(db, Crash)
    else if IsAuthor(db, user, cid) then Step(db, Refused(FollowOwnChecklistDenied))
    else
      var tg := Toggle(db.checklistFollows, user, cid, db.nextId);
      var db1 := db.(checklistFollows := tg.0, nextId := db.nextId + 1);
      if tg.1 then
        Step(Notify(db1, user, Some(db.checklists[cid].author), ChecklistFollowNotif, Some(cid)), Done(ChecklistFollowed))
      else Step(db1, Done(ChecklistUnfollowed))
  }

  lemma FollowChecklistTwice(db: Db, user: UserId, cid: Id)
    requires FreshIds(db)
    ensures var r1 := FollowChecklist(db, user, cid);
      FollowChecklist(r1.db, user, cid).db.checklistFollows.Values == db.checklistFollows.Values
  {
    var r1 := FollowChecklist(db, user, cid);
    if cid in db.checklists && !IsAuthor(db, user, cid) {
      assert r1.db.checklists == db.checklists;
      FlipTwice(db.checklistFollows.Values, Link(user, cid));
    }
  }

  // ---------------------------------------------------------------------
  // submit_comment

  /**
   * The comment a POST asks for: `Some(None)` for a new thread,
   * `Some(Some(p))` for a reply to `p`, `None` when reading `parent_id`
   * raises (not a number, or no such comment).
   */
  function ParentOf(db: Db, parentId: IntParam): (r: Option<Option<Id>>)
    ensures r == Some(None) <==> parentId.Missing? || parentId == Int(0)
    ensures r.Some? && r.value.Some? ==> r.value.value in db.comments && parentId == Int(r.value.value)
    ensures r.None? <==> parentId.NotAnInteger? || (parentId.Int? && parentId.value != 0
                                                    && (parentId.value < 0 || parentId.value as nat !in db.comments))
  {
    match parentId
    case Missing => Some(None)
    case NotAnInteger => None
    case Int(v) =>
      if v == 0 then Some(None)
      else if v > 0 && v as nat in db.comments then Some(Some(v as nat))
      else None
  }

  /**
   * `submit_comment`: `isPost` tells a POST from a GET, `form` is the
   * validated body (`None` when `CommentForm` is invalid), `parentId` the
   * `parent_id` field.
   */
  function SubmitComment(db: Db, user: UserId, cid: Id, isPost: bool, form: Option<string>, parentId: IntParam): (r: Step)
    requires FreshIds(db)
    ensures FreshIds(r.db)
    ensures cid !in db.checklists ==> r == Step(db, NotFound)
    ensures cid in db.checklists && (!isPost || form.None?) ==> r == Step(db, Silent)
    ensures cid in db.checklists && isPost && form.Some? && ParentOf(db, parentId).None? ==> r == Step(db, Crash)
    ensures cid in db.checklists && isPost && form.Some? && ParentOf(db, parentId) == Some(None) && IsAuthor(db, user, cid) ==>
      r == Step(db, Refused(AuthorReplyOnly))
    ensures r.out == Done(CommentSaved) <==>
      cid in db.checklists && isPost && form.Some? && ParentOf(db, parentId).Some?
      && (ParentOf(db, parentId).value.Some? || !IsAuthor(db, user, cid))
    ensures r.out == Done(CommentSaved) ==>
      && Inserted(db.comments, r.db.comments, Comment(cid, user, form.value, db.clock, ParentOf(db, parentId).value))
      && r.db == db.(comments := r.db.comments, nextId := r.db.nextId, clock := r.db.clock)
    ensures r.out != Done(CommentSaved) ==> r.db == db
  {
    if cid !in db.checklists then Step(db, NotFound)
    else if !isPost || form.None? then Step(db, Silent)
    else
      match ParentOf(db, parentId)
      case None => Step(db, Crash)
      case Some(parent) =>
        if parent.None? && IsAuthor(db, user, cid) then Step(db, Refused(AuthorReplyOnly))
        else
          var c := Comment(cid, user, form.value, db.clock, parent);
          InsertedAt(db.comments, db.nextId, c);
          Step(db.(comments := db.comments[db.nextId := c], nextId := db.nextId + 1, clock := db.clock + 1),
               Done(CommentSaved))
  }
}

=== FILE: wrappers.dfy ===
/** Small failure-carrying datatypes shared by the whole model. */
module Wrappers {

  /** A nullable value: a `null=True` foreign key, a lookup that may miss. */
  datatype Option<+T> = None | Some(value: T)

  /**
   * What Python's `int(x)` makes of an optional request parameter such as
   * `parent_id`: the parameter is absent (`int(None)` raises `TypeError`),
   * present but not a number (`int("abc")` raises `ValueError`), or an
   * integer. Views that take such a parameter receive this classification;
   * the `page` parameter of the list views is parsed character by character
   * by `Text.ParseInt` instead.
   */
  datatype IntParam = Missing | NotAnInteger | Int(value: int)
}
